=== FILE: README.md ===
# SIMAKerja frontend: the submission core, modelled in Dafny

SIMAKerja is the web client students and staff of the Faculty of Technology use
to file and track cooperation documents (MoA and IA submissions) with outside
partners. This project models the client's decision logic as pure Dafny
functions over immutable data, and proves what that logic promises:

- **Access** (`access.dfy`, `auth_store.dfy`). The session store
  (`initialize`, `updateFields`, `logout`, `setError`, persistence of the user
  and the flag). The `canCreateSubmission` policy. The `ProtectedRoute`,
  `GuestRoute` and `FeatureGate` guards. `useHasRole` and the one-shot
  initialiser.
- **Submission rules** (`submission_types.dfy`, `submission_schema.dfy`). The
  enumerations and their wire names. The zod schemas of the create and edit
  forms. Their `superRefine` compares each group's study program and unit
  joined into one text with a bar between them, and rejects a group whose
  joined text was seen before. The model keeps that rule as written and uses
  the corrected rule, which compares the program and unit themselves (see
  "## Findings").
- **Submitting and editing** (`submit_page.dfy`, `update_page.dfy`,
  `update_user.dfy`). The partner combobox and mode switch. The duplicate-partner
  warning. The round trip between the student multi-select and NIM lists. The
  `onSubmit` handlers. The profile page's form, edit toggle and success handler.
- **Name similarity** (`trigram.dfy`). The `normalize`, `getTrigrams` and
  `trigramSimilarity` pipeline (a Sørensen–Dice coefficient over padded
  character trigrams). The similarity is real-valued, and its loops are written
  as methods proved equal to a functional definition.
- **Service and cache keys** (`submission_service.dfy`, `submission_hooks.dfy`).
  The query parameters and payloads the service sends, and its 401 handling.
  The React Query key hierarchy and what an invalidation reaches. The create
  mutation's error mapping.
- **Tables and viewers** (`table_types.dfy`, `data_table.dfy`, `staff_detail.dfy`,
  `pdf_viewer.dfy`). Spring sort and pagination encoding. The pager strip of
  `generatePageNumbers` and the "x - y dari n" range label. The staff detail
  page's URL parameters, search, verify button and labels. The PDF dialog's
  page navigation and download name.
- **Display helpers** (`display.dfy`, `text.dfy`). `displayFullName` and
  `displayStudyProgram`, plus the JavaScript string primitives they rest on:
  `\s`, `trim`, `toLowerCase`, `split`, `join`, and whitespace-run replacement.

Things the browser, the network or React supply become parameters:

- the outcome of an HTTP call (`Outcome`);
- the `z.email()` check (`isEmail`);
- the current location and the `from` state of a redirect.

Effects of React's `useEffect` are modelled as the state they produce.

`src/api/client.ts` has no token refresh and no request queue. On a 401
it shows a toast and redirects to the login page, and nothing more. The services catch that 401 and
return `null`. The model follows the code: `SubmissionService.ServiceResult`
maps a 401 to `Returned(None)`, and there is no refresh queue.

## Model

| member | source | states |
|---|---|---|
| Access.CanCreateSubmission | src/policies/studentPolicies.ts:3-22 | a user may create a submission exactly when they are a student with both NIM and study program filled; a refusal always carries a reason, "only students" for non-students and "profile incomplete" for students missing data |
| Access.CompletingProfileAllows | src/policies/studentPolicies.ts:14-21 | a student without a NIM is refused, and the same student becomes allowed once a non-empty NIM and program are filled in |
| Access.HasRole | src/hooks/use-auth.ts:33-40 | no user never has a role; an empty role list admits every signed-in user; otherwise the user's role must be one of those listed |
| Access.HasRoleDependsOnSet | src/hooks/use-auth.ts:39 | the role check depends only on the set of listed roles, not their order or repetition |
| Access.InitializerRunsOnce | src/hooks/use-auth.ts:42-53 | a fresh store asks for initialisation; a second `initialize` while the first is loading does nothing; right after settling, the initialiser does not fire again |
| Access.InitializerStaysQuiet | src/hooks/use-auth.ts:46-49 | once the store is initialised, the effect never starts another session check, whatever logout, error or profile updates follow |
| Access.ShouldInitialize | src/hooks/use-auth.ts:46-49 | the effect starts a session check exactly while the store is not initialised |
| Access.ShouldInitializeUntilSettled | src/hooks/use-auth.ts:42-53 | starting a check does not re-trigger the effect, and any settled check, whatever its outcome, silences it |
| Access.ProtectedRoute | src/routes/guards/protected-route.tsx:15-58 | on a consistent store: a spinner until settled; signed-out users go to the login path remembering where they were; signed-in users lacking the role go to the forbidden path without a `from`; the page shows exactly for settled users with the role |
| Access.GuestRoute | src/routes/guards/guest-route.tsx:4-31 | a spinner until settled; a signed-in user is sent back to the page they came from, or to the default; the guest page shows exactly to settled signed-out visitors |
| Access.GuardsAreExclusive | src/routes/guards/guest-route.tsx:25-30 | once settled, the guest page and the protected page are never both shown; each redirects the way the other expects |
| Access.FeatureGate | src/routes/guards/feature-gate.tsx:12-29 | the children show exactly when the check allows; a refusal shows the fallback with the check's own reason when both exist, and nothing otherwise |
| Access.SubmissionGateExplains | src/pages/dashboard/submit-submission.tsx:378-382 | gating the submission form on the policy with a fallback never renders nothing: the user sees the form or one of the two refusal reasons |
| AuthStore.ApplyPatch | src/store/auth.store.ts:51-56 | spreading a partial user over the current one gives each of the ten fields the patch value when the patch sets it, and the current value otherwise |
| AuthStore.PatchLaws | src/store/auth.store.ts:46-57 | the empty patch changes nothing, applying a patch twice is the same as once, and two patches in a row equal their combination |
| AuthStore.InitializeBegin | src/store/auth.store.ts:15-18 | `initialize` proceeds exactly when the store is not loading, then marks it loading and clears the error without touching the user |
| AuthStore.InitializeSettle | src/store/auth.store.ts:19-43 | after the fetch settles the store holds the fetched user (none on failure), is authenticated exactly when it holds one, and is initialised, idle and error-free |
| AuthStore.UpdateFields | src/store/auth.store.ts:46-57 | with no user the store is unchanged; otherwise only the user changes, patched field by field |
| AuthStore.LogoutBegin | src/store/auth.store.ts:65 | logging out first shows loading and clears the error, keeping the session and the initialised flag until the server answers |
| AuthStore.LogoutSettle | src/store/auth.store.ts:71-78 | whatever the server answered, logout ends signed out, idle and error-free, and keeps the initialised flag |
| AuthStore.SetError | src/store/auth.store.ts:81-83 | `setError` records the message and changes nothing else: session, loading and initialised flags are kept |
| AuthStore.StepKeepsConsistent | src/store/auth.store.ts:15-83 | every store action keeps "authenticated exactly when a user is held" |
| AuthStore.RunKeepsConsistent | src/store/auth.store.ts:15-83 | any sequence of store actions keeps the store consistent |
| AuthStore.RunKeepsInitialized | src/store/auth.store.ts:15-83 | no action of the store ever clears the initialised flag once it is set |
| AuthStore.InitialConsistent | src/store/auth.store.ts:9-13 | the initial store is consistent, uninitialised and idle |
| AuthStore.Partialize | src/store/auth.store.ts:89-92 | the stored part of the session: the user and the authenticated flag, nothing else |
| AuthStore.Rehydrate | src/store/auth.store.ts:85-92 | loading the stored part into a store replaces its user and flag and leaves the rest alone |
| AuthStore.RehydrateRoundTrip | src/store/auth.store.ts:85-92 | only the user and the flag are persisted; a fresh store rehydrated from a consistent one is consistent, keeps the user, checks the session again, and persists the same |
| DataTable.Run | src/components/data-table/data-table.tsx:273 | a run holds one entry per page from `lo` up to but excluding `hi`, in order |
| DataTable.GeneratePageNumbers | src/components/data-table/data-table.tsx:268-301 | up to seven pages are all listed; longer tables list the first and last page and the current page with its neighbours, with "..." standing for every skipped stretch; pages increase, stay in range, include the current page, and the strip never exceeds seven entries |
| DataTable.LongStrip | src/components/data-table/data-table.tsx:276-300 | the loop builds the strip "first, optional gap, current's neighbourhood, optional gap, last" |
| DataTable.RunShape | src/components/data-table/data-table.tsx:273 | a run of pages is strictly increasing, in range and has no unmarked gaps |
| DataTable.StripEntries | src/components/data-table/data-table.tsx:276-300 | the pieces pushed by the long case give a strip whose every position is known by formula |
| DataTable.StripShape | src/components/data-table/data-table.tsx:276-300 | a long strip has 3 to 7 entries, starts at the first page, ends at the last, has a leading gap exactly when the current page is beyond the third and a trailing one exactly when it is before the fourth from last |
| DataTable.StripEnds | src/components/data-table/data-table.tsx:278-299 | the strip's length bound, end pages and gap positions |
| DataTable.StripInRange | src/components/data-table/data-table.tsx:284-290 | every page number in the strip is a valid page |
| DataTable.StripIncreasing | src/components/data-table/data-table.tsx:276-300 | page numbers in the strip strictly increase from left to right |
| DataTable.StripNeighbours | src/components/data-table/data-table.tsx:284-290 | two page numbers next to each other in the strip are consecutive pages |
| DataTable.StripEllipses | src/components/data-table/data-table.tsx:280-294 | every "..." sits between two page numbers and stands for at least one skipped page |
| DataTable.StripHasCurrent | src/components/data-table/data-table.tsx:284-290 | the current page is always in the strip |
| DataTable.RangeLabelCountsRows | src/components/data-table/data-table.tsx:162-174 | on a page holding rows the label names the one-based first and last row, and counts exactly the rows on that page |
| DataTable.RangeLabelTiles | src/components/data-table/data-table.tsx:162-174 | the next page's label starts right after this one's end, and the last page ends at the total |
| DataTable.RangeLabelOfEmptyTable | src/components/data-table/data-table.tsx:164-171 | an empty table reads "0 - 0" |
| DataTable.RangeStart | src/components/data-table/data-table.tsx:164 | the label's first number: 0 for an empty table, otherwise the one-based position of the page's first row |
| DataTable.RangeEnd | src/components/data-table/data-table.tsx:168-171 | the label's second number: the end of the page, cut off at the total |
| DataTable.PageSizeChanged | src/components/data-table/data-table.tsx:188-193 | choosing a page size sets exactly that size and goes back to the first page |
| DataTable.PageSizeChangeShowsFirstRows | src/components/data-table/data-table.tsx:162-193 | after a page-size change the label starts at row 1 and shows as many rows as the new size allows |
| DataTable.PageClickKeepsSize | src/components/data-table/data-table.tsx:236-241 | a page click changes only the page index, so the label moves by whole pages |
| DataTable.PageClicked | src/components/data-table/data-table.tsx:236-241 | a page click sets the page index and keeps the page size |
| Display.StripNimPrefix | src/lib/display-fullname.ts:2 | everything up to and including the first underscore is removed; a name without underscore is kept |
| Display.RemoveStudyProgram | src/lib/display-fullname.ts:3 | `replace(/\s*TI.*$/, "")`: the text up to the leftmost match of the pattern, or all of it when there is none |
| Display.DisplayFullName | src/lib/display-fullname.ts:1-5 | the NIM prefix is dropped, then the study-program tail, then the whitespace at both ends |
| Display.SpaceRunEnd | src/lib/display-fullname.ts:3 | the greedy `\s*` of the regex: the end of the whitespace run starting at a position |
| Display.LeftmostMatch | src/lib/display-fullname.ts:3 | the leftmost position where `\s*TI.*$` matches, and no match before it |
| Display.RemoveStudyProgramSpec | src/lib/display-fullname.ts:3 | removing the study program keeps a prefix; it changes the text exactly when "TI" occurs; the kept part holds no "TI" and does not end in whitespace; the cut-off part is whitespace followed by "TI" |
| Display.RemoveKeepsPrefix | src/lib/display-fullname.ts:3 | the removal only cuts a tail |
| Display.DisplayFullNameIsTrimmedPiece | src/lib/display-fullname.ts:1-5 | the shown name is a contiguous piece of the stored one, with no whitespace at either end |
| Display.DisplayFullNameHasNoTitle | src/lib/display-fullname.ts:1-5 | for a stored name without line terminators, the shown name never contains "TI" |
| Display.KeptPartHasNoTitle | src/lib/display-fullname.ts:3 | for text without line terminators, the part kept by the study-program removal never contains "TI" |
| Display.DisplayPlainName | src/lib/display-fullname.ts:1-5 | a name with neither an underscore nor "TI" is only trimmed |
| Display.DisplayDirectoryName | src/lib/display-fullname.ts:1-5 | a directory-style name "NIM_Name TI..." shows as exactly the trimmed name |
| Display.DropNim | src/lib/display-fullname.ts:2 | the NIM before the first underscore is dropped whole |
| Display.DropTitle | src/lib/display-fullname.ts:3 | the study-program tail after a "TI"-free name is cut off exactly at the name's end |
| Display.FirstMatch | src/lib/display-fullname.ts:3 | a match with no earlier match is the leftmost one |
| Display.SpaceRunReachesTitle | src/lib/display-fullname.ts:3 | the whitespace run before a non-space character ends at that character |
| Display.NoEarlierMatch | src/lib/display-fullname.ts:3 | inside a "TI"-free name the pattern cannot start |
| Display.SpaceRunStopsAt | src/lib/display-fullname.ts:3 | the whitespace run never passes a non-space character |
| Display.TitleInPrefix | src/lib/display-fullname.ts:3 | a "TI" wholly inside a prefix is a "TI" of that prefix |
| Display.CapitalizeAll | src/lib/display-study-program.ts:7 | every word is capitalised, in place |
| Display.DisplayStudyProgram | src/lib/display-study-program.ts:1-9 | a missing or empty value shows as the empty string |
| Display.DisplayStudyProgramShape | src/lib/display-study-program.ts:4-8 | a shown program is as long as its value, has a space for each underscore and no underscore left, and is the character-wise reference: the first character of each word upper-cased (ASCII letters only) and the rest lower-cased |
| Display.TitleCase | src/lib/display-study-program.ts:4-8 | the one-character-at-a-time reference definition preserves the length |
| Display.TitleCaseOfWord | src/lib/display-study-program.ts:7 | on a single word the reference capitalises the first letter and keeps the rest |
| Display.TitleCaseAtSeparator | src/lib/display-study-program.ts:6-8 | an underscore in the reference ends a word, becomes a space, and starts a new capitalised word |
| Display.SplitCapitalizeJoin | src/lib/display-study-program.ts:6-8 | splitting at underscores, capitalising and joining with spaces equals the reference definition |
| Display.TitleCaseHasNoUnderscore | src/lib/display-study-program.ts:6-8 | the shown caption never contains an underscore |
| PdfViewer.FetchedId | src/components/submission/pdf-viewer-dialog.tsx:31-33 | the document is fetched only while the dialog is open with a non-empty submission id, and then for exactly that id |
| PdfViewer.Reset | src/components/submission/pdf-viewer-dialog.tsx:35-41 | opening, closing or switching submissions goes back to page 1; the page count is kept until the next document loads |
| PdfViewer.Loaded | src/components/submission/pdf-viewer-dialog.tsx:52-54 | loading a document records its page count and leaves the page number alone |
| PdfViewer.Press | src/components/submission/pdf-viewer-dialog.tsx:141-160 | the pager buttons exist only for documents of more than one page; a press changes only the page number |
| PdfViewer.PressKeepsRange | src/components/submission/pdf-viewer-dialog.tsx:56-57 | a press keeps the page between 1 and the page count and moves it by at most one |
| PdfViewer.PressAllKeepsRange | src/components/submission/pdf-viewer-dialog.tsx:56-57 | any sequence of presses keeps the page in range and the count unchanged |
| PdfViewer.GoToPrevPage | src/components/submission/pdf-viewer-dialog.tsx:56 | never before page 1; from a later page, exactly one page back; from page 1 or before, page 1; nothing but the page changes |
| PdfViewer.GoToNextPage | src/components/submission/pdf-viewer-dialog.tsx:57 | never past the page count; below it, exactly one page on; at or past it, the last page; nothing but the page changes |
| PdfViewer.PrevAndNextAreInverse | src/components/submission/pdf-viewer-dialog.tsx:56-57 | inside the document, "previous" undoes "next" and "next" undoes "previous" |
| PdfViewer.RepeatedPresses | src/components/submission/pdf-viewer-dialog.tsx:56-57 | `n` presses of "next" move `n` pages forward, stopping at the last; as many presses of "previous" move back, stopping at the first |
| PdfViewer.OpenShowsFirstPage | src/components/submission/pdf-viewer-dialog.tsx:35-54 | opening another submission and loading it shows its first page, in range |
| PdfViewer.StaleCountCanOverrun | src/components/submission/pdf-viewer-dialog.tsx:28-57 | the code as written, not a defect claim: before the new document loads, the old page count lets "next" move past the end of a shorter document |
| PdfViewer.DownloadStem | src/components/submission/pdf-viewer-dialog.tsx:64 | with a non-empty partner name, the stem is that name with each whitespace run replaced by one underscore, so it is non-empty, holds no whitespace and is no longer than the name; with no name or an empty one, it is the submission id, or "null" when there is no id |
| PdfViewer.DownloadName | src/components/submission/pdf-viewer-dialog.tsx:59-68 | there is a download only once the blob exists, and its name is `dokumen_moa_ia_<stem>.pdf` |
| PdfViewer.DownloadStemOfPlainName | src/components/submission/pdf-viewer-dialog.tsx:64 | a partner name without whitespace is used as it is |
| PdfViewer.DownloadDisabled | src/components/submission/pdf-viewer-dialog.tsx:88 | the download button is disabled while no document has been fetched or one is loading |
| PdfViewer.DownloadButtonMatchesHandler | src/components/submission/pdf-viewer-dialog.tsx:59-88 | an enabled button always has a file name to download; a handler with nothing to download is behind a disabled button |
| StaffDetail.ReadUrlParams | src/pages/dashboard/staff-track-detail-submission.tsx:19-22 | each URL parameter reads as empty exactly when it is absent or empty |
| StaffDetail.MissingRequired | src/pages/dashboard/staff-track-detail-submission.tsx:42-43 | the page shows the "incomplete parameters" notice instead of the table exactly when the period, partner name or activity type is missing |
| StaffDetail.DisplayActivityType | src/pages/dashboard/staff-track-detail-submission.tsx:24-33 | "internship" shows as "Magang", "kkn" as "KKN", anything else as it is |
| StaffDetail.ActivityCaptionsDistinct | src/pages/dashboard/staff-track-detail-submission.tsx:24-33 | no two activity types are shown the same way |
| StaffDetail.QueryParamsOf | src/pages/dashboard/staff-track-detail-submission.tsx:61-69 | the request asks for the table's page and sort, and for the trimmed search unless it is blank |
| StaffDetail.SearchReachesRequest | src/pages/dashboard/staff-track-detail-submission.tsx:61-69 | assuming the staff-detail hook sends its query parameters the way `getSubmissions` does: a blank search is not sent at all, any other search is sent trimmed, and the page index is sent as it is |
| StaffDetail.HandleSearchChange | src/pages/dashboard/staff-track-detail-submission.tsx:128-131 | a new search starts over at the first page and keeps the page size and sorting |
| StaffDetail.HandleViewPdf | src/pages/dashboard/staff-track-detail-submission.tsx:71-74 | viewing a row opens the dialog on that submission and keeps the table's state |
| StaffDetail.ViewPdfFetchesRow | src/pages/dashboard/staff-track-detail-submission.tsx:71-74 | viewing a row makes the PDF dialog fetch exactly that row's document |
| StaffDetail.VerifyClick | src/components/submission/submissions-moa-ia-detail-for-staff-column.tsx:101-117 | a click on the verify button is ignored exactly while that row is being verified; otherwise it marks the row and sends `verified_staff` for it |
| StaffDetail.IsThisRowVerifying | src/components/submission/submissions-moa-ia-detail-for-staff-column.tsx:103-105 | a row shows the spinner and a disabled button exactly while an update is pending and it is the row last clicked |
| StaffDetail.VerifySettled | src/pages/dashboard/staff-track-detail-submission.tsx:102-104 | on success or failure no row stays marked, and the table's state is kept |
| StaffDetail.OneRowVerifying | src/components/submission/submissions-moa-ia-detail-for-staff-column.tsx:103-105 | while a request runs only the clicked row shows the spinner, and none does once it settles |
| StaffDetail.ProgramCell | src/components/submission/submissions-moa-ia-detail-for-staff-column.tsx:26 | a value that is one of the offered study programs shows the label of the first option with that value; any other value shows as it came |
| StaffDetail.UnknownStatusShownRaw | src/components/submission/submissions-moa-ia-detail-for-staff-column.tsx:86-91 | a status outside the six known ones is shown as it came |
| StaffDetail.StatusLabelsDistinct | src/components/submission/submissions-moa-ia-detail-for-staff-column.tsx:86-91 | every known status has its own caption, different from its wire name |
| StaffDetail.SortSendsColumn | src/components/submission/submissions-moa-ia-detail-for-staff-column.tsx:23-65 | sorting by a sortable column sends that column's id and direction, which the assumed server reading gives back unchanged |
| SubmissionHooks.AllReachesEveryKey | src/hooks/use-submission.ts:8-17 | every submission query key starts with "submissions", so invalidating the root reaches them all |
| SubmissionHooks.ByUserKeysNest | src/hooks/use-submission.ts:12-16 | a user's list key extends that user's key, which extends the MoA/IA key |
| SubmissionHooks.ByUserReachesOnlyThatUser | src/hooks/use-submission.ts:14-16 | invalidating one user's key reaches that user's queries and no other's |
| SubmissionHooks.ListsReachesOnlyLists | src/hooks/use-submission.ts:10-11 | invalidating the general lists reaches exactly the general list keys, not the MoA/IA ones |
| SubmissionHooks.CreateMutation | src/hooks/use-submission.ts:74-86 | a missing answer rejects with the expired-session message; a transport error propagates; the mutation resolves exactly on an answer marked successful; every message it makes up is non-empty |
| SubmissionHooks.CreateFlow | src/hooks/use-submission.ts:74-86 | from HTTP outcome to mutation: 401 means "session expired", a refused answer shows the server's message or the default, success resolves with the answer, other errors propagate |
| SubmissionHooks.ByUserListEnabled | src/hooks/use-submission.ts:65 | the per-user list is fetched only for a non-empty user id |
| SubmissionSchema.DuplicateKeyIndices | src/pages/dashboard/submit-submission.tsx:124-151 | the refinement as written reports exactly the keyed groups whose joined program-bar-unit key was seen before, and passes exactly when no key repeats |
| SubmissionSchema.DuplicatePairIndices | src/pages/dashboard/submit-submission.tsx:124-151 | the intended refinement reports exactly the keyed groups repeating an earlier (program, unit) pair, and passes exactly when no pair repeats |
| SubmissionSchema.CompositeKeyInjective | src/pages/dashboard/submit-submission.tsx:135 | when programs contain no bar, two groups have the same key exactly when they have the same pair |
| SubmissionSchema.KeySeparatorAt | src/pages/dashboard/submit-submission.tsx:135 | in a key whose program has no bar, the first bar sits right after the program |
| SubmissionSchema.KeysUniqueWithoutSeparator | src/pages/dashboard/submit-submission.tsx:124-151 | when programs contain no bar, the rule as written and the intended rule agree |
| SubmissionSchema.KeysUniqueOnOfferedPrograms | src/types/submission.type.ts:85-89 | for programs picked from the three offered options, the rule as written and the intended rule agree |
| SubmissionSchema.CompositeKeyCollision | src/pages/dashboard/submit-submission.tsx:135-141 | a group with program "a", bar, "b" and unit "c" and a group with program "a" and unit "b", bar, "c" are rejected as duplicates though their pairs differ |
| SubmissionSchema.CreateAndUpdateRulesAgree | src/pages/dashboard/update-submission.tsx:107-141 | the edit form asks exactly what the create form asks of the notes, the partner and the groups; the create form adds only its fixed header and the document type |
| SubmissionSchema.GroupRules | src/pages/dashboard/submit-submission.tsx:60-80 | a group with no students or more than three, a student with a NIM shorter than 11, or an empty program or unit, is rejected |
| SubmissionSchema.RepeatedPairRejected | src/pages/dashboard/submit-submission.tsx:124-151 | two keyed groups with the same program and unit make the form invalid |
| SubmissionSchema.DefaultCreateFormInvalid | src/pages/dashboard/submit-submission.tsx:172-195 | the empty form the page starts with cannot be submitted: its partner and its first group are incomplete, though its header is already right |
| SubmissionSchema.ValidStudent | src/pages/dashboard/submit-submission.tsx:60-65 | a student needs a non-empty name, a NIM of at least 11 characters and a valid e-mail |
| SubmissionSchema.ValidSnapshot | src/pages/dashboard/submit-submission.tsx:67-80 | a group needs a non-empty program and unit and one to three valid students |
| SubmissionSchema.ValidPartner | src/pages/dashboard/submit-submission.tsx:82-119 | every partner field is required, with the maximum lengths 255, 50 and 500 the schema sets, and the activity must be a known activity type |
| SubmissionSchema.ValidNotes | src/pages/dashboard/submit-submission.tsx:157-161 | the notes may be missing, and otherwise hold at most 500 characters |
| SubmissionSchema.ValidGroups | src/pages/dashboard/submit-submission.tsx:121-151 | at least one group, every group valid, and no (program, unit) pair twice among keyed groups; this is the corrected rule |
| SubmissionSchema.ValidGroupsAsWritten | src/pages/dashboard/submit-submission.tsx:121-151 | the same list rule with the joined key compared, as the source states it |
| SubmissionSchema.ValidGroupsAsWrittenIsStricter | src/pages/dashboard/submit-submission.tsx:124-151 | every list the rule as written accepts, the corrected rule accepts too; the two agree when no program contains a bar |
| SubmissionSchema.ValidCreateForm | src/pages/dashboard/submit-submission.tsx:154-168 | the create form needs the fixed MoA/IA header, a known document type, valid notes, a valid partner and valid groups |
| SubmissionSchema.ValidUpdateForm | src/pages/dashboard/update-submission.tsx:67-141 | the edit form needs valid notes, a valid partner and valid groups |
| SubmissionService.WithOptional | src/api/services/submissio.service.ts:21-22 | `...(value && { key: value })` adds the key exactly for a non-empty value and leaves every other parameter alone |
| SubmissionService.ListParams | src/api/services/submissio.service.ts:18-23 | the page and size are always sent; sort and search are sent exactly when non-empty; nothing else is sent |
| SubmissionService.UserListParams | src/api/services/submissio.service.ts:68-74 | the per-user list sends the list parameters plus the NIM exactly when it is non-empty |
| SubmissionService.PartnerParams | src/api/services/submissio.service.ts:126-128 | the partner lookup sends at most the search, only a non-empty one, and then as the string it was given |
| SubmissionService.ListParamsRoundTrip | src/api/services/submissio.service.ts:18-23 | the server can read the page, size, sort and search back from the parameters; a missing sort or search was empty or absent |
| SubmissionService.StampTotals | src/api/services/submissio.service.ts:94-97 | every group sent carries a `total` equal to its number of students |
| SubmissionService.StampTotalsRoundTrip | src/api/services/submissio.service.ts:94-97 | dropping `total` from the sent groups gives back the form's groups |
| SubmissionService.CreatePayload | src/api/services/submissio.service.ts:90-99 | the create payload is the form with each group's student count added, all else unchanged |
| SubmissionService.UpdatePayload | src/api/services/submissio.service.ts:146-155 | the edit payload is the form with each group's student count added, all else unchanged |
| SubmissionService.ServiceResult | src/api/services/submissio.service.ts:27-31 | a 401 becomes a `null` answer, any other failure is re-thrown unchanged, and a success returns the data |
| SubmissionTypes.ParseActivity | src/types/submission.type.ts:7 | an activity string is accepted only as the wire name of an activity type |
| SubmissionTypes.ActivityNameRoundTrip | src/types/submission.type.ts:7 | reading an activity type's wire name gives back that type |
| SubmissionTypes.ParseDocument | src/types/submission.type.ts:5 | a document string is accepted only as "moa" or "ia" |
| SubmissionTypes.DocumentNameRoundTrip | src/types/submission.type.ts:5 | reading a document type's wire name gives back that type |
| SubmissionTypes.FindLabel | src/components/dashboard/student-profile.tsx:41 | `options.find(o => o.value === v)?.label`: no label exactly when no option has that value; otherwise the label of the first option with that value |
| SubmissionTypes.OfferedCaptionsNonEmpty | src/types/submission.type.ts:85-89 | every offered study program has a non-empty label, so a label lookup with a fallback falls back only when no option matches |
| SubmitPage.FindPartner | src/pages/dashboard/submit-submission.tsx:268-271 | the listed partner with that name, and none exactly when no partner has it |
| SubmitPage.IsPartnerFieldDisabled | src/pages/dashboard/submit-submission.tsx:218 | the partner fields are locked in "existing" mode and whenever a partner is selected |
| SubmitPage.HandlePartnerSelect | src/pages/dashboard/submit-submission.tsx:268-288 | choosing an unknown name clears the selection; choosing a listed partner selects it and copies its fields into the form |
| SubmitPage.HandlePartnerModeChange | src/pages/dashboard/submit-submission.tsx:290-305 | switching mode clears the selection, the logo preview and every partner field, and resets the activity to internship |
| SubmitPage.ModeChangeLocksFields | src/pages/dashboard/submit-submission.tsx:218 | after switching to "new" the partner fields are editable; after switching to "existing" they are locked |
| SubmitPage.ComboboxChange | src/pages/dashboard/submit-submission.tsx:580-587 | the combobox writes the typed name into the form, and clearing it clears the selection |
| SubmitPage.ChoosingListedPartner | src/pages/dashboard/submit-submission.tsx:580-587 | choosing a listed partner locks the fields on exactly that partner's data |
| SubmitPage.SimilarPartners | src/pages/dashboard/submit-submission.tsx:246-259 | the warning lists, from the loaded partners, exactly those with the same number and a name more than 0.6 similar, each as often as it is listed |
| SubmitPage.LooksDuplicate | src/pages/dashboard/submit-submission.tsx:249-251 | a partner resembles the typed one when its number is the same and its name is more than 0.6 similar |
| SubmitPage.SimilarPartnersOfConcat | src/pages/dashboard/submit-submission.tsx:246-259 | the warnings for a list split in two are the warnings of each part, in order, since the partners are visited one by one |
| SubmitPage.Keep | src/pages/dashboard/submit-submission.tsx:246-259 | filtering keeps exactly the elements that pass the test, each as often as it occurs in the input |
| SubmitPage.KeepOfConcat | src/pages/dashboard/submit-submission.tsx:246-259 | filtering two lists joined is filtering each and joining, so kept elements keep their order |
| SubmitPage.DuplicateWarnings | src/pages/dashboard/submit-submission.tsx:240-265 | no warning outside "new" mode or with an empty name or number; otherwise every similar partner |
| SubmitPage.RetypedPartnerWarned | src/pages/dashboard/submit-submission.tsx:240-265 | retyping an existing partner's name and number in "new" mode warns about that partner |
| SubmitPage.WarningThreshold | src/pages/dashboard/submit-submission.tsx:249-251 | the 0.6 threshold in integers: a partner is similar exactly when 20 times the shared trigrams exceed 6 times the total trigram count, with the same number |
| SubmitPage.OnSubmit | src/pages/dashboard/submit-submission.tsx:344-346 | a form reaches the service exactly when the schema accepts it, and then with its partner unchanged |
| SubmitPage.StudentInfoToNims | src/pages/dashboard/submit-submission.tsx:364-366 | no students give no NIMs; otherwise each student's NIM, in order |
| SubmitPage.Nims | src/pages/dashboard/submit-submission.tsx:365 | the NIMs of the students, in order |
| SubmitPage.ByNim | src/pages/dashboard/submit-submission.tsx:373 | the lookup holds exactly the listed NIMs, each mapped to a listed student with that NIM; the last listed student wins |
| SubmitPage.ByNimLastWins | src/pages/dashboard/submit-submission.tsx:373 | a listed student that no later student shares a NIM with is the one found under that NIM |
| SubmitPage.KnownNims | src/pages/dashboard/submit-submission.tsx:368-375 | the picked NIMs that appear in the student list, and no others |
| SubmitPage.LookUp | src/pages/dashboard/submit-submission.tsx:374 | one student per known NIM, in the order of the NIMs: the student the lookup holds for that NIM |
| SubmitPage.NimsToStudentInfo | src/pages/dashboard/submit-submission.tsx:368-375 | no list gives no students; with a list, one listed student per known NIM, carrying that NIM, in the order of the NIMs |
| SubmitPage.NimsRoundTrip | src/pages/dashboard/submit-submission.tsx:364-375 | turning picked NIMs into students and back keeps exactly the NIMs the list knows, in order |
| SubmitPage.NimsOfConcat | src/pages/dashboard/submit-submission.tsx:365 | the NIMs of two lists joined are the two NIM lists joined |
| SubmitPage.KnownNimsKeepsKnown | src/pages/dashboard/submit-submission.tsx:368-375 | a picked NIM that the list holds survives the lookup |
| SubmitPage.PickedStudentsRoundTrip | src/pages/dashboard/submit-submission.tsx:364-375 | with distinct NIMs in the list, students picked from it survive the NIM round trip unchanged |
| SubmitPage.UniqueNimsLookUp | src/pages/dashboard/submit-submission.tsx:373 | with distinct NIMs, every listed student is found by their NIM |
| SubmitPage.RepeatedNimPicksLater | src/pages/dashboard/submit-submission.tsx:373 | when two listed students share a NIM, picking it yields the later one |
| TableTypes.ToSpringSort | src/types/table.types.ts:29-34 | no sort is sent for an empty sorting; otherwise the first column's id followed by a comma and the direction |
| TableTypes.ParseSpringSort | src/types/table.types.ts:33 | the assumed server reading of `id,dir` (the server is not part of this model) only succeeds on text holding a comma |
| TableTypes.SpringSortRoundTrip | src/types/table.types.ts:29-34 | under the assumed server reading, exactly the first sort column and its direction come back |
| TableTypes.SpringSortUsesFirstOnly | src/types/table.types.ts:32 | sortings that agree on their first column are sent the same way |
| TableTypes.SpringPaginationRoundTrip | src/types/table.types.ts:36-41 | the page and size sent give back the table's pagination |
| TableTypes.ToSpringPagination | src/types/table.types.ts:36-41 | the page index and page size are sent as they are |
| TableTypes.DefaultPageSizeOffered | src/types/table.types.ts:21-26 | the default page size is one the selector offers, and search is off by default |
| Text.ToLower | src/lib/trigram.ts:3 | lower-casing keeps the length and maps each character on its own |
| Text.TrimStart | src/lib/display-fullname.ts:4 | the suffix after the leading whitespace, which does not start with whitespace |
| Text.TrimEnd | src/lib/display-fullname.ts:4 | the prefix before the trailing whitespace, which does not end with whitespace |
| Text.TrimIsTrimmed | src/lib/trigram.ts:7 | `trim` keeps a contiguous piece cut only at whitespace, with no whitespace at either end |
| Text.TrimBounds | src/lib/trigram.ts:7 | the positions where `trim` cuts, with only whitespace outside them |
| Text.TrimOfTrimmed | src/lib/trigram.ts:7 | text without whitespace at its ends is its own `trim` |
| Text.TrimEndKeepsNonSpace | src/lib/display-fullname.ts:4 | `trimEnd` keeps every position up to the last non-space character |
| Text.TrimEmptyIffAllSpaces | src/lib/trigram.ts:7 | `trim` leaves nothing exactly when the text is all whitespace |
| Text.CollapseSpaces | src/lib/trigram.ts:6 | the result is never longer, empty only for empty text, and holds only the replacement or non-space characters of the input, with no two whitespace characters in a row; `CollapseAtNonSpace` and `CollapseSpaceRun` state the run-by-run replacement |
| Text.CollapseWithoutSpaces | src/lib/trigram.ts:6 | text without whitespace is left alone by the run replacement |
| Text.CollapseAtNonSpace | src/lib/trigram.ts:6 | a non-space character is kept in place and splits the replacement: the text before it and the text after it are collapsed independently |
| Text.CollapseSpaceRun | src/lib/trigram.ts:6 | a non-empty whitespace run at the start, followed by text that does not start with whitespace, becomes exactly one replacement character |
| Text.TrimStartOfSpaced | src/lib/display-fullname.ts:4 | leading whitespace before a non-space character is all removed by the start trim |
| Text.TrimStartBeforeNonSpace | src/lib/display-fullname.ts:4 | the start trim stops at the first non-space character and leaves everything after it |
| Text.IndexOf | src/lib/display-fullname.ts:2 | the first position of a character |
| Text.LastIndexOf | src/types/table.types.ts:33 | the last position of a character, where the assumed server reading splits `id,dir` into column and direction |
| Text.Split | src/lib/display-study-program.ts:6 | at least one piece, and no piece contains the separator |
| Text.JoinSplit | src/lib/display-study-program.ts:6-8 | joining the pieces of a split with the same separator gives back the text |
| Text.SplitJoin | src/lib/display-study-program.ts:6-8 | splitting a join of separator-free pieces gives back the pieces |
| Text.JoinAvoids | src/lib/display-study-program.ts:8 | a character absent from every piece and different from the separator is absent from the join |
| Trigram.PtMatchAt | src/lib/trigram.ts:4 | the length of a `\bpt\.?\b` match at a position: none, "pt" or "pt."; a match starts with "p" and "t" and ends inside the text |
| Trigram.PtMatchIsToken | src/lib/trigram.ts:4 | the scan matches at a position exactly where a standalone "pt" token starts, a "pt" with a word boundary before and after it or after a following dot, and takes the dot exactly when a boundary follows it |
| Trigram.StripPtFrom | src/lib/trigram.ts:4 | the left-to-right scan of the global replace: it never lengthens the text |
| Trigram.StripPtNoToken | src/lib/trigram.ts:4 | where no standalone "pt" token starts, the removal copies the text unchanged |
| Trigram.StripPtLocal | src/lib/trigram.ts:4 | the removal from a position depends only on the text from there on and on whether a word character comes just before it |
| Trigram.StripPtSplit | src/lib/trigram.ts:4 | a non-word character other than a dot splits the removal: each side is treated as if it stood alone |
| Trigram.StripPtSplitFrom | src/lib/trigram.ts:4 | the scan up to such a character is the scan of the text before it, followed by the character and the scan of the rest |
| Trigram.StripPtDropsToken | src/lib/trigram.ts:4 | a "pt" between two spaces is removed wherever it stands, leaving the two spaces and the text on either side as it would be alone |
| Trigram.InWordPtIsNoToken | src/lib/trigram.ts:4 | "pt" right after a letter or digit, as in "optik", is no token and is kept |
| Trigram.StripPunctuation | src/lib/trigram.ts:5 | exactly the lower-case letters, digits and whitespace survive, each kept where it was |
| Trigram.NormalizeIsNormalized | src/lib/trigram.ts:1-8 | a normalised name holds only lower-case letters, digits and single inner spaces, with none at either end |
| Trigram.Normalize | src/lib/trigram.ts:1-8 | lower-case, drop "pt" tokens, drop punctuation, make whitespace runs single spaces, trim; its shape is stated by `Trigram.NormalizeIsNormalized` |
| Trigram.NormalizeFixesCleanName | src/lib/trigram.ts:1-8 | a name already in normal form with no standalone "pt" token is its own normal form; "pt" inside a word, as in "optik", is kept |
| Trigram.NormalizeDropsCompanyPrefix | src/lib/trigram.ts:1-8 | "PT. " before any name normalises away: both have the same normal form |
| Trigram.CollapseIsSingleSpaced | src/lib/trigram.ts:6 | after punctuation removal and run replacement, no two spaces are adjacent |
| Trigram.TrimOfSingleSpaced | src/lib/trigram.ts:7 | trimming single-spaced text gives a normalised name |
| Trigram.LowerIdempotent | src/lib/trigram.ts:3 | lower-casing twice is lower-casing once |
| Trigram.CollapseSingleSpaced | src/lib/trigram.ts:6 | single-spaced text is left alone by the run replacement |
| Trigram.StripPunctuationKeepsAll | src/lib/trigram.ts:5 | text of letters, digits and whitespace is left alone by punctuation removal |
| Trigram.Windows | src/lib/trigram.ts:14-16 | every three-character window of the text, in order |
| Trigram.GetTrigrams | src/lib/trigram.ts:10-19 | one trigram per character plus two, each a window of the name padded with two spaces on each side |
| Trigram.SimilarityOfEmpty | src/lib/trigram.ts:25 | a name that normalises to nothing is 0 similar to anything |
| Trigram.Similarity | src/lib/trigram.ts:21-52 | 0 when either name normalises to nothing; otherwise the Dice coefficient of the two padded trigram lists |
| Trigram.DiceSymmetric | src/lib/trigram.ts:41-51 | the coefficient does not depend on the order of its arguments |
| Trigram.SimilaritySymmetric | src/lib/trigram.ts:21-52 | similarity is symmetric |
| Trigram.DiceInUnitRange | src/lib/trigram.ts:41-51 | the coefficient lies between 0 and 1 |
| Trigram.SimilarityInUnitRange | src/lib/trigram.ts:21-52 | similarity lies between 0 and 1 |
| Trigram.DiceSelf | src/lib/trigram.ts:41-51 | a trigram list is 1 similar to itself |
| Trigram.SimilarityOfEqualNames | src/lib/trigram.ts:21-52 | names with the same non-empty normal form are 1 similar |
| Trigram.SimilarityIgnoresCompanyPrefix | src/lib/trigram.ts:1-52 | a leading "PT. " never changes a score, and "PT. X" is fully similar to X whenever X normalises to something |
| Trigram.DiceThreshold | src/lib/trigram.ts:49-51 | the coefficient exceeds 0.6 exactly when 20 times the shared trigrams exceed 6 times the total |
| Trigram.TrigramSimilarity | src/lib/trigram.ts:21-52 | the loop-based computation returns the functional similarity |
| Trigram.DiceOfWindows | src/lib/trigram.ts:29-51 | counting, intersecting and dividing give the Dice coefficient of the two trigram multisets |
| Trigram.SharedWindows | src/lib/trigram.ts:41-47 | summing the smaller count of each shared trigram gives the size of the multiset intersection |
| Trigram.CountWindows | src/lib/trigram.ts:33-39 | the count map holds exactly the trigrams seen, each with its number of occurrences |
| UpdatePage.IsPartnerExisting | src/pages/dashboard/update-submission.tsx:198-203 | the stored partner counts as existing exactly when the details and partner list are loaded and a listed partner has the same name and number |
| UpdatePage.UpdateWarnings | src/pages/dashboard/update-submission.tsx:207-227 | with no partners nothing happens; otherwise an unset name throws; with a name, nothing is warned about while the fields are locked or the number is unset, and every similar partner is warned about otherwise, as on the create page |
| UpdatePage.EmptyNameNotWarned | src/pages/dashboard/update-submission.tsx:207-227 | a set name that normalises to nothing draws no warning, even without the create page's emptiness check |
| UpdatePage.KnownPartnerNotWarned | src/pages/dashboard/update-submission.tsx:198-227 | an existing partner locks the fields and so draws no warning; only an unset name still throws |
| UpdatePage.ResetValues | src/pages/dashboard/update-submission.tsx:271-292 | the form is filled only once details with MoA/IA data are loaded, with the stored notes (empty when missing), partner and groups |
| UpdatePage.OnSubmit | src/pages/dashboard/update-submission.tsx:294-299 | the edit reaches the service exactly when the schema accepts it, unchanged |
| UpdatePage.SubmitDisabled | src/pages/dashboard/update-submission.tsx:800 | the save button is disabled while the request runs and while the form is invalid |
| UpdatePage.UneditedSaveRoundTrip | src/pages/dashboard/update-submission.tsx:271-299 | saving a loaded submission without edits sends back the stored partner, notes and groups, each group with its student count |
| UpdateUserPage.StudentFormErrors | src/pages/dashboard/update-user.tsx:33-39 | the profile form reports "too short" exactly for a NIM under 11 characters, "not numeric" exactly for a NIM that is not all digits, and "missing" exactly for an empty program |
| UpdateUserPage.StudentFormErrorsExact | src/pages/dashboard/update-user.tsx:33-39 | the profile form reports nothing exactly when it is valid |
| UpdateUserPage.ToggleEditMode | src/pages/dashboard/update-user.tsx:89-97 | the toggle flips edit mode; entering it reloads the form from the signed-in user, with an empty NIM or program when either is missing; leaving it keeps the form |
| UpdateUserPage.ReopeningDiscardsEdits | src/pages/dashboard/update-user.tsx:89-97 | leaving and re-entering edit mode discards whatever was typed |
| UpdateUserPage.RoleBadge | src/pages/dashboard/update-user.tsx:124 | students read "Mahasiswa", staff "Staf", and everyone else "Admin" |
| UpdateUserPage.ProgramLabel | src/pages/dashboard/update-user.tsx:231 | the label of the first offered option whose value is the stored program; "-" exactly when there is no user, no stored program, or a stored program that no option offers |
| UpdateUserPage.OnSubmit | src/pages/dashboard/update-user.tsx:64-77 | nothing is sent without a user; otherwise that user's id with the form's NIM and program |
| UpdateUserPage.OnUpdateSuccess | src/hooks/use-user.ts:30-43 | a successful answer copies its NIM and program into the session user; no answer leaves the store alone |
| UpdateUserPage.SavedProfileAllowsSubmission | src/hooks/use-user.ts:40-42 | a student who saves a valid profile, echoed by the server, may then create submissions |

## Left out

- Rendering (JSX, styling, icons, toasts, dialogs) is not modelled; only the values the pages compute and the state they keep are.
- The axios transport, cookies and `src/api/client.ts`'s interceptor are left out. An HTTP call is a parameter `Outcome`. A token-refresh queue is not modelled because the code has none.
- `loginWithGoogle` only sets `window.location` and is left out.
- Timers are left out: the 500 ms `setTimeout` around the duplicate-partner effect and the search input's debounce. Warnings are modelled as the value the effect settles on.
- Dates are left out: `new Date`, `toLocaleDateString` and the period caption of the staff page rely on the browser's clock and `Intl`.
- File handling is left out: react-dropzone, the logo upload, react-pdf rendering, `URL.createObjectURL`/`revokeObjectURL` and the clipboard. `use-file-upload`, `use-generate-file` and `use-staff` are not part of this model.
- The other list pages (`track-submission.tsx`, `staff-track-submission.tsx`, `submission-history.tsx`) repeat the table pattern modelled here and are left out.
- The submission-detail and staff services and their types are not part of this model beyond the fields the edit page reads.
- Text.ToLower: maps only ASCII letters; JavaScript also lower-cases other scripts. A Dafny `char` is a Unicode scalar value, so a string here is a sequence of code points, where JavaScript strings are sequences of UTF-16 code units. No Unicode normalisation is modelled.
- Display.Capitalize: upper-cases only ASCII letters, through `Text.ToUpperChar`. JavaScript's `toUpperCase` also maps other scripts and can lengthen a string (`"ß"` becomes `"SS"`). The offered study-program values are ASCII.
- SubmissionSchema.ValidPartner: lengths are counted in code points. zod's `.min` and `.max` count UTF-16 code units, so a text with characters outside the Basic Multilingual Plane can pass the model's 255, 50 or 500 limit and fail the source's.
- SubmissionSchema.ValidStudent: the NIM's 11-character minimum is likewise counted in code points, not UTF-16 code units.
- SubmissionSchema.ValidNotes: the 500-character maximum is likewise counted in code points, not UTF-16 code units.
- UpdateUserPage.StudentFormErrors: the NIM's length is counted in code points, not UTF-16 code units. For a NIM of digits only the two counts agree.
- SubmissionSchema.ValidGroups: uses the corrected pair rule, not the joined-key rule the source states. It therefore accepts the group lists in which a bar inside a program or unit makes two different pairs share a joined key, which the source rejects. The rule as written is `SubmissionSchema.ValidGroupsAsWritten`; `SubmissionSchema.ValidGroupsAsWrittenIsStricter` proves the two agree when no program contains a bar.
- SubmitPage.OnSubmit: rests on `SubmissionSchema.ValidGroups`, so it sends the bar-collision group lists the source's schema rejects.
- UpdatePage.OnSubmit: rests on `SubmissionSchema.ValidGroups`, so it sends the bar-collision group lists the source's schema rejects.
- StaffDetail.SearchReachesRequest: the page passes its query parameters to `useMoaIASubmissionsDetailForStaff`, which is not part of this model. The lemma assumes that hook builds its request parameters the way `getSubmissions` does (`SubmissionService.ListParams`).
- UpdatePage.UpdateWarnings: an unset partner name makes `normalize` throw inside the effect's callback. This is modelled as `None` (the callback throws and nothing is warned about); what React does with the exception is left out.
- SubmissionSchema.GroupRules: `z.email()` is a parameter `isEmail`, because the e-mail grammar zod uses is outside this model.
- Trigram.TrigramSimilarity: computes in exact rationals (`real`) where JavaScript uses doubles. With at most a few hundred trigrams, `2 * shared / total` is compared with 0.6 exactly as `20 * shared > 6 * total` says, unless the quotient lies within double rounding of 0.6 itself. In that case the model may decide the comparison differently from the browser.
- AuthStore.UpdateFields: a patch field is either set or absent; an explicit `undefined` value, which the spread would copy over, is not modelled.
- Display.DisplayStudyProgram: its contract states only the empty case. The shape of non-empty captions is stated by `Display.DisplayStudyProgramShape`. Concrete captions such as "Teknik Informatika" are not checked, because evaluating the literals times out.
- StaffDetail.StatusLabel carries no contract of its own; its behaviour is stated by `StaffDetail.UnknownStatusShownRaw` and `StaffDetail.StatusLabelsDistinct`.

## Findings

| source | as written | input that shows it | evidently intended | confidence | as-written member | corrected member |
|---|---|---|---|---|---|---|
| src/pages/dashboard/submit-submission.tsx:135-141 | groups are compared by the text of program and unit joined with a bar character | program "a", bar, "b" with unit "c", and program "a" with unit "b", bar, "c", give the same key and are rejected as duplicates | two groups are duplicates only when both program and unit are equal | low, not executed: the program is picked from a select over the three offered options, which contain no bar (`SubmissionSchema.KeysUniqueOnOfferedPrograms`), and a bar in a unit alone never collides (`SubmissionSchema.KeysUniqueWithoutSeparator`), so only a tampered program can trigger it | SubmissionSchema.DuplicateKeyIndices | SubmissionSchema.DuplicatePairIndices |

The same rule is repeated in `src/pages/dashboard/update-submission.tsx:107-130`.
The rest of the model uses the pair-based rule `SubmissionSchema.PairsUnique`.
`SubmissionSchema.CompositeKeyCollision` exhibits the difference, and
`SubmissionSchema.KeysUniqueWithoutSeparator` proves the two rules agree on
bar-free programs.

=== FILE: access.dfy ===
/** Who may see what: the policy for creating a submission, the role check, the
    session initialiser, and the three route guards, each modelled as the view
    it chooses. */
module Access {
  import opened Wrappers
  import opened AuthStore

  const OnlyStudents := "Hanya mahasiswa yang dapat membuat pengajuan"
  const ProfileIncomplete := "NIM dan program studi harus terisi untuk membuat pengajuan"

  /** A policy's answer: `{ allowed, reason? }`. */
  datatype Decision = Decision(allowed: bool, reason: Option<string>)

  /** A JavaScript truthiness test on an optional string: present and not empty. */
  predicate Filled(s: Option<string>) {
    s.Some? && s.value != ""
  }

  /** `canCreateSubmission`: only a student with both a NIM and a study program
      may submit; anyone else is refused with the reason that applies first. */
  function CanCreateSubmission(user: Option<User>): (d: Decision)
    ensures d.allowed <==> user.Some? && user.value.role == Student
                           && Filled(user.value.nim) && Filled(user.value.studyProgram)
    ensures d.allowed <==> d.reason.None?
    ensures (user.None? || user.value.role != Student) ==> d.reason == Some(OnlyStudents)
    ensures user.Some? && user.value.role == Student && !d.allowed ==> d.reason == Some(ProfileIncomplete)
  {
    if user.None? || user.value.role != Student then Decision(false, Some(OnlyStudents))
    else if !Filled(user.value.nim) || !Filled(user.value.studyProgram) then
      Decision(false, Some(ProfileIncomplete))
    else Decision(true, None)
  }

  /** Filling in the profile is what turns a refused student into an allowed one. */
  lemma CompletingProfileAllows(u: User, nim: string, program: string)
    requires u.role == Student && nim != "" && program != ""
    ensures !CanCreateSubmission(Some(u.(nim := None))).allowed
    ensures CanCreateSubmission(Some(u.(nim := Some(nim), studyProgram := Some(program)))).allowed
  {
  }

  /** `useHasRole`: signed in, and either no roles are listed or the user's is one of them. */
  function HasRole(user: Option<User>, allowed: seq<Role>): (r: bool)
    ensures r ==> user.Some?
    ensures user.Some? && |allowed| == 0 ==> r
    ensures user.Some? && |allowed| > 0 ==> (r <==> exists i :: 0 <= i < |allowed| && allowed[i] == user.value.role)
  {
    if user.None? then false
    else if |allowed| == 0 then true
    else user.value.role in allowed
  }

  /** Only the set of listed roles matters, not their order or repetitions. */
  lemma HasRoleDependsOnSet(user: Option<User>, a: seq<Role>, b: seq<Role>)
    requires forall r :: r in a <==> r in b
    ensures HasRole(user, a) == HasRole(user, b)
  {
    if |a| > 0 {
      assert a[0] in b;
    }
    if |b| > 0 {
      assert b[0] in a;
    }
  }

  /** `useAuthInitializer`: whether the effect starts a session check. */
  function ShouldInitialize(st: AuthState): (r: bool)
  {
    !st.isInitialized
  }

  /** Starting a check does not re-trigger the effect (it still waits for the
      same `isInitialized`), and any settled check, with a user, without one or
      failed, silences it for good. */
  lemma ShouldInitializeUntilSettled(st: AuthState, o: FetchOutcome)
    ensures ShouldInitialize(InitializeBegin(st).0) == ShouldInitialize(st)
    ensures !ShouldInitialize(InitializeSettle(st, o))
  {
  }

  /** After one check of the session has settled the initialiser stays quiet, and
      while one is under way a second trigger starts nothing. */
  lemma InitializerRunsOnce(o: FetchOutcome)
    ensures ShouldInitialize(Initial)
    ensures !InitializeBegin(InitializeBegin(Initial).0).1
    ensures !ShouldInitialize(InitializeSettle(InitializeBegin(Initial).0, o))
  {
  }

  /** After the first check has settled, no later `logout`, `setError`,
      `updateFields` or repeated `initialize` makes the effect fire again. */
  lemma InitializerStaysQuiet(st: AuthState, actions: seq<Action>)
    requires st.isInitialized
    ensures !ShouldInitialize(Run(st, actions))
  {
    RunKeepsInitialized(st, actions);
  }

  /** What a guard renders. `from` is the location handed to the next route. */
  datatype View =
    | Loading
    | Redirect(to: string, from: Option<string>)
    | Children
    | Fallback(reason: string)
    | Nothing

  const LoginPath := "/login"
  const ForbiddenPath := "/forbidden"
  const DashboardPath := "/dashboard"

  /** The spinner is shown until the session has been checked and nothing is loading. */
  predicate Settled(st: AuthState) {
    st.isInitialized && !st.isLoading
  }

  /** `ProtectedRoute`: wait for the session; send strangers to the login page
      with the place they came from; send users without a listed role to the
      forbidden page; otherwise render the page. */
  function ProtectedRoute(st: AuthState, allowedRoles: seq<Role>, redirectTo: string,
                          forbiddenRedirect: string, location: string): (v: View)
    requires Consistent(st)
    ensures !Settled(st) <==> v == Loading
    ensures Settled(st) && !st.isAuthenticated <==> v == Redirect(redirectTo, Some(location))
    ensures v == Children <==> Settled(st) && HasRole(st.user, allowedRoles)
    ensures v.Redirect? && v.from.None? <==> Settled(st) && st.isAuthenticated && !HasRole(st.user, allowedRoles)
    ensures v.Redirect? && v.from.None? ==> v.to == forbiddenRedirect
  {
    if !Settled(st) then Loading
    else if !st.isAuthenticated then Redirect(redirectTo, Some(location))
    else if |allowedRoles| > 0 && !HasRole(st.user, allowedRoles) then Redirect(forbiddenRedirect, None)
    else Children
  }

  /** `GuestRoute`: wait for the session; a signed-in user goes back where they
      came from, or to the dashboard; everyone else sees the page. */
  function GuestRoute(st: AuthState, from: Option<string>, redirectTo: string): (v: View)
    ensures !Settled(st) <==> v == Loading
    ensures v == Children <==> Settled(st) && !st.isAuthenticated
    ensures Settled(st) && st.isAuthenticated ==>
              v == Redirect(if Filled(from) then from.value else redirectTo, None)
  {
    if !Settled(st) then Loading
    else if st.isAuthenticated then Redirect(if Filled(from) then from.value else redirectTo, None)
    else Children
  }

  /** The login page (a guest route) and the dashboard (a protected route with no
      role list) never both render for the same settled session, and a signed-in
      user sent away from the login page lands on the dashboard unless they came
      from elsewhere. */
  lemma GuardsAreExclusive(st: AuthState, from: Option<string>, location: string)
    requires Consistent(st) && Settled(st)
    ensures (GuestRoute(st, from, DashboardPath) == Children)
            != (ProtectedRoute(st, [], LoginPath, ForbiddenPath, location) == Children)
    ensures st.isAuthenticated && !Filled(from) ==> GuestRoute(st, from, DashboardPath) == Redirect(DashboardPath, None)
    ensures !st.isAuthenticated ==> ProtectedRoute(st, [], LoginPath, ForbiddenPath, location) == Redirect(LoginPath, Some(location))
  {
  }

  /** `FeatureGate`: the children when allowed; the fallback when refused with a
      non-empty reason and a fallback was given; otherwise nothing. */
  function FeatureGate(d: Decision, hasFallback: bool): (v: View)
    ensures v == Children <==> d.allowed
    ensures v.Fallback? <==> !d.allowed && hasFallback && Filled(d.reason)
    ensures v.Fallback? ==> Some(v.reason) == d.reason
    ensures v == Nothing <==> !d.allowed && !(hasFallback && Filled(d.reason))
  {
    if !d.allowed then
      if hasFallback && Filled(d.reason) then Fallback(d.reason.value) else Nothing
    else Children
  }

  /** Gating the submission form on the policy with a fallback never renders
      nothing: the user sees either the form or the reason they cannot use it. */
  lemma SubmissionGateExplains(user: Option<User>)
    ensures var v := FeatureGate(CanCreateSubmission(user), true);
            v == Children || v.Fallback?
    ensures FeatureGate(CanCreateSubmission(user), true).Fallback? ==>
              FeatureGate(CanCreateSubmission(user), true).reason in {OnlyStudents, ProfileIncomplete}
  {
  }
}

=== FILE: auth_store.dfy ===
/** The session store: who is signed in, whether the first check of the session
    has finished, and the actions that change it. Each asynchronous action is
    split into the update it makes at once and the one it makes when the call
    settles; the call's result is an input. */
module AuthStore {
  import opened Wrappers

  /** `UserRole`. */
  datatype Role = Student | Lecturer | Staff | Adhoc

  /** The signed-in user (`User` of the auth types). */
  datatype User = User(
    id: string,
    sub: string,
    email: string,
    profilePicture: string,
    role: Role,
    fullName: string,
    nim: Option<string>,
    nip: Option<string>,
    studyProgram: Option<string>,
    phoneNumber: Option<string>)

  /** `Partial<AuthUser>`: `None` is a key the caller left out. */
  datatype UserPatch = UserPatch(
    id: Option<string>,
    sub: Option<string>,
    email: Option<string>,
    profilePicture: Option<string>,
    role: Option<Role>,
    fullName: Option<string>,
    nim: Option<string>,
    nip: Option<string>,
    studyProgram: Option<string>,
    phoneNumber: Option<string>)

  const NoChange := UserPatch(None, None, None, None, None, None, None, None, None, None)

  /** The data fields of `AuthState`. */
  datatype AuthState = AuthState(
    user: Option<User>,
    isAuthenticated: bool,
    isLoading: bool,
    error: Option<string>,
    isInitialized: bool)

  const Initial := AuthState(None, false, false, None, false)

  /** The store's invariant: signed in exactly when there is a user. */
  predicate Consistent(st: AuthState) {
    st.isAuthenticated <==> st.user.Some?
  }

  /** `{ ...currentUser, ...fields }`. */
  function ApplyPatch(u: User, p: UserPatch): (r: User)
    ensures r.id == (if p.id.Some? then p.id.value else u.id)
    ensures r.sub == (if p.sub.Some? then p.sub.value else u.sub)
    ensures r.email == (if p.email.Some? then p.email.value else u.email)
    ensures r.profilePicture == (if p.profilePicture.Some? then p.profilePicture.value else u.profilePicture)
    ensures r.role == (if p.role.Some? then p.role.value else u.role)
    ensures r.fullName == (if p.fullName.Some? then p.fullName.value else u.fullName)
    ensures r.nim == (if p.nim.Some? then p.nim else u.nim)
    ensures r.nip == (if p.nip.Some? then p.nip else u.nip)
    ensures r.studyProgram == (if p.studyProgram.Some? then p.studyProgram else u.studyProgram)
    ensures r.phoneNumber == (if p.phoneNumber.Some? then p.phoneNumber else u.phoneNumber)
  {
    User(
      p.id.GetOr(u.id),
      p.sub.GetOr(u.sub),
      p.email.GetOr(u.email),
      p.profilePicture.GetOr(u.profilePicture),
      p.role.GetOr(u.role),
      p.fullName.GetOr(u.fullName),
      if p.nim.Some? then p.nim else u.nim,
      if p.nip.Some? then p.nip else u.nip,
      if p.studyProgram.Some? then p.studyProgram else u.studyProgram,
      if p.phoneNumber.Some? then p.phoneNumber else u.phoneNumber)
  }

  /** The later patch wins on the keys it has; the earlier one on the rest. */
  function Then(p: UserPatch, q: UserPatch): UserPatch {
    UserPatch(
      if q.id.Some? then q.id else p.id,
      if q.sub.Some? then q.sub else p.sub,
      if q.email.Some? then q.email else p.email,
      if q.profilePicture.Some? then q.profilePicture else p.profilePicture,
      if q.role.Some? then q.role else p.role,
      if q.fullName.Some? then q.fullName else p.fullName,
      if q.nim.Some? then q.nim else p.nim,
      if q.nip.Some? then q.nip else p.nip,
      if q.studyProgram.Some? then q.studyProgram else p.studyProgram,
      if q.phoneNumber.Some? then q.phoneNumber else p.phoneNumber)
  }

  /** An empty patch changes nothing, a patch applied twice is applied once, and
      two patches in a row are one merged patch. */
  lemma PatchLaws(u: User, p: UserPatch, q: UserPatch)
    ensures ApplyPatch(u, NoChange) == u
    ensures ApplyPatch(ApplyPatch(u, p), p) == ApplyPatch(u, p)
    ensures ApplyPatch(ApplyPatch(u, p), q) == ApplyPatch(u, Then(p, q))
  {
  }

  /** `initialize`, up to the service call: nothing happens while a load is
      already under way; otherwise loading starts and the error is cleared. The
      flag says whether the call is made. */
  function InitializeBegin(st: AuthState): (r: (AuthState, bool))
    ensures r.1 <==> !st.isLoading
    ensures !r.1 ==> r.0 == st
    ensures r.0.isLoading && r.0.user == st.user && r.0.isAuthenticated == st.isAuthenticated
    ensures r.0.isInitialized == st.isInitialized
    ensures r.1 ==> r.0.error.None?
  {
    if st.isLoading then (st, false) else (st.(isLoading := true, error := None), true)
  }

  /** What `getCurrentUser` did: answered with a user or `null`, or threw. */
  datatype FetchOutcome = Fetched(user: Option<User>) | FetchFailed

  /** `initialize`, when the call settles: the answer becomes the session, a
      failure signs out, and either way the store is initialised and idle. */
  function InitializeSettle(st: AuthState, o: FetchOutcome): (r: AuthState)
    ensures r.user == (if o.Fetched? then o.user else None)
    ensures Consistent(r)
    ensures r.isInitialized && !r.isLoading && r.error.None?
  {
    match o
    case Fetched(u) => AuthState(u, u.Some?, false, None, true)
    case FetchFailed => AuthState(None, false, false, None, true)
  }

  /** `updateFields`: a no-op without a user; otherwise the patch is applied to
      the user and nothing else in the store moves. */
  function UpdateFields(st: AuthState, p: UserPatch): (r: AuthState)
    ensures st.user.None? ==> r == st
    ensures st.user.Some? ==> r == st.(user := Some(ApplyPatch(st.user.value, p)))
  {
    if st.user.None? then st else st.(user := Some(ApplyPatch(st.user.value, p)))
  }

  /** `logout`, up to the service call. */
  function LogoutBegin(st: AuthState): (r: AuthState)
    ensures r.isLoading && r.error.None?
    ensures r.user == st.user && r.isAuthenticated == st.isAuthenticated
    ensures r.isInitialized == st.isInitialized
  {
    st.(isLoading := true, error := None)
  }

  /** `logout`'s `finally`: signed out whatever the service said. */
  function LogoutSettle(st: AuthState): (r: AuthState)
    ensures r.user.None? && !r.isAuthenticated && !r.isLoading && r.error.None?
    ensures r.isInitialized == st.isInitialized
  {
    st.(user := None, isAuthenticated := false, isLoading := false, error := None)
  }

  /** `setError`. */
  function SetError(st: AuthState, e: Option<string>): (r: AuthState)
    ensures r.error == e && r.user == st.user && r.isAuthenticated == st.isAuthenticated
    ensures r.isLoading == st.isLoading && r.isInitialized == st.isInitialized
  {
    st.(error := e)
  }

  /** The store's actions, each as one synchronous update. */
  datatype Action =
    | InitBegin
    | InitSettle(outcome: FetchOutcome)
    | Update(patch: UserPatch)
    | LogoutStart
    | LogoutEnd
    | SetErrorTo(error: Option<string>)

  function Step(st: AuthState, a: Action): AuthState {
    match a
    case InitBegin => InitializeBegin(st).0
    case InitSettle(o) => InitializeSettle(st, o)
    case Update(p) => UpdateFields(st, p)
    case LogoutStart => LogoutBegin(st)
    case LogoutEnd => LogoutSettle(st)
    case SetErrorTo(e) => SetError(st, e)
  }

  function Run(st: AuthState, actions: seq<Action>): AuthState
    decreases |actions|
  {
    if |actions| == 0 then st else Run(Step(st, actions[0]), actions[1..])
  }

  /** Every action keeps "signed in exactly when there is a user". */
  lemma StepKeepsConsistent(st: AuthState, a: Action)
    requires Consistent(st)
    ensures Consistent(Step(st, a))
  {
  }

  /** From the initial store, any interleaving of the actions keeps the invariant. */
  lemma {:induction false} RunKeepsConsistent(st: AuthState, actions: seq<Action>)
    requires Consistent(st)
    ensures Consistent(Run(st, actions))
    decreases |actions|
  {
    if |actions| > 0 {
      StepKeepsConsistent(st, actions[0]);
      RunKeepsConsistent(Step(st, actions[0]), actions[1..]);
    }
  }

  /** Once initialised, the store stays initialised: no action clears the flag. */
  lemma {:induction false} RunKeepsInitialized(st: AuthState, actions: seq<Action>)
    requires st.isInitialized
    ensures Run(st, actions).isInitialized
    decreases |actions|
  {
    if |actions| > 0 {
      RunKeepsInitialized(Step(st, actions[0]), actions[1..]);
    }
  }

  lemma InitialConsistent()
    ensures Consistent(Initial) && !Initial.isInitialized && !Initial.isLoading
  {
  }

  /** What `partialize` writes to local storage. */
  datatype Persisted = Persisted(user: Option<User>, isAuthenticated: bool)

  function Partialize(st: AuthState): (p: Persisted)
  {
    Persisted(st.user, st.isAuthenticated)
  }

  /** Loading the stored part into a fresh store. */
  function Rehydrate(st: AuthState, p: Persisted): AuthState {
    st.(user := p.user, isAuthenticated := p.isAuthenticated)
  }

  /** Only the user and the flag are stored: a fresh store rehydrated from a
      consistent one is consistent, keeps the user, and is not yet initialised,
      so the session is checked again; storing it again stores the same. */
  lemma RehydrateRoundTrip(st: AuthState)
    requires Consistent(st)
    ensures var back := Rehydrate(Initial, Partialize(st));
            && Consistent(back) && back.user == st.user
            && !back.isInitialized && !back.isLoading && back.error.None?
            && Partialize(back) == Partialize(st)
  {
  }
}

=== FILE: data_table.dfy ===
/** The pagination footer of the data table: the page-number strip, the
    "Menampilkan X - Y dari Z" range label and the two pagination updates. */
module DataTable {
  import opened TableTypes

  /** An entry of the page strip: a zero-based page number or `'...'`. */
  datatype PageItem = Page(n: int) | Ellipsis

  function Max(a: int, b: int): int { if a >= b then a else b }

  function Min(a: int, b: int): int { if a <= b then a else b }

  /** The pages `lo`, `lo + 1`, …, `hi - 1`. */
  function Run(lo: int, hi: int): (r: seq<PageItem>)
    ensures |r| == Max(0, hi - lo)
    ensures forall k :: 0 <= k < |r| ==> r[k] == Page(lo + k)
  {
    seq(Max(0, hi - lo), k requires 0 <= k => Page(lo + k))
  }

  /** Page numbers appear in strictly increasing order and lie in `[0, totalPages)`. */
  predicate IncreasingPages(pages: seq<PageItem>, totalPages: int) {
    && (forall i :: 0 <= i < |pages| && pages[i].Page? ==> 0 <= pages[i].n < totalPages)
    && (forall i, j :: 0 <= i < j < |pages| && pages[i].Page? && pages[j].Page? ==> pages[i].n < pages[j].n)
  }

  /** Two neighbouring numbers are consecutive pages, and an ellipsis always sits
      between two numbers and stands for at least one hidden page. */
  predicate GapsMarked(pages: seq<PageItem>) {
    && (forall i :: 0 <= i < |pages| - 1 && pages[i].Page? && pages[i + 1].Page? ==>
          pages[i + 1].n == pages[i].n + 1)
    && (forall i :: 0 <= i < |pages| && pages[i].Ellipsis? ==>
          0 < i < |pages| - 1 && pages[i - 1].Page? && pages[i + 1].Page? &&
          pages[i + 1].n > pages[i - 1].n + 1)
  }

  /** `generatePageNumbers`: every page when there are at most seven; otherwise the
      first and last page, the current page with its neighbours, and an ellipsis
      for each hidden stretch. */
  method GeneratePageNumbers(currentPage: int, totalPages: nat) returns (pages: seq<PageItem>)
    ensures totalPages <= 7 ==> pages == Run(0, totalPages)
    ensures totalPages > 7 ==> 3 <= |pages| && pages[0] == Page(0) && pages[|pages| - 1] == Page(totalPages - 1)
    ensures totalPages > 7 && 0 <= currentPage < totalPages ==>
              (pages[1] == Ellipsis <==> currentPage > 2) &&
              (pages[|pages| - 2] == Ellipsis <==> currentPage < totalPages - 3)
    ensures IncreasingPages(pages, totalPages)
    ensures GapsMarked(pages)
    ensures 0 <= currentPage < totalPages ==> Page(currentPage) in pages
    ensures |pages| <= 7
  {
    if totalPages <= 7 {
      pages := Run(0, totalPages);
      RunShape(0, totalPages);
      if 0 <= currentPage < totalPages {
        assert pages[currentPage] == Page(currentPage);
      }
      return;
    }
    pages := LongStrip(currentPage, totalPages);
    StripShape(currentPage, totalPages, pages);
  }

  /** The loop of `generatePageNumbers` for more than seven pages. */
  method LongStrip(currentPage: int, totalPages: nat) returns (pages: seq<PageItem>)
    requires totalPages > 7
    ensures IsStrip(currentPage, totalPages, pages)
  {
    pages := [Page(0)];
    if currentPage > 2 {
      pages := pages + [Ellipsis];
    }
    ghost var head := pages;
    var lo := Max(1, currentPage - 1);
    var hi := Min(totalPages - 2, currentPage + 1);
    var i := lo;
    while i <= hi
      invariant lo <= i <= Max(lo, hi + 1)
      invariant pages == head + Run(lo, i)
    {
      pages := pages + [Page(i)];
      i := i + 1;
    }
    ghost var middle := Run(lo, i);
    assert middle == Run(lo, hi + 1);
    if currentPage < totalPages - 3 {
      pages := pages + [Ellipsis];
    }
    pages := pages + [Page(totalPages - 1)];
    StripEntries(currentPage, totalPages, head, middle, pages);
  }

  /** A run of consecutive pages has the shape of a strip. */
  lemma RunShape(lo: int, hi: int)
    requires lo >= 0
    ensures IncreasingPages(Run(lo, hi), hi)
    ensures GapsMarked(Run(lo, hi))
  {
  }

  /** Whether the long strip has a leading and a trailing ellipsis. */
  function LeadGap(c: int): int { if c > 2 then 1 else 0 }

  function TrailGap(c: int, t: int): int { if c < t - 3 then 1 else 0 }

  /** The neighbourhood of the current page: pages `Max(1, c - 1)` to `Min(t - 2, c + 1)`. */
  function Low(c: int): int { Max(1, c - 1) }

  function High(c: int, t: int): int { Min(t - 2, c + 1) }

  function Width(c: int, t: int): int { Max(0, High(c, t) - Low(c) + 1) }

  /** The length of the strip for more than seven pages. */
  function StripLength(c: int, t: int): int { 2 + LeadGap(c) + Width(c, t) + TrailGap(c, t) }

  /** Entry `k` of the strip for more than seven pages, position by position. */
  function StripEntry(c: int, t: int, k: int): PageItem {
    if k == 0 then Page(0)
    else if k <= LeadGap(c) then Ellipsis
    else if k <= LeadGap(c) + Width(c, t) then Page(Low(c) + k - 1 - LeadGap(c))
    else if k < StripLength(c, t) - 1 then Ellipsis
    else Page(t - 1)
  }

  /** The strip built by the loop agrees with the position-by-position description. */
  lemma StripEntries(c: int, t: int, head: seq<PageItem>, middle: seq<PageItem>, pages: seq<PageItem>)
    requires t > 7
    requires head == if c > 2 then [Page(0), Ellipsis] else [Page(0)]
    requires middle == Run(Low(c), High(c, t) + 1)
    requires pages == head + middle + (if c < t - 3 then [Ellipsis] else []) + [Page(t - 1)]
    ensures |pages| == StripLength(c, t)
    ensures forall k :: 0 <= k < |pages| ==> pages[k] == StripEntry(c, t, k)
  {
    forall k | 0 <= k < |pages|
      ensures pages[k] == StripEntry(c, t, k)
    {
      if LeadGap(c) < k <= LeadGap(c) + Width(c, t) {
        assert pages[k] == middle[k - |head|];
      }
    }
  }

  /** The loop's strip agrees with the position-by-position description. */
  predicate IsStrip(c: int, t: int, pages: seq<PageItem>) {
    && t > 7
    && |pages| == StripLength(c, t)
    && forall k :: 0 <= k < |pages| ==> pages[k] == StripEntry(c, t, k)
  }

  /** The shape facts of the long strip. */
  lemma StripShape(c: int, t: int, pages: seq<PageItem>)
    requires IsStrip(c, t, pages)
    ensures 3 <= |pages| <= 7
    ensures pages[0] == Page(0) && pages[|pages| - 1] == Page(t - 1)
    ensures 0 <= c < t ==> (pages[1] == Ellipsis <==> c > 2) && (pages[|pages| - 2] == Ellipsis <==> c < t - 3)
    ensures IncreasingPages(pages, t)
    ensures GapsMarked(pages)
    ensures 0 <= c < t ==> Page(c) in pages
  {
    StripEnds(c, t, pages);
    StripInRange(c, t, pages);
    StripIncreasing(c, t, pages);
    StripNeighbours(c, t, pages);
    StripEllipses(c, t, pages);
    StripHasCurrent(c, t, pages);
  }

  lemma StripEnds(c: int, t: int, pages: seq<PageItem>)
    requires IsStrip(c, t, pages)
    ensures 3 <= |pages| <= 7
    ensures pages[0] == Page(0) && pages[|pages| - 1] == Page(t - 1)
    ensures 0 <= c < t ==> (pages[1] == Ellipsis <==> c > 2) && (pages[|pages| - 2] == Ellipsis <==> c < t - 3)
  {
    assert Width(c, t) <= 3;
    assert Width(c, t) == 0 ==> LeadGap(c) + TrailGap(c, t) >= 1;
    assert pages[0] == StripEntry(c, t, 0);
    assert pages[1] == StripEntry(c, t, 1);
    assert pages[|pages| - 2] == StripEntry(c, t, |pages| - 2);
    assert pages[|pages| - 1] == StripEntry(c, t, |pages| - 1);
  }

  lemma StripInRange(c: int, t: int, pages: seq<PageItem>)
    requires IsStrip(c, t, pages)
    ensures forall i :: 0 <= i < |pages| && pages[i].Page? ==> 0 <= pages[i].n < t
  {
    forall i | 0 <= i < |pages| && pages[i].Page?
      ensures 0 <= pages[i].n < t
    {
      assert pages[i] == StripEntry(c, t, i);
    }
  }

  lemma StripIncreasing(c: int, t: int, pages: seq<PageItem>)
    requires IsStrip(c, t, pages)
    ensures forall i, j :: 0 <= i < j < |pages| && pages[i].Page? && pages[j].Page? ==> pages[i].n < pages[j].n
  {
    forall i, j | 0 <= i < j < |pages| && pages[i].Page? && pages[j].Page?
      ensures pages[i].n < pages[j].n
    {
      assert pages[i] == StripEntry(c, t, i) && pages[j] == StripEntry(c, t, j);
    }
  }

  lemma StripNeighbours(c: int, t: int, pages: seq<PageItem>)
    requires IsStrip(c, t, pages)
    ensures forall i :: 0 <= i < |pages| - 1 && pages[i].Page? && pages[i + 1].Page? ==>
              pages[i + 1].n == pages[i].n + 1
  {
    forall i | 0 <= i < |pages| - 1 && pages[i].Page? && pages[i + 1].Page?
      ensures pages[i + 1].n == pages[i].n + 1
    {
      assert pages[i] == StripEntry(c, t, i) && pages[i + 1] == StripEntry(c, t, i + 1);
    }
  }

  lemma StripEllipses(c: int, t: int, pages: seq<PageItem>)
    requires IsStrip(c, t, pages)
    ensures forall i :: 0 <= i < |pages| && pages[i].Ellipsis? ==>
              0 < i < |pages| - 1 && pages[i - 1].Page? && pages[i + 1].Page? &&
              pages[i + 1].n > pages[i - 1].n + 1
  {
    forall i | 0 <= i < |pages| && pages[i].Ellipsis?
      ensures 0 < i < |pages| - 1 && pages[i - 1].Page? && pages[i + 1].Page?
      ensures pages[i + 1].n > pages[i - 1].n + 1
    {
      assert pages[i] == StripEntry(c, t, i);
      assert pages[i - 1] == StripEntry(c, t, i - 1) && pages[i + 1] == StripEntry(c, t, i + 1);
    }
  }

  lemma StripHasCurrent(c: int, t: int, pages: seq<PageItem>)
    requires IsStrip(c, t, pages)
    ensures 0 <= c < t ==> Page(c) in pages
  {
    if 0 <= c < t {
      var k := if c == 0 then 0 else if c == t - 1 then |pages| - 1 else LeadGap(c) + 1 + c - Low(c);
      assert pages[k] == StripEntry(c, t, k) == Page(c);
    }
  }

  /** The first number of the "Menampilkan X - Y dari Z" label. */
  function RangeStart(p: Pagination, totalItems: int): int {
    if totalItems == 0 then 0 else p.pageIndex * p.pageSize + 1
  }

  /** The second number of the label. */
  function RangeEnd(p: Pagination, totalItems: int): int {
    Min((p.pageIndex + 1) * p.pageSize, totalItems)
  }

  /** On a page that holds rows, the label gives the one-based positions of its
      first and last row, and it counts exactly the rows on that page. */
  lemma RangeLabelCountsRows(p: Pagination, totalItems: int)
    requires p.pageSize > 0 && 0 <= p.pageIndex
    requires p.pageIndex * p.pageSize < totalItems
    ensures 1 <= RangeStart(p, totalItems) <= RangeEnd(p, totalItems) <= totalItems
    ensures RangeEnd(p, totalItems) - RangeStart(p, totalItems) + 1
            == Min(p.pageSize, totalItems - p.pageIndex * p.pageSize)
  {
  }

  /** Consecutive pages continue the count where the previous one stopped, and
      the last page ends at the total. */
  lemma RangeLabelTiles(p: Pagination, totalItems: int)
    requires p.pageSize > 0 && 0 <= p.pageIndex
    requires p.pageIndex * p.pageSize < totalItems
    ensures var next := p.(pageIndex := p.pageIndex + 1);
            next.pageIndex * p.pageSize < totalItems ==>
              RangeStart(next, totalItems) == RangeEnd(p, totalItems) + 1
    ensures (p.pageIndex + 1) * p.pageSize >= totalItems ==> RangeEnd(p, totalItems) == totalItems
  {
    var next := p.(pageIndex := p.pageIndex + 1);
    assert next.pageIndex * p.pageSize == p.pageIndex * p.pageSize + p.pageSize;
  }

  /** An empty table reads "0 - 0 dari 0". */
  lemma RangeLabelOfEmptyTable(p: Pagination)
    requires p.pageSize >= 0 && p.pageIndex >= 0
    ensures RangeStart(p, 0) == 0 && RangeEnd(p, 0) == 0
  {
  }

  /** Choosing a page size in the selector starts over at the first page. */
  function PageSizeChanged(p: Pagination, size: int): (r: Pagination)
    ensures r.pageIndex == 0 && r.pageSize == size
  {
    Pagination(0, size)
  }

  /** Clicking a number in the page strip moves to that page and keeps the size. */
  function PageClicked(p: Pagination, page: int): (r: Pagination)
  {
    p.(pageIndex := page)
  }

  /** After a page-size change the label starts at the first row again, and the
      new page holds rows whenever the table does. */
  lemma PageSizeChangeShowsFirstRows(p: Pagination, size: int, totalItems: int)
    requires size > 0 && totalItems > 0
    ensures var q := PageSizeChanged(p, size);
            RangeStart(q, totalItems) == 1 && RangeEnd(q, totalItems) == Min(size, totalItems)
  {
  }

  /** A page click changes only the page index, so the label moves by whole pages. */
  lemma PageClickKeepsSize(p: Pagination, page: int, totalItems: int)
    requires totalItems > 0
    ensures PageClicked(p, page).pageSize == p.pageSize
    ensures PageClicked(p, page).pageIndex == page
    ensures RangeStart(PageClicked(p, page), totalItems) == page * p.pageSize + 1
  {
  }
}

=== FILE: display.dfy ===
/** How names are shown: the institution's full-name format and study-program
    identifiers. */
module Display {
  import opened Wrappers
  import opened Text

  /** `fullName.replace(/^[^_]*_/, "")`: everything up to and including the
      first underscore goes (the NIM digits the directory puts in front). */
  function StripNimPrefix(s: string): (r: string)
    ensures '_' in s ==> r == s[IndexOf(s, '_') + 1..]
    ensures '_' in s ==> |r| < |s| && s[|s| - |r| - 1] == '_' && '_' !in s[..|s| - |r| - 1]
                         && r == s[|s| - |r|..]
    ensures '_' !in s ==> r == s
  {
    if '_' in s then s[IndexOf(s, '_') + 1..] else s
  }

  predicate NoLineTerminator(s: string) {
    forall i :: 0 <= i < |s| ==> !IsLineTerminator(s[i])
  }

  /** "TI" at `t` followed, up to the end, by characters `.` matches. */
  predicate TitleAt(s: string, t: int) {
    0 <= t && t + 2 <= |s| && s[t] == 'T' && s[t + 1] == 'I' && NoLineTerminator(s[t + 2..])
  }

  /** Where the greedy `\s*` that starts at `p` stops. */
  function SpaceRunEnd(s: string, p: nat): (q: nat)
    requires p <= |s|
    ensures p <= q <= |s| && AllSpaces(s[p..q])
    ensures q < |s| ==> !IsSpace(s[q])
    decreases |s| - p
  {
    if p < |s| && IsSpace(s[p]) then SpaceRunEnd(s, p + 1) else p
  }

  /** `/\s*TI.*$/` matches at `p`. `T` is not whitespace, so backtracking the
      `\s*` cannot help: the match needs the title right where the spaces end. */
  predicate MatchAt(s: string, p: nat) {
    p <= |s| && TitleAt(s, SpaceRunEnd(s, p))
  }

  /** The regular-expression engine's scan: the first position from `i` on
      where the pattern matches. */
  function LeftmostMatch(s: string, i: nat): (r: Option<nat>)
    requires i <= |s|
    ensures r.Some? ==> i <= r.value <= |s| && MatchAt(s, r.value)
    ensures r.Some? ==> forall j :: i <= j < r.value ==> !MatchAt(s, j)
    ensures r.None? ==> forall j :: i <= j <= |s| ==> !MatchAt(s, j)
    decreases |s| - i
  {
    if MatchAt(s, i) then Some(i)
    else if i == |s| then None
    else LeftmostMatch(s, i + 1)
  }

  /** `.replace(/\s*TI.*$/, "")`: the match runs to the end, so what is left is
      the text before the match. */
  function RemoveStudyProgram(s: string): (r: string)
  {
    match LeftmostMatch(s, 0)
    case None => s
    case Some(p) => s[..p]
  }

  /** The removal keeps a prefix; it changes the text exactly when a title
      occurs; the kept part holds no title and does not end in whitespace, and
      the cut-off part is whitespace followed by the title. */
  lemma RemoveStudyProgramSpec(s: string)
    ensures var r := RemoveStudyProgram(s);
            && r == s[..|r|]
            && (r == s <==> forall t :: 0 <= t < |s| ==> !TitleAt(s, t))
            && (forall t :: 0 <= t && t + 1 < |r| ==> !TitleAt(s, t))
            && (r != s ==> (|r| > 0 ==> !IsSpace(r[|r| - 1]))
                           && TitleAt(s, SpaceRunEnd(s, |r|)))
  {
    var m := LeftmostMatch(s, 0);
    forall t | 0 <= t < |s| && TitleAt(s, t)
      ensures m.Some? && m.value <= t
    {
      assert SpaceRunEnd(s, t) == t;
      assert MatchAt(s, t);
    }
    if m.Some? {
      var p := m.value;
      assert TitleAt(s, SpaceRunEnd(s, p));
      assert p + 2 <= |s|;
      if p > 0 {
        NoSpaceBeforeMatch(s, p);
      }
    }
  }

  /** The first match is not preceded by whitespace: the `\s*` would have
      started there. */
  lemma NoSpaceBeforeMatch(s: string, p: nat)
    requires 0 < p <= |s| && MatchAt(s, p) && !MatchAt(s, p - 1)
    ensures !IsSpace(s[p - 1])
  {
  }

  lemma RemoveKeepsPrefix(s: string)
    ensures |RemoveStudyProgram(s)| <= |s| && RemoveStudyProgram(s) == s[..|RemoveStudyProgram(s)|]
  {
  }

  /** `displayFullName`. */
  function DisplayFullName(fullName: string): (r: string)
  {
    Trim(RemoveStudyProgram(StripNimPrefix(fullName)))
  }

  /** The shown name is a trimmed piece of the stored one. */
  lemma DisplayFullNameIsTrimmedPiece(fullName: string)
    ensures var r := DisplayFullName(fullName);
            && (|r| > 0 ==> !IsSpace(r[0]) && !IsSpace(r[|r| - 1]))
            && exists i, j :: 0 <= i <= j <= |fullName| && r == fullName[i..j]
  {
    var a := StripNimPrefix(fullName);
    var k := NimSuffix(fullName);
    var b := RemoveStudyProgram(a);
    RemoveKeepsPrefix(a);
    var i, j := TrimBounds(b);
    TrimEnds(b);
    PieceOfPiece(fullName, k, |b|, i, j);
    assert DisplayFullName(fullName) == fullName[k + i..k + j];
  }

  /** No "T" directly followed by "I" anywhere in `s`. */
  predicate NoTitlePair(s: string) {
    forall t :: 0 <= t < |s| - 1 ==> !(s[t] == 'T' && s[t + 1] == 'I')
  }

  /** On a one-line name, the shown name holds no "TI" at all: the study-program
      tail is cut at the first "TI", and trimming only shortens what is left. */
  lemma DisplayFullNameHasNoTitle(fullName: string)
    requires NoLineTerminator(fullName)
    ensures NoTitlePair(DisplayFullName(fullName))
  {
    var k := NimSuffix(fullName);
    NoLineTerminatorSuffix(fullName, k);
    var b := RemoveStudyProgram(fullName[k..]);
    KeptPartHasNoTitle(fullName[k..]);
    var i, j := TrimBounds(b);
    NoTitlePairSlice(b, i, j);
  }

  /** On a one-line text, what the removal keeps holds no "TI". */
  lemma KeptPartHasNoTitle(a: string)
    requires NoLineTerminator(a)
    ensures NoTitlePair(RemoveStudyProgram(a))
  {
    var b := RemoveStudyProgram(a);
    RemoveStudyProgramSpec(a);
    forall t | 0 <= t < |b| - 1
      ensures !(b[t] == 'T' && b[t + 1] == 'I')
    {
      assert b[t] == a[t] && b[t + 1] == a[t + 1];
      NoLineTerminatorSuffix(a, t + 2);
      assert !TitleAt(a, t);
    }
  }

  lemma NoLineTerminatorSuffix(s: string, k: nat)
    requires NoLineTerminator(s) && k <= |s|
    ensures NoLineTerminator(s[k..])
  {
    forall u | 0 <= u < |s| - k
      ensures !IsLineTerminator(s[k..][u])
    {
      assert s[k..][u] == s[k + u];
    }
  }

  lemma NoTitlePairSlice(s: string, i: nat, j: nat)
    requires i <= j <= |s| && NoTitlePair(s)
    ensures NoTitlePair(s[i..j])
  {
    forall t | 0 <= t < j - i - 1
      ensures !(s[i..j][t] == 'T' && s[i..j][t + 1] == 'I')
    {
      assert s[i..j][t] == s[i + t] && s[i..j][t + 1] == s[i + t + 1];
    }
  }

  /** What is left after the NIM prefix is a suffix of the name. */
  lemma NimSuffix(s: string) returns (k: nat)
    ensures k <= |s| && StripNimPrefix(s) == s[k..]
  {
    k := |s| - |StripNimPrefix(s)|;
  }

  lemma PieceOfPiece(s: string, k: nat, n: nat, i: nat, j: nat)
    requires k + n <= |s| && i <= j <= n
    ensures s[k..][..n][i..j] == s[k + i..k + j]
  {
  }

  /** A name with neither an underscore nor a title is only trimmed. */
  lemma DisplayPlainName(name: string)
    requires '_' !in name
    requires forall t :: 0 <= t < |name| ==> !TitleAt(name, t)
    ensures DisplayFullName(name) == Trim(name)
  {
    RemoveStudyProgramSpec(name);
  }

  /** The directory's format `<nim>_<name> <spaces>TI<rest>`: the NIM and the
      study program both go, and the name is what is shown. */
  lemma DisplayDirectoryName(nim: string, name: string, gap: string, rest: string)
    requires '_' !in nim
    requires forall t :: 0 <= t < |name| ==> !TitleAt(name, t)
    requires |name| > 0 ==> !IsSpace(name[|name| - 1])
    requires AllSpaces(gap)
    requires NoLineTerminator(rest)
    ensures DisplayFullName(nim + "_" + name + gap + "TI" + rest) == Trim(name)
  {
    var a := name + gap + "TI" + rest;
    assert nim + "_" + name + gap + "TI" + rest == nim + "_" + a;
    DropNim(nim, a);
    DropTitle(name, gap, rest);
  }

  /** The NIM prefix goes up to the first underscore, which follows the NIM. */
  lemma DropNim(nim: string, a: string)
    requires '_' !in nim
    ensures StripNimPrefix(nim + "_" + a) == a
  {
    var s := nim + "_" + a;
    assert s[|nim|] == '_';
    assert IndexOf(s, '_') == |nim| by {
      assert s[..|nim|] == nim;
    }
    assert s[|nim| + 1..] == a;
  }

  /** The title after the name is removed together with the gap before it. */
  lemma DropTitle(name: string, gap: string, rest: string)
    requires forall t :: 0 <= t < |name| ==> !TitleAt(name, t)
    requires |name| > 0 ==> !IsSpace(name[|name| - 1])
    requires AllSpaces(gap)
    requires NoLineTerminator(rest)
    ensures RemoveStudyProgram(name + gap + "TI" + rest) == name
  {
    var a := name + gap + "TI" + rest;
    assert MatchAt(a, |name|) by {
      var t := |name| + |gap|;
      assert a[|name|..t] == gap;
      assert a[t] == 'T' && a[t + 1] == 'I';
      assert a[t + 2..] == rest;
      SpaceRunReachesTitle(a, |name|, t);
    }
    assert a[..|name|] == name;
    forall j | 0 <= j < |name|
      ensures !MatchAt(a, j)
    {
      NoEarlierMatch(a, name, j);
    }
    FirstMatch(a, |name|);
  }

  /** A match with none before it is the one the scan finds. */
  lemma FirstMatch(s: string, p: nat)
    requires p <= |s| && MatchAt(s, p)
    requires forall j :: 0 <= j < p ==> !MatchAt(s, j)
    ensures LeftmostMatch(s, 0) == Some(p)
  {
    var m := LeftmostMatch(s, 0);
    assert m.Some? && m.value <= p;
  }

  /** A run of whitespace from `p` that reaches a non-space at `t` ends there. */
  lemma {:induction false} SpaceRunReachesTitle(s: string, p: nat, t: nat)
    requires p <= t < |s| && AllSpaces(s[p..t]) && !IsSpace(s[t])
    ensures SpaceRunEnd(s, p) == t
    decreases t - p
  {
    if p < t {
      assert IsSpace(s[p..t][0]);
      assert s[p + 1..t] == s[p..t][1..];
      SpaceRunReachesTitle(s, p + 1, t);
    }
  }

  /** Inside a name that ends in a non-space, the whitespace run stays inside the
      name, and the name has no title there. */
  lemma NoEarlierMatch(a: string, name: string, j: nat)
    requires |name| <= |a| && a[..|name|] == name && j < |name|
    requires forall t :: 0 <= t < |name| ==> !TitleAt(name, t)
    requires !IsSpace(name[|name| - 1])
    requires |name| < |a| ==> a[|name|] != 'I'
    ensures !MatchAt(a, j)
  {
    var q := SpaceRunEnd(a, j);
    assert a[|name| - 1] == name[|name| - 1];
    SpaceRunStopsAt(a, j, |name| - 1);
    if q + 1 < |name| {
      TitleInPrefix(a, name, q);
    }
  }

  /** A whitespace run does not pass a non-space character. */
  lemma {:induction false} SpaceRunStopsAt(s: string, p: nat, t: nat)
    requires p <= t < |s| && !IsSpace(s[t])
    ensures SpaceRunEnd(s, p) <= t
    decreases t - p
  {
    if p < t {
      SpaceRunStopsAt(s, p + 1, t);
    }
  }

  /** A title wholly inside a prefix is a title of the prefix: the line
      terminators that stop it in the prefix stop it in the whole. */
  lemma TitleInPrefix(a: string, name: string, q: nat)
    requires |name| <= |a| && a[..|name|] == name && q + 1 < |name|
    ensures TitleAt(a, q) ==> TitleAt(name, q)
  {
    if TitleAt(a, q) {
      var tail := name[q + 2..];
      forall i | 0 <= i < |tail|
        ensures !IsLineTerminator(tail[i])
      {
        assert tail[i] == a[q + 2..][i];
      }
    }
  }

  /** `word.charAt(0).toUpperCase() + word.slice(1)`. */
  function Capitalize(w: string): string {
    if |w| == 0 then "" else [ToUpperChar(w[0])] + w[1..]
  }

  function CapitalizeAll(words: seq<string>): (r: seq<string>)
    ensures |r| == |words|
    ensures forall i :: 0 <= i < |words| ==> r[i] == Capitalize(words[i])
  {
    if |words| == 0 then [] else [Capitalize(words[0])] + CapitalizeAll(words[1..])
  }

  /** `displayStudyProgram`: nothing for a missing or empty value; otherwise
      lower-case, split at underscores, capitalise each word, join with spaces. */
  function DisplayStudyProgram(value: Option<string>): (r: string)
    ensures value.None? || value.value == "" ==> r == ""
  {
    if value.None? || value.value == "" then ""
    else Join(CapitalizeAll(Split(ToLower(value.value), '_')), ' ')
  }

  /** Reference definition, one character at a time: an underscore becomes a
      space, and a letter is upper-case exactly when it starts a word. */
  function TitleCase(s: string, atStart: bool): (r: string)
    ensures |r| == |s|
  {
    if |s| == 0 then ""
    else if s[0] == '_' then " " + TitleCase(s[1..], true)
    else [if atStart then ToUpperChar(s[0]) else s[0]] + TitleCase(s[1..], false)
  }

  /** Within a word, the reference definition leaves the rest of the word alone. */
  lemma {:induction false} TitleCaseOfWord(w: string)
    requires '_' !in w
    ensures TitleCase(w, true) == Capitalize(w)
    ensures TitleCase(w, false) == w
  {
    if |w| > 0 {
      TitleCaseOfWord(w[1..]);
      assert w == [w[0]] + w[1..];
    }
  }

  /** The reference definition splits at the first underscore. */
  lemma {:induction false} TitleCaseAtSeparator(w: string, rest: string, atStart: bool)
    requires '_' !in w
    ensures TitleCase(w + "_" + rest, atStart) == TitleCase(w, atStart) + " " + TitleCase(rest, true)
  {
    if |w| > 0 {
      assert (w + "_" + rest)[1..] == w[1..] + "_" + rest;
      TitleCaseAtSeparator(w[1..], rest, false);
    } else {
      assert (w + "_" + rest)[1..] == rest;
    }
  }

  /** Splitting, capitalising and joining is the character-wise reference. */
  lemma {:induction false} SplitCapitalizeJoin(s: string)
    ensures Join(CapitalizeAll(Split(s, '_')), ' ') == TitleCase(s, true)
    decreases |s|
  {
    if '_' !in s {
      TitleCaseOfWord(s);
    } else {
      var k := IndexOf(s, '_');
      var w, rest := s[..k], s[k + 1..];
      assert s == w + "_" + rest;
      SplitCapitalizeJoin(rest);
      TitleCaseAtSeparator(w, rest, true);
      TitleCaseOfWord(w);
      var words := Split(s, '_');
      assert words == [w] + Split(rest, '_');
      assert CapitalizeAll(words) == [Capitalize(w)] + CapitalizeAll(Split(rest, '_'));
    }
  }

  /** What the shown study program looks like: as long as the value, with a
      space for each underscore, the first letter of each word upper-case and
      the other letters lower-case. */
  lemma DisplayStudyProgramShape(v: string)
    requires v != ""
    ensures var r := DisplayStudyProgram(Some(v));
            && |r| == |v|
            && r == TitleCase(ToLower(v), true)
            && '_' !in r
  {
    SplitCapitalizeJoin(ToLower(v));
    TitleCaseHasNoUnderscore(ToLower(v), true);
  }

  lemma {:induction false} TitleCaseHasNoUnderscore(s: string, atStart: bool)
    ensures '_' !in TitleCase(s, atStart)
  {
    if |s| > 0 {
      TitleCaseHasNoUnderscore(s[1..], s[0] == '_');
      assert IsLower('_') == false;
    }
  }
}

=== FILE: pdf_viewer.dfy ===
/** The dialog that previews a submission's generated PDF: which document is
    fetched, the page buttons, and the name of the downloaded file. */
module PdfViewer {
  import opened Wrappers
  import opened Text

  /** The dialog's state: the props it was given and its two counters. */
  datatype Viewer = Viewer(open: bool, submissionId: Option<string>, numPages: nat, pageNumber: int)

  /** `useGenerateFile(open ? submissionId : null)`: the id to fetch, if any.
      The query runs only for a non-empty id of an open dialog. */
  function FetchedId(v: Viewer): (r: Option<string>)
    ensures r.Some? <==> v.open && v.submissionId.Some? && v.submissionId.value != ""
    ensures r.Some? ==> r == v.submissionId
  {
    if v.open && v.submissionId.Some? && v.submissionId.value != "" then v.submissionId else None
  }

  /** The effect on `[open, submissionId]`: a changed dialog starts at page one. */
  function Reset(v: Viewer, open: bool, submissionId: Option<string>): (r: Viewer)
    ensures r.open == open && r.submissionId == submissionId && r.numPages == v.numPages
    ensures (open, submissionId) != (v.open, v.submissionId) ==> r.pageNumber == 1
    ensures (open, submissionId) == (v.open, v.submissionId) ==> r.pageNumber == v.pageNumber
  {
    if (open, submissionId) != (v.open, v.submissionId) then Viewer(open, submissionId, v.numPages, 1)
    else v
  }

  /** `onDocumentLoadSuccess`. */
  function Loaded(v: Viewer, numPages: nat): (r: Viewer)
    ensures r.numPages == numPages && r.pageNumber == v.pageNumber
  {
    v.(numPages := numPages)
  }

  /** The pager is shown only for a document of more than one page. */
  predicate PagerShown(v: Viewer) { v.numPages > 1 }

  predicate PrevDisabled(v: Viewer) { v.pageNumber <= 1 }

  predicate NextDisabled(v: Viewer) { v.pageNumber >= v.numPages }

  /** `goToPrevPage`: back one page, not before the first. */
  function GoToPrevPage(v: Viewer): (r: Viewer)
    ensures r.open == v.open && r.submissionId == v.submissionId && r.numPages == v.numPages
    ensures 1 <= r.pageNumber
    ensures v.pageNumber > 1 ==> r.pageNumber < v.pageNumber
    ensures v.pageNumber >= 1 ==> v.pageNumber - r.pageNumber <= 1
    ensures v.pageNumber <= 1 ==> r.pageNumber == 1
  {
    v.(pageNumber := if v.pageNumber - 1 >= 1 then v.pageNumber - 1 else 1)
  }

  /** `goToNextPage`: on one page, not past the last. */
  function GoToNextPage(v: Viewer): (r: Viewer)
    ensures r.open == v.open && r.submissionId == v.submissionId && r.numPages == v.numPages
    ensures r.pageNumber <= v.numPages
    ensures v.pageNumber < v.numPages ==> v.pageNumber < r.pageNumber
    ensures v.pageNumber <= v.numPages ==> r.pageNumber - v.pageNumber <= 1
    ensures v.pageNumber >= v.numPages ==> r.pageNumber == v.numPages
  {
    v.(pageNumber := if v.pageNumber + 1 <= v.numPages then v.pageNumber + 1 else v.numPages)
  }

  /** Inside the document, "previous" undoes "next" and "next" undoes
      "previous". */
  lemma PrevAndNextAreInverse(v: Viewer)
    ensures 1 <= v.pageNumber < v.numPages ==> GoToPrevPage(GoToNextPage(v)) == v
    ensures 1 < v.pageNumber <= v.numPages ==> GoToNextPage(GoToPrevPage(v)) == v
  {
  }

  datatype Click = Prev | Next

  /** A click on a pager button; a hidden pager or a disabled button does nothing. */
  function Press(v: Viewer, c: Click): (r: Viewer)
    ensures r.numPages == v.numPages && r.open == v.open && r.submissionId == v.submissionId
    ensures !PagerShown(v) ==> r == v
  {
    if !PagerShown(v) then v
    else match c
      case Prev => if PrevDisabled(v) then v else GoToPrevPage(v)
      case Next => if NextDisabled(v) then v else GoToNextPage(v)
  }

  function PressAll(v: Viewer, cs: seq<Click>): Viewer
    decreases |cs|
  {
    if |cs| == 0 then v else PressAll(Press(v, cs[0]), cs[1..])
  }

  /** The page shown is one of the document's pages. */
  predicate InRange(v: Viewer) {
    1 <= v.pageNumber <= v.numPages
  }

  /** A press keeps the page in range; it moves by at most one. */
  lemma PressKeepsRange(v: Viewer, c: Click)
    requires InRange(v)
    ensures InRange(Press(v, c))
    ensures -1 <= Press(v, c).pageNumber - v.pageNumber <= 1
  {
  }

  /** Any sequence of presses keeps the page in range. */
  lemma {:induction false} PressAllKeepsRange(v: Viewer, cs: seq<Click>)
    requires InRange(v)
    ensures InRange(PressAll(v, cs))
    ensures PressAll(v, cs).numPages == v.numPages
    decreases |cs|
  {
    if |cs| > 0 {
      PressKeepsRange(v, cs[0]);
      PressAllKeepsRange(Press(v, cs[0]), cs[1..]);
    }
  }

  function Repeat(c: Click, n: nat): (r: seq<Click>)
    ensures |r| == n && forall i :: 0 <= i < n ==> r[i] == c
  {
    if n == 0 then [] else [c] + Repeat(c, n - 1)
  }

  /** Pressing "next" `n` times from a page walks forward `n` pages, stopping at
      the last; pressing "previous" as often walks back, stopping at the first. */
  lemma {:induction false} RepeatedPresses(v: Viewer, n: nat)
    requires InRange(v) && PagerShown(v)
    ensures PressAll(v, Repeat(Next, n)).pageNumber
            == (if v.pageNumber + n <= v.numPages then v.pageNumber + n else v.numPages)
    ensures PressAll(v, Repeat(Prev, n)).pageNumber
            == (if v.pageNumber - n >= 1 then v.pageNumber - n else 1)
    decreases n
  {
    if n > 0 {
      assert Repeat(Next, n)[1..] == Repeat(Next, n - 1);
      assert Repeat(Prev, n)[1..] == Repeat(Prev, n - 1);
      RepeatedPresses(Press(v, Next), n - 1);
      RepeatedPresses(Press(v, Prev), n - 1);
    }
  }

  /** Opening the dialog on another submission and loading its document shows
      its first page. */
  lemma OpenShowsFirstPage(v: Viewer, id: string, numPages: nat)
    requires numPages >= 1 && v.submissionId != Some(id)
    ensures InRange(Loaded(Reset(v, true, Some(id)), numPages))
    ensures Loaded(Reset(v, true, Some(id)), numPages).pageNumber == 1
  {
  }

  /** The page count of the previous document is kept until the new one loads,
      so the pager can move past the end of a shorter document loaded next. */
  lemma StaleCountCanOverrun()
    ensures var v := Reset(Viewer(true, Some("a"), 6, 1), true, Some("b"));
            var moved := PressAll(v, [Next, Next, Next]);
            var loaded := Loaded(moved, 2);
            loaded.pageNumber == 4 && !InRange(loaded)
  {
    var v := Reset(Viewer(true, Some("a"), 6, 1), true, Some("b"));
    assert PressAll(v, [Next, Next, Next]) == PressAll(Press(v, Next), [Next, Next]);
    assert [Next, Next][1..] == [Next];
    assert [Next][1..] == [];
  }

  const DownloadPrefix := "dokumen_moa_ia_"
  const DownloadSuffix := ".pdf"

  /** The file-name stem: the partner name with each whitespace run turned into
      an underscore, or the submission id when there is no partner name (a
      missing id prints as `null`). */
  function DownloadStem(partnerName: Option<string>, submissionId: Option<string>): (r: string)
    ensures partnerName.Some? && partnerName.value != "" ==> r == CollapseSpaces(partnerName.value, '_')
    ensures partnerName.Some? && partnerName.value != "" ==> r != "" && NoSpaces(r) && |r| <= |partnerName.value|
    ensures (partnerName.None? || partnerName.value == "") ==> r == submissionId.GetOr("null")
  {
    if partnerName.Some? && CollapseSpaces(partnerName.value, '_') != "" then
      var r := CollapseSpaces(partnerName.value, '_');
      assert NoSpaces(r) by {
        assert !IsSpace('_');
      }
      r
    else submissionId.GetOr("null")
  }

  /** `handleDownload`: nothing without a fetched document; otherwise the name
      the link downloads under. */
  function DownloadName(pdfBlobUrl: Option<string>, partnerName: Option<string>, submissionId: Option<string>): (r: Option<string>)
    ensures r.None? <==> pdfBlobUrl.None?
    ensures r.Some? ==> r.value == DownloadPrefix + DownloadStem(partnerName, submissionId) + DownloadSuffix
  {
    if pdfBlobUrl.None? then None
    else Some(DownloadPrefix + DownloadStem(partnerName, submissionId) + DownloadSuffix)
  }

  /** A partner name without whitespace is used as it is, and the stem of a
      named partner never has whitespace in it. */
  lemma DownloadStemOfPlainName(name: string, submissionId: Option<string>)
    requires name != "" && NoSpaces(name)
    ensures DownloadStem(Some(name), submissionId) == name
  {
    CollapseWithoutSpaces(name, '_');
  }

  /** The download button is usable only with a document that is not loading. */
  predicate DownloadDisabled(pdfBlobUrl: Option<string>, isLoading: bool) {
    pdfBlobUrl.None? || isLoading
  }

  /** The button and its handler agree: an enabled button always has a file to
      download, and a handler with nothing to download sits behind a disabled
      button. A fetched document that is not loading enables it. */
  lemma DownloadButtonMatchesHandler(pdfBlobUrl: Option<string>, isLoading: bool,
                                     partnerName: Option<string>, submissionId: Option<string>)
    ensures !DownloadDisabled(pdfBlobUrl, isLoading) ==> DownloadName(pdfBlobUrl, partnerName, submissionId).Some?
    ensures DownloadName(pdfBlobUrl, partnerName, submissionId).None? ==> DownloadDisabled(pdfBlobUrl, isLoading)
    ensures DownloadDisabled(pdfBlobUrl, isLoading) <==> DownloadName(pdfBlobUrl, partnerName, submissionId).None? || isLoading
  {
  }
}

=== FILE: staff_detail.dfy ===
/** The staff view of one partner's submissions in one period: the URL
    parameters it needs, the query it sends, the verify action of each row, and
    how the rows' study programs and statuses are labelled. */
module StaffDetail {
  import opened Wrappers
  import opened Text
  import opened TableTypes
  import opened SubmissionTypes
  import SubmissionService
  import PdfViewer

  /** The three URL parameters, each `searchParams.get(name) || ""`. */
  datatype UrlParams = UrlParams(period: string, partnerName: string, activityType: string)

  function ReadUrlParams(period: Option<string>, partnerName: Option<string>, activityType: Option<string>): (r: UrlParams)
    ensures r.period == "" <==> period.None? || period.value == ""
    ensures r.partnerName == "" <==> partnerName.None? || partnerName.value == ""
    ensures r.activityType == "" <==> activityType.None? || activityType.value == ""
  {
    UrlParams(period.GetOr(""), partnerName.GetOr(""), activityType.GetOr(""))
  }

  /** `missingRequired`: the page shows a warning instead of the table. */
  predicate MissingRequired(p: UrlParams) {
    p.period == "" || p.partnerName == "" || p.activityType == ""
  }

  /** `displayActivityType`: two activity types have Indonesian captions; any
      other value is shown as it came. */
  function DisplayActivityType(param: string): (r: string)
    ensures param == "internship" ==> r == "Magang"
    ensures param == "kkn" ==> r == "KKN"
    ensures param != "internship" && param != "kkn" ==> r == param
  {
    if param == "internship" then "Magang"
    else if param == "kkn" then "KKN"
    else param
  }

  /** Different activity types are never shown the same way. */
  lemma ActivityCaptionsDistinct(a: ActivityType, b: ActivityType)
    requires a != b
    ensures DisplayActivityType(ActivityName(a)) != DisplayActivityType(ActivityName(b))
  {
  }

  /** The page's own state. */
  datatype PageState = PageState(
    pagination: Pagination,
    sorting: seq<SortItem>,
    search: string,
    pdfDialogOpen: bool,
    selectedSubmission: Option<string>,
    verifyingSubmissionId: Option<string>)

  const InitialPage := PageState(Pagination(0, 10), [], "", false, None, None)

  /** `queryParams`: the table's page and sort, and the search without its
      surrounding whitespace, left out when nothing is left. */
  function QueryParamsOf(st: PageState): (q: QueryParams)
    ensures q.page == st.pagination.pageIndex && q.size == st.pagination.pageSize
    ensures q.sort == ToSpringSort(st.sorting)
    ensures q.search.None? <==> AllSpaces(st.search)
    ensures q.search.Some? ==> q.search.value == Trim(st.search) && q.search.value != ""
  {
    var t := Trim(st.search);
    TrimEmptyIffAllSpaces(st.search);
    QueryParams(st.pagination.pageIndex, st.pagination.pageSize, ToSpringSort(st.sorting),
                if t == "" then None else Some(t))
  }

  /** What the list request sends for a search: a blank search is not sent,
      any other is sent trimmed. The page hands its parameters to
      `useMoaIASubmissionsDetailForStaff`, which is not part of this model; the
      request is taken to be built as `getSubmissions` builds it. */
  lemma SearchReachesRequest(st: PageState)
    ensures var r := SubmissionService.ListParams(QueryParamsOf(st));
            && ("search" in r <==> !AllSpaces(st.search))
            && ("search" in r ==> r["search"] == SubmissionService.Str(Trim(st.search)))
            && r["page"] == SubmissionService.Num(st.pagination.pageIndex)
  {
  }

  /** `handleSearchChange`: a new search starts again from the first page. */
  function HandleSearchChange(st: PageState, value: string): (r: PageState)
    ensures r.search == value && r.pagination.pageIndex == 0
    ensures r.pagination.pageSize == st.pagination.pageSize && r.sorting == st.sorting
  {
    st.(search := value, pagination := st.pagination.(pageIndex := 0))
  }

  /** `handleViewPdf`: the dialog opens on that submission. */
  function HandleViewPdf(st: PageState, submissionId: string): (r: PageState)
    ensures r.pdfDialogOpen && r.selectedSubmission == Some(submissionId)
    ensures r.pagination == st.pagination && r.search == st.search
  {
    st.(selectedSubmission := Some(submissionId), pdfDialogOpen := true)
  }

  /** Viewing a row's document fetches that row's PDF. */
  lemma ViewPdfFetchesRow(st: PageState, submissionId: string, v: PdfViewer.Viewer)
    requires submissionId != ""
    ensures var st' := HandleViewPdf(st, submissionId);
            PdfViewer.FetchedId(v.(open := st'.pdfDialogOpen, submissionId := st'.selectedSubmission))
              == Some(submissionId)
  {
  }

  /** `{ submissionStatus }` sent by a row's verify button. */
  datatype VerifyRequest = VerifyRequest(submissionId: string, submissionStatus: Status)

  /** `isThisRowVerifying`: the spinner and the disabled button of one row. */
  predicate IsThisRowVerifying(isPending: bool, verifying: Option<string>, rowId: string) {
    isPending && verifying == Some(rowId)
  }

  /** A click on a row's verify button: ignored while that row is being
      verified; otherwise the row is marked and a request to mark it verified by
      staff is sent. */
  function VerifyClick(st: PageState, isPending: bool, rowId: string): (r: Option<(PageState, VerifyRequest)>)
    ensures r.None? <==> IsThisRowVerifying(isPending, st.verifyingSubmissionId, rowId)
    ensures r.Some? ==> r.value.0.verifyingSubmissionId == Some(rowId)
    ensures r.Some? ==> r.value.1 == VerifyRequest(rowId, VerifiedStaff)
    ensures r.Some? ==> r.value.0.pagination == st.pagination && r.value.0.search == st.search
  {
    if IsThisRowVerifying(isPending, st.verifyingSubmissionId, rowId) then None
    else Some((st.(verifyingSubmissionId := Some(rowId)), VerifyRequest(rowId, VerifiedStaff)))
  }

  /** `onSettled`: success or failure, no row is marked any more. */
  function VerifySettled(st: PageState): (r: PageState)
    ensures r.verifyingSubmissionId.None?
    ensures r.pagination == st.pagination && r.search == st.search && r.sorting == st.sorting
  {
    st.(verifyingSubmissionId := None)
  }

  /** At most one row shows the spinner, it is the row last clicked while the
      request runs, and none does once it has settled. */
  lemma OneRowVerifying(st: PageState, rowId: string, a: string, b: string)
    requires VerifyClick(st, false, rowId).Some?
    ensures var st' := VerifyClick(st, false, rowId).value.0;
            && IsThisRowVerifying(true, st'.verifyingSubmissionId, rowId)
            && (IsThisRowVerifying(true, st'.verifyingSubmissionId, a) ==> a == rowId)
            && !IsThisRowVerifying(true, VerifySettled(st').verifyingSubmissionId, b)
  {
  }

  /** The study-program cell: the option's label, or the raw value when it is
      not one of the options. */
  function ProgramCell(value: string): (r: string)
    ensures (forall i :: 0 <= i < |StudyProgramOptions| ==> StudyProgramOptions[i].value != value) ==> r == value
    ensures (exists i :: 0 <= i < |StudyProgramOptions| && StudyProgramOptions[i].value == value) ==>
              exists i :: 0 <= i < |StudyProgramOptions| && StudyProgramOptions[i].value == value
                          && StudyProgramOptions[i].caption == r
                          && forall j :: 0 <= j < i ==> StudyProgramOptions[j].value != value
  {
    match FindLabel(StudyProgramOptions, value)
    case None => value
    case Some(c) =>
      OfferedCaptionsNonEmpty();
      if c == "" then value else c
  }

  /** The status badge's caption; a value outside the six statuses is shown raw. */
  function StatusLabel(status: string): string {
    if status == "pending" then "Pending"
    else if status == "in_process" then "Dalam Proses"
    else if status == "verified_adhoc" then "Terverifikasi Adhoc"
    else if status == "verified_staff" then "Terverifikasi Staff"
    else if status == "rejected" then "Ditolak"
    else if status == "completed" then "Selesai"
    else status
  }

  /** A value outside the six statuses is shown as it came. */
  lemma UnknownStatusShownRaw(status: string)
    requires forall s: Status :: StatusName(s) != status
    ensures StatusLabel(status) == status
  {
    assert StatusName(Pending) != status && StatusName(InProcess) != status;
    assert StatusName(VerifiedAdhoc) != status && StatusName(VerifiedStaff) != status;
    assert StatusName(Rejected) != status && StatusName(Completed) != status;
  }

  /** Every status gets its own caption, different from its wire name. */
  lemma StatusLabelsDistinct(a: Status, b: Status)
    ensures StatusLabel(StatusName(a)) != StatusName(a)
    ensures a != b ==> StatusLabel(StatusName(a)) != StatusLabel(StatusName(b))
  {
  }

  /** The table's columns, and which of them the user may sort by. */
  datatype Column = ApplicantStudyProgram | ApplicantFullname | SubmissionStatus | Actions

  function ColumnId(c: Column): string {
    match c
    case ApplicantStudyProgram => "applicantStudyProgram"
    case ApplicantFullname => "applicantFullname"
    case SubmissionStatus => "submissionStatus"
    case Actions => "actions"
  }

  predicate Sortable(c: Column) {
    c == ApplicantStudyProgram || c == ApplicantFullname
  }

  /** Sorting by a sortable column sends that column's id and direction. */
  lemma SortSendsColumn(c: Column, desc: bool, rest: seq<SortItem>)
    requires Sortable(c)
    ensures var q := ToSpringSort([SortItem(ColumnId(c), desc)] + rest);
            && q.Some?
            && ParseSpringSort(q.value) == Some(SortItem(ColumnId(c), desc))
  {
    SpringSortRoundTrip([SortItem(ColumnId(c), desc)] + rest);
  }
}

=== FILE: submission_hooks.dfy ===
/** The React-Query side of submissions: the cache keys, the prefix rule by which
    an invalidation reaches them, the create mutation's reading of the service
    result, and the `enabled` flag of the per-user listing. */
module SubmissionHooks {
  import opened Wrappers
  import opened TableTypes
  import opened SubmissionService

  /** An element of a query key: a literal, the listing parameters, or the
      `{ params }` object that `list` wraps them in. */
  datatype KeyPart = Word(w: string) | ParamsPart(q: QueryParams) | ParamsObject(q: QueryParams)

  type QueryKey = seq<KeyPart>

  /** The builders of `submissionKeys`, by name. */
  datatype SubmissionKey =
    | AllKey
    | ListsKey
    | ListKey(params: QueryParams)
    | MoaIaKey
    | MoaIaListKey(params: QueryParams)
    | ByUserKey(userId: string)
    | ByUserListKey(params: QueryParams, userId: string)

  function All(): QueryKey { [Word("submissions")] }
  function Lists(): QueryKey { All() + [Word("list")] }
  function List(p: QueryParams): QueryKey { Lists() + [ParamsObject(p)] }
  function MoaIa(): QueryKey { All() + [Word("moa-ia")] }
  function MoaIaList(p: QueryParams): QueryKey { MoaIa() + [Word("list"), ParamsPart(p)] }
  function MoaIaByUser(userId: string): QueryKey { MoaIa() + [Word("user"), Word(userId)] }
  function MoaIaByUserList(p: QueryParams, userId: string): QueryKey { MoaIaByUser(userId) + [Word("list"), ParamsPart(p)] }

  function KeyOf(k: SubmissionKey): QueryKey {
    match k
    case AllKey => All()
    case ListsKey => Lists()
    case ListKey(p) => List(p)
    case MoaIaKey => MoaIa()
    case MoaIaListKey(p) => MoaIaList(p)
    case ByUserKey(u) => MoaIaByUser(u)
    case ByUserListKey(p, u) => MoaIaByUserList(p, u)
  }

  /** An invalidation with key `filter` reaches a cached query whose key starts with it. */
  predicate Reaches(filter: QueryKey, key: QueryKey) {
    |filter| <= |key| && key[..|filter|] == filter
  }

  /** Every key starts with "submissions", so the invalidation after a create
      reaches every cached submission query. */
  lemma AllReachesEveryKey(k: SubmissionKey)
    ensures KeyOf(k)[0] == Word("submissions")
    ensures Reaches(All(), KeyOf(k))
  {
  }

  /** The per-user list key extends the per-user key, which extends the MoA/IA key. */
  lemma ByUserKeysNest(p: QueryParams, userId: string)
    ensures Reaches(MoaIaByUser(userId), MoaIaByUserList(p, userId))
    ensures Reaches(MoaIa(), MoaIaByUser(userId))
    ensures Reaches(MoaIa(), MoaIaByUserList(p, userId))
  {
    assert MoaIaByUserList(p, userId)[..|MoaIa()|] == MoaIa();
  }

  /** Invalidating one user's key reaches that user's queries and no one else's. */
  lemma ByUserReachesOnlyThatUser(userId: string, k: SubmissionKey)
    ensures Reaches(MoaIaByUser(userId), KeyOf(k)) <==>
              k == ByUserKey(userId) || (k.ByUserListKey? && k.userId == userId)
  {
    if Reaches(MoaIaByUser(userId), KeyOf(k)) {
      assert KeyOf(k)[1] == Word("moa-ia") && KeyOf(k)[2] == Word("user") && KeyOf(k)[3] == Word(userId);
    }
  }

  /** Invalidating the general lists reaches exactly the general list keys. */
  lemma ListsReachesOnlyLists(k: SubmissionKey)
    ensures Reaches(Lists(), KeyOf(k)) <==> k == ListsKey || k.ListKey?
  {
    if Reaches(Lists(), KeyOf(k)) {
      assert KeyOf(k)[1] == Word("list");
    }
  }

  // ---------------------------------------------------------------------------
  // useCreateSubmission
  // ---------------------------------------------------------------------------

  const SessionExpired := "Sesi anda telah berakhir!. Silahkan login kembali."
  const CreateFailed := "Gagal membuat pengajuan."

  /** Why the mutation failed: an `Error` it threw itself, or the service's error. */
  datatype MutationError = Message(text: string) | Propagated(failure: Failure)

  datatype MutationResult<T> = Resolved(response: ApiResponse<T>) | Rejected(error: MutationError)

  /** `mutationFn`: `null` means the session is over, `success: false` carries the
      server's message or the default one, anything else is returned as is. */
  function CreateMutation<T>(r: Result<ApiResponse<T>>): (m: MutationResult<T>)
    ensures r == Returned(None) ==> m == Rejected(Message(SessionExpired))
    ensures r.Thrown? ==> m == Rejected(Propagated(r.failure))
    ensures m.Resolved? <==> r.Returned? && r.value.Some? && r.value.value.success
    ensures m.Resolved? ==> m.response == r.value.value
    ensures m.Rejected? && m.error.Message? ==> m.error.text != ""
  {
    match r
    case Thrown(f) => Rejected(Propagated(f))
    case Returned(None) => Rejected(Message(SessionExpired))
    case Returned(Some(response)) =>
      if !response.success then
        Rejected(Message(if response.message.Some? && response.message.value != "" then response.message.value else CreateFailed))
      else Resolved(response)
  }

  /** From the HTTP outcome to the mutation: an expired session and a refused
      submission are told apart, and the server's message is shown when it has one. */
  lemma CreateFlow<T>(o: Outcome<ApiResponse<T>>)
    ensures o == Failed(AxiosFailure(Some(Unauthorized))) ==>
              CreateMutation(ServiceResult(o)) == Rejected(Message(SessionExpired))
    ensures o.Succeeded? && !o.value.success ==>
              CreateMutation(ServiceResult(o)) ==
                Rejected(Message(if o.value.message.Some? && o.value.message.value != "" then o.value.message.value else CreateFailed))
    ensures o.Succeeded? && o.value.success ==> CreateMutation(ServiceResult(o)) == Resolved(o.value)
    ensures o.Failed? && o.failure != AxiosFailure(Some(Unauthorized)) ==>
              CreateMutation(ServiceResult(o)) == Rejected(Propagated(o.failure))
  {
  }

  /** `enabled: !!userId` of the per-user listing. */
  function ByUserListEnabled(userId: string): (enabled: bool)
    ensures enabled <==> |userId| > 0
  {
    userId != ""
  }
}

=== FILE: submission_schema.dfy ===
/** The zod schemas of the create and update forms, as predicates over the form
    records. `z.email` is left abstract: it is the parameter `isEmail`. */
module SubmissionSchema {
  import opened Wrappers
  import opened SubmissionTypes
  import opened Text

  const FacultyOfTechnology := "Teknik"
  const FacultyOfTechnologyAddress := "Gedung E1, Jl. Ketintang, unesa, Kec. Gayungan, Surabaya, Jawa Timur 60231"
  const MoaIaSubmission := "moa_ia"

  /** The `moaIa` part of the create form; `G` is the group record. */
  datatype CreateMoaIa<G> = CreateMoaIa(documentType: string, partner: PartnerFields, studentSnapshots: seq<G>)

  /** The create form (`submissionFormSchema`). */
  datatype CreateForm<G> = CreateForm(
    submissionType: string,
    notes: Option<string>,
    faculty: string,
    moaIa: CreateMoaIa<G>,
    facultyAddress: string)

  /** The `moaIa` part of the update form: no document type. */
  datatype UpdateMoaIa<G> = UpdateMoaIa(partner: PartnerFields, studentSnapshots: seq<G>)

  /** The update form (`updateSubmissionFormSchema`). */
  datatype UpdateForm<G> = UpdateForm(notes: Option<string>, moaIa: UpdateMoaIa<G>)

  type Group = Snapshot<StudentInfo>

  predicate LengthIn(s: string, lo: nat, hi: nat) { lo <= |s| <= hi }

  /** `studentInfoSchema`. */
  predicate ValidStudent(isEmail: string -> bool, s: StudentInfo) {
    |s.fullName| >= 1 && |s.nim| >= 11 && isEmail(s.email)
  }

  /** `studentSnapshotSchema`: a program, one to three valid students, a unit. */
  predicate ValidSnapshot(isEmail: string -> bool, g: Group) {
    && |g.studyProgram| >= 1
    && 1 <= |g.students| <= 3
    && (forall i :: 0 <= i < |g.students| ==> ValidStudent(isEmail, g.students[i]))
    && |g.unit| >= 1
  }

  /** The partner fields of `moaIaDetailSchema` and `updateMoaIaSchema`. */
  predicate ValidPartner(p: PartnerFields) {
    && LengthIn(p.partnerName, 1, 255)
    && LengthIn(p.partnerNumber, 1, 50)
    && LengthIn(p.partnerAddress, 1, 500)
    && |p.partnerLogoKey| >= 1
    && LengthIn(p.facultyRepresentativeName, 1, 255)
    && LengthIn(p.partnerRepresentativeName, 1, 255)
    && LengthIn(p.partnerRepresentativePosition, 1, 255)
    && ParseActivity(p.activityType).Some?
  }

  /** `z.string().max(500).optional().or(z.literal(''))`. */
  predicate ValidNotes(notes: Option<string>) {
    notes.None? || |notes.value| <= 500
  }

  // ---------------------------------------------------------------------------
  // The unique (studyProgram, unit) rule of the `superRefine`
  // ---------------------------------------------------------------------------

  /** The refinement skips groups whose program or unit is empty. */
  predicate Keyed<S>(g: Snapshot<S>) { g.studyProgram != "" && g.unit != "" }

  /** `${studyProgram}|${unit}`. */
  function CompositeKey<S>(g: Snapshot<S>): string {
    g.studyProgram + "|" + g.unit
  }

  /** Group `k` is reported as written: an earlier keyed group has the same composite key. */
  predicate KeyRepeatsAt<S>(groups: seq<Snapshot<S>>, k: int)
    requires 0 <= k < |groups|
  {
    Keyed(groups[k]) && exists j :: 0 <= j < k && Keyed(groups[j]) && CompositeKey(groups[j]) == CompositeKey(groups[k])
  }

  /** Group `k` repeats an earlier keyed group's (program, unit) pair. */
  predicate PairRepeatsAt<S>(groups: seq<Snapshot<S>>, k: int)
    requires 0 <= k < |groups|
  {
    Keyed(groups[k]) && exists j :: 0 <= j < k && Keyed(groups[j]) && SamePair(groups[j], groups[k])
  }

  predicate SamePair<S>(a: Snapshot<S>, b: Snapshot<S>) {
    a.studyProgram == b.studyProgram && a.unit == b.unit
  }

  /** The rule as written: no group repeats an earlier composite key. */
  predicate KeysUnique<S>(groups: seq<Snapshot<S>>) {
    forall k :: 0 <= k < |groups| ==> !KeyRepeatsAt(groups, k)
  }

  /** The rule as intended: no two keyed groups share their (program, unit) pair. */
  predicate PairsUnique<S>(groups: seq<Snapshot<S>>) {
    forall i, j :: 0 <= i < j < |groups| && Keyed(groups[i]) && Keyed(groups[j]) ==> !SamePair(groups[i], groups[j])
  }

  /** The refinement's loop as written: the indices of the groups whose composite
      key was already seen. The form is rejected when the list is non-empty. */
  method DuplicateKeyIndices<S>(groups: seq<Snapshot<S>>) returns (duplicates: seq<nat>)
    ensures forall k :: k in duplicates <==> 0 <= k < |groups| && KeyRepeatsAt(groups, k)
    ensures |duplicates| == 0 <==> KeysUnique(groups)
  {
    var seen: set<string> := {};
    duplicates := [];
    var i := 0;
    while i < |groups|
      invariant 0 <= i <= |groups|
      invariant seen == set j | 0 <= j < i && Keyed(groups[j]) :: CompositeKey(groups[j])
      invariant forall k :: k in duplicates <==> 0 <= k < i && KeyRepeatsAt(groups, k)
    {
      var g := groups[i];
      if Keyed(g) {
        var key := CompositeKey(g);
        if key in seen {
          duplicates := duplicates + [i];
        } else {
          seen := seen + {key};
        }
      }
      i := i + 1;
    }
    if |duplicates| > 0 {
      assert duplicates[0] in duplicates;
    } else {
      forall k | 0 <= k < |groups|
        ensures !KeyRepeatsAt(groups, k)
      {
        assert k !in duplicates;
      }
    }
  }

  /** The same loop over pairs instead of joined strings. */
  method DuplicatePairIndices<S>(groups: seq<Snapshot<S>>) returns (duplicates: seq<nat>)
    ensures forall k :: k in duplicates <==> 0 <= k < |groups| && PairRepeatsAt(groups, k)
    ensures |duplicates| == 0 <==> PairsUnique(groups)
  {
    var seen: set<(string, string)> := {};
    duplicates := [];
    var i := 0;
    while i < |groups|
      invariant 0 <= i <= |groups|
      invariant seen == set j | 0 <= j < i && Keyed(groups[j]) :: (groups[j].studyProgram, groups[j].unit)
      invariant forall k :: k in duplicates <==> 0 <= k < i && PairRepeatsAt(groups, k)
    {
      var g := groups[i];
      if Keyed(g) {
        var pair := (g.studyProgram, g.unit);
        if pair in seen {
          duplicates := duplicates + [i];
        } else {
          seen := seen + {pair};
        }
      }
      i := i + 1;
    }
    if |duplicates| > 0 {
      var k := duplicates[0];
      assert k in duplicates;
      assert PairRepeatsAt(groups, k);
      var j :| 0 <= j < k && Keyed(groups[j]) && SamePair(groups[j], groups[k]);
      assert !PairsUnique(groups);
    } else {
      forall i, j | 0 <= i < j < |groups| && Keyed(groups[i]) && Keyed(groups[j])
        ensures !SamePair(groups[i], groups[j])
      {
        assert j !in duplicates;
      }
    }
  }

  /** The joined key of two groups agrees with their pair when neither program
      contains the separator. */
  lemma CompositeKeyInjective<S>(a: Snapshot<S>, b: Snapshot<S>)
    requires '|' !in a.studyProgram && '|' !in b.studyProgram
    ensures CompositeKey(a) == CompositeKey(b) <==> SamePair(a, b)
  {
    if CompositeKey(a) == CompositeKey(b) {
      var ka, kb := CompositeKey(a), CompositeKey(b);
      KeySeparatorAt(a);
      KeySeparatorAt(b);
      assert a.studyProgram == ka[..|a.studyProgram|];
      assert b.studyProgram == kb[..|b.studyProgram|];
      assert a.unit == ka[|a.studyProgram| + 1..];
      assert b.unit == kb[|b.studyProgram| + 1..];
    }
  }

  /** The first `|` of a joined key is the one the join put there. */
  lemma KeySeparatorAt<S>(g: Snapshot<S>)
    requires '|' !in g.studyProgram
    ensures '|' in CompositeKey(g) && IndexOf(CompositeKey(g), '|') == |g.studyProgram|
  {
    var key := CompositeKey(g);
    assert key[|g.studyProgram|] == '|';
    assert key[..|g.studyProgram|] == g.studyProgram;
  }

  /** When no program contains `|`, the rule as written is the intended one. */
  lemma KeysUniqueWithoutSeparator<S>(groups: seq<Snapshot<S>>)
    requires forall i :: 0 <= i < |groups| ==> '|' !in groups[i].studyProgram
    ensures KeysUnique(groups) <==> PairsUnique(groups)
  {
    forall i, j | 0 <= i < |groups| && 0 <= j < |groups|
      ensures CompositeKey(groups[i]) == CompositeKey(groups[j]) <==> SamePair(groups[i], groups[j])
    {
      CompositeKeyInjective(groups[i], groups[j]);
    }
    if KeysUnique(groups) {
      forall i, j | 0 <= i < j < |groups| && Keyed(groups[i]) && Keyed(groups[j])
        ensures !SamePair(groups[i], groups[j])
      {
        assert !KeyRepeatsAt(groups, j);
      }
    }
    if PairsUnique(groups) {
      forall k | 0 <= k < |groups|
        ensures !KeyRepeatsAt(groups, k)
      {
      }
    }
  }

  /** The study-program selector only offers values without `|`, so on groups
      whose program was picked there, or left empty, both rules agree. */
  lemma KeysUniqueOnOfferedPrograms<S>(groups: seq<Snapshot<S>>)
    requires forall i :: 0 <= i < |groups| ==>
               groups[i].studyProgram == "" || FindLabel(StudyProgramOptions, groups[i].studyProgram).Some?
    ensures KeysUnique(groups) <==> PairsUnique(groups)
  {
    forall i | 0 <= i < |groups|
      ensures '|' !in groups[i].studyProgram
    {
      var p := groups[i].studyProgram;
      if p != "" {
        var r := FindLabel(StudyProgramOptions, p);
        var k :| 0 <= k < |StudyProgramOptions| && StudyProgramOptions[k].value == p;
        OfferedValueHasNoBar(k);
      }
    }
    KeysUniqueWithoutSeparator(groups);
  }

  lemma OfferedValueHasNoBar(k: nat)
    requires k < |StudyProgramOptions|
    ensures '|' !in StudyProgramOptions[k].value
  {
    if k == 0 {
      ValueHasNoBar(StudyProgramOptions[0].value);
    } else if k == 1 {
      ValueHasNoBar(StudyProgramOptions[1].value);
    } else {
      ValueHasNoBar(StudyProgramOptions[2].value);
    }
  }

  lemma ValueHasNoBar(v: string)
    requires v == "teknik_informatika" || v == "sistem_informasi" || v == "pendidikan_teknologi_informasi"
    ensures '|' !in v
  {
  }

  /** Two different pairs whose joined keys coincide: the rule as written rejects
      groups the intended rule accepts. */
  lemma CompositeKeyCollision()
    ensures var groups: seq<Group> := [Snapshot("a|b", [], "c"), Snapshot("a", [], "b|c")];
            !KeysUnique(groups) && PairsUnique(groups)
  {
    var groups: seq<Group> := [Snapshot("a|b", [], "c"), Snapshot("a", [], "b|c")];
    assert CompositeKey(groups[0]) == CompositeKey(groups[1]);
    assert KeyRepeatsAt(groups, 1);
  }

  // ---------------------------------------------------------------------------
  // Whole forms
  // ---------------------------------------------------------------------------

  /** `studentSnapshots`: at least one group, every group valid, no repeated pair. */
  predicate ValidGroups(isEmail: string -> bool, groups: seq<Group>) {
    && |groups| >= 1
    && (forall i :: 0 <= i < |groups| ==> ValidSnapshot(isEmail, groups[i]))
    && PairsUnique(groups)
  }

  /** `studentSnapshots` exactly as the `superRefine` states it, comparing the
      joined keys. */
  predicate ValidGroupsAsWritten(isEmail: string -> bool, groups: seq<Group>) {
    && |groups| >= 1
    && (forall i :: 0 <= i < |groups| ==> ValidSnapshot(isEmail, groups[i]))
    && KeysUnique(groups)
  }

  /** The rule as written rejects every list the pair rule rejects, and the two
      accept the same lists once no program contains the separator. */
  lemma ValidGroupsAsWrittenIsStricter(isEmail: string -> bool, groups: seq<Group>)
    ensures ValidGroupsAsWritten(isEmail, groups) ==> ValidGroups(isEmail, groups)
    ensures (forall i :: 0 <= i < |groups| ==> '|' !in groups[i].studyProgram) ==>
              (ValidGroupsAsWritten(isEmail, groups) <==> ValidGroups(isEmail, groups))
  {
    if KeysUnique(groups) {
      forall i, j | 0 <= i < j < |groups| && Keyed(groups[i]) && Keyed(groups[j])
        ensures !SamePair(groups[i], groups[j])
      {
        assert !KeyRepeatsAt(groups, j);
      }
    }
    if forall i :: 0 <= i < |groups| ==> '|' !in groups[i].studyProgram {
      KeysUniqueWithoutSeparator(groups);
    }
  }

  /** `submissionFormSchema`. */
  predicate ValidCreateForm(isEmail: string -> bool, f: CreateForm<Group>) {
    && f.submissionType == MoaIaSubmission
    && ValidNotes(f.notes)
    && f.faculty == FacultyOfTechnology
    && f.facultyAddress == FacultyOfTechnologyAddress
    && ParseDocument(f.moaIa.documentType).Some?
    && ValidPartner(f.moaIa.partner)
    && ValidGroups(isEmail, f.moaIa.studentSnapshots)
  }

  /** `updateSubmissionFormSchema`. */
  predicate ValidUpdateForm(isEmail: string -> bool, f: UpdateForm<Group>) {
    && ValidNotes(f.notes)
    && ValidPartner(f.moaIa.partner)
    && ValidGroups(isEmail, f.moaIa.studentSnapshots)
  }

  /** The update form asks exactly what the create form asks of the notes, the
      partner and the groups; the create form adds only its fixed header and the
      document type. */
  lemma CreateAndUpdateRulesAgree(isEmail: string -> bool, f: CreateForm<Group>)
    ensures ValidCreateForm(isEmail, f) <==>
              && f.submissionType == MoaIaSubmission
              && f.faculty == FacultyOfTechnology
              && f.facultyAddress == FacultyOfTechnologyAddress
              && (f.moaIa.documentType == "moa" || f.moaIa.documentType == "ia")
              && ValidUpdateForm(isEmail, UpdateForm(f.notes, UpdateMoaIa(f.moaIa.partner, f.moaIa.studentSnapshots)))
  {
  }

  /** A group is rejected when it has no student or more than three, or when one
      of its students has a NIM shorter than eleven characters. */
  lemma GroupRules(isEmail: string -> bool, g: Group)
    ensures |g.students| == 0 || |g.students| > 3 ==> !ValidSnapshot(isEmail, g)
    ensures (exists i :: 0 <= i < |g.students| && |g.students[i].nim| < 11) ==> !ValidSnapshot(isEmail, g)
    ensures g.studyProgram == "" || g.unit == "" ==> !ValidSnapshot(isEmail, g)
  {
  }

  /** Two keyed groups with the same pair make the group list invalid, whatever
      else they hold. */
  lemma RepeatedPairRejected(isEmail: string -> bool, groups: seq<Group>, i: nat, j: nat)
    requires i < j < |groups|
    requires Keyed(groups[i]) && SamePair(groups[i], groups[j])
    ensures !ValidGroups(isEmail, groups)
  {
  }

  /** The create form's `defaultValues`. */
  const DefaultCreateForm: CreateForm<Group> := CreateForm(
    MoaIaSubmission, Some(""), FacultyOfTechnology,
    CreateMoaIa("moa", EmptyPartner, [Snapshot("", [], "")]),
    FacultyOfTechnologyAddress)

  /** All eight partner fields cleared, with the activity back to internship. */
  const EmptyPartner := PartnerFields("", "", "", "", "", "", "", "internship")

  /** The untouched form cannot be submitted: its partner and its one group are empty. */
  lemma DefaultCreateFormInvalid(isEmail: string -> bool)
    ensures !ValidCreateForm(isEmail, DefaultCreateForm)
    ensures !ValidPartner(DefaultCreateForm.moaIa.partner)
    ensures !ValidSnapshot(isEmail, DefaultCreateForm.moaIa.studentSnapshots[0])
    ensures DefaultCreateForm.submissionType == MoaIaSubmission && ValidNotes(DefaultCreateForm.notes)
  {
  }
}

=== FILE: submission_service.dfy ===
/** The submission service: the query parameters it sends, the `total` it stamps
    on every student group before a create or an update, and its reading of a
    failed request (401 becomes `null`, anything else is passed on). The HTTP
    call itself is an input: the outcome of the request. */
module SubmissionService {
  import opened Wrappers
  import opened TableTypes
  import opened SubmissionTypes
  import opened SubmissionSchema

  /** `ApiResponse<T>`: the envelope every endpoint answers with. */
  datatype ApiResponse<T> = ApiResponse(success: bool, data: T, message: Option<string>)

  /** A query-string value: a number or a string. */
  datatype ParamValue = Num(n: int) | Str(s: string)

  type Params = map<string, ParamValue>

  /** `...(value && { key: value })`: the entry is sent only for a present,
      non-empty string. */
  function WithOptional(params: Params, key: string, value: Option<string>): (r: Params)
    ensures key in r <==> key in params || (value.Some? && value.value != "")
    ensures value.Some? && value.value != "" ==> r[key] == Str(value.value)
    ensures forall k :: k in params && k != key ==> k in r && r[k] == params[k]
    ensures forall k :: k in r ==> k in params || k == key
  {
    if value.Some? && value.value != "" then params[key := Str(value.value)] else params
  }

  /** The `params` of `getPaginatedSubmissions` and `getPaginatedMoASubmissionsByUserId`. */
  function ListParams(q: QueryParams): (r: Params)
    ensures "page" in r && r["page"] == Num(q.page)
    ensures "size" in r && r["size"] == Num(q.size)
    ensures "sort" in r <==> q.sort.Some? && q.sort.value != ""
    ensures "sort" in r ==> r["sort"] == Str(q.sort.value)
    ensures "search" in r <==> q.search.Some? && q.search.value != ""
    ensures "search" in r ==> r["search"] == Str(q.search.value)
    ensures forall k :: k in r ==> k in {"page", "size", "sort", "search"}
  {
    var base := map["page" := Num(q.page), "size" := Num(q.size)];
    WithOptional(WithOptional(base, "sort", q.sort), "search", q.search)
  }

  /** The `params` of `getSubmissionsByUserIdAndMoAIAType`: the listing parameters
      and the `nim`, when one is given. */
  function UserListParams(q: QueryParams, nim: Option<string>): (r: Params)
    ensures "nim" in r <==> nim.Some? && nim.value != ""
    ensures "nim" in r ==> r["nim"] == Str(nim.value)
    ensures forall k :: k in r && k != "nim" ==> k in ListParams(q) && r[k] == ListParams(q)[k]
    ensures forall k :: k in ListParams(q) ==> k in r
  {
    WithOptional(ListParams(q), "nim", nim)
  }

  /** The `params` of `getAllExistingPartners`: only a non-empty search. */
  function PartnerParams(search: Option<string>): (r: Params)
    ensures |r| <= 1
    ensures "search" in r <==> search.Some? && search.value != ""
    ensures "search" in r ==> r["search"] == Str(search.value)
  {
    WithOptional(map[], "search", search)
  }

  /** Reading a listing's parameters back gives the query, once empty strings
      are read as absent. */
  lemma ListParamsRoundTrip(q: QueryParams)
    ensures var r := ListParams(q);
            && r["page"].n == q.page && r["size"].n == q.size
            && ("sort" in r ==> Some(r["sort"].s) == q.sort)
            && ("search" in r ==> Some(r["search"].s) == q.search)
            && ("sort" !in r ==> q.sort.None? || q.sort.value == "")
            && ("search" !in r ==> q.search.None? || q.search.value == "")
  {
  }

  // ---------------------------------------------------------------------------
  // Payloads
  // ---------------------------------------------------------------------------

  /** A group as sent: its fields and `total`. */
  datatype StampedSnapshot<S> = StampedSnapshot(studyProgram: string, students: seq<S>, unit: string, total: int)

  function Stamp<S>(g: Snapshot<S>): StampedSnapshot<S> {
    StampedSnapshot(g.studyProgram, g.students, g.unit, |g.students|)
  }

  function Unstamp<S>(g: StampedSnapshot<S>): Snapshot<S> {
    Snapshot(g.studyProgram, g.students, g.unit)
  }

  /** `studentSnapshots.map(snapshot => ({ ...snapshot, total: snapshot.students.length }))`. */
  function StampTotals<S>(groups: seq<Snapshot<S>>): (r: seq<StampedSnapshot<S>>)
    ensures |r| == |groups|
    ensures forall i :: 0 <= i < |r| ==> r[i].total == |r[i].students|
  {
    seq(|groups|, i requires 0 <= i < |groups| => Stamp(groups[i]))
  }

  /** Stamping keeps every group, in order, with all its fields. */
  lemma {:induction false} StampTotalsRoundTrip<S>(groups: seq<Snapshot<S>>)
    ensures seq(|groups|, i requires 0 <= i < |groups| => Unstamp(StampTotals(groups)[i])) == groups
  {
    var back := seq(|groups|, i requires 0 <= i < |groups| => Unstamp(StampTotals(groups)[i]));
    forall i | 0 <= i < |groups|
      ensures back[i] == groups[i]
    {
      assert StampTotals(groups)[i] == Stamp(groups[i]);
    }
  }

  /** The body `createSubmission` posts. */
  function CreatePayload<S>(f: CreateForm<Snapshot<S>>): (r: CreateForm<StampedSnapshot<S>>)
    ensures r.submissionType == f.submissionType && r.notes == f.notes && r.faculty == f.faculty
    ensures r.facultyAddress == f.facultyAddress
    ensures r.moaIa.documentType == f.moaIa.documentType && r.moaIa.partner == f.moaIa.partner
    ensures |r.moaIa.studentSnapshots| == |f.moaIa.studentSnapshots|
    ensures forall i :: 0 <= i < |r.moaIa.studentSnapshots| ==>
              var g := r.moaIa.studentSnapshots[i];
              g.total == |g.students| && Unstamp(g) == f.moaIa.studentSnapshots[i]
  {
    var groups := StampTotals(f.moaIa.studentSnapshots);
    CreateForm(f.submissionType, f.notes, f.faculty,
               CreateMoaIa(f.moaIa.documentType, f.moaIa.partner, groups), f.facultyAddress)
  }

  /** The body `updateSubmission` puts. */
  function UpdatePayload<S>(f: UpdateForm<Snapshot<S>>): (r: UpdateForm<StampedSnapshot<S>>)
    ensures r.notes == f.notes && r.moaIa.partner == f.moaIa.partner
    ensures |r.moaIa.studentSnapshots| == |f.moaIa.studentSnapshots|
    ensures forall i :: 0 <= i < |r.moaIa.studentSnapshots| ==>
              var g := r.moaIa.studentSnapshots[i];
              g.total == |g.students| && Unstamp(g) == f.moaIa.studentSnapshots[i]
  {
    UpdateForm(f.notes, UpdateMoaIa(f.moaIa.partner, StampTotals(f.moaIa.studentSnapshots)))
  }

  // ---------------------------------------------------------------------------
  // Failures
  // ---------------------------------------------------------------------------

  /** Why a request failed: an `AxiosError`, with the status of its response when
      there was one, or any other error. */
  datatype Failure = AxiosFailure(status: Option<int>) | OtherFailure(message: string)

  /** The outcome of the HTTP request. */
  datatype Outcome<T> = Succeeded(value: T) | Failed(failure: Failure)

  /** What the service call does: the value, `null`, or the error it rethrows. */
  datatype Result<T> = Returned(value: Option<T>) | Thrown(failure: Failure)

  const Unauthorized := 401

  /** The `catch` of every service call: a 401 response becomes `null`, any other
      failure is rethrown unchanged. */
  function ServiceResult<T>(o: Outcome<T>): (r: Result<T>)
    ensures r == Returned(None) <==> o == Failed(AxiosFailure(Some(Unauthorized)))
    ensures o.Succeeded? ==> r == Returned(Some(o.value))
    ensures r.Thrown? <==> o.Failed? && o.failure != AxiosFailure(Some(Unauthorized))
    ensures r.Thrown? ==> r.failure == o.failure
  {
    match o
    case Succeeded(v) => Returned(Some(v))
    case Failed(f) =>
      if f.AxiosFailure? && f.status == Some(Unauthorized) then Returned(None) else Thrown(f)
  }
}

=== FILE: submission_types.dfy ===
/** The records of a MoA/IA submission shared by the forms, the service and the
    tables: the enumerations with their wire names, a student, a group of
    students ("student snapshot"), the eight partner-profile fields, and the
    study-program option list with its label lookup. */
module SubmissionTypes {
  import opened Wrappers

  /** `ActivityType`. */
  datatype ActivityType = Internship | StudyIndependent | Kkn | Research | CommunityService

  /** `MoAIASubmissionType`. */
  datatype DocumentType = Moa | Ia

  /** `SubmissionStatus`. */
  datatype Status = Pending | InProcess | VerifiedAdhoc | VerifiedStaff | Rejected | Completed

  function ActivityName(a: ActivityType): string {
    match a
    case Internship => "internship"
    case StudyIndependent => "study_independent"
    case Kkn => "kkn"
    case Research => "research"
    case CommunityService => "community_service"
  }

  /** The reading of an `activityType` string by `z.enum([...])`. */
  function ParseActivity(s: string): (r: Option<ActivityType>)
    ensures r.Some? ==> ActivityName(r.value) == s
  {
    if s == "internship" then Some(Internship)
    else if s == "study_independent" then Some(StudyIndependent)
    else if s == "kkn" then Some(Kkn)
    else if s == "research" then Some(Research)
    else if s == "community_service" then Some(CommunityService)
    else None
  }

  /** Every activity type is accepted under its own name, so a string is accepted
      exactly when it is one of the five names. */
  lemma ActivityNameRoundTrip(a: ActivityType)
    ensures ParseActivity(ActivityName(a)) == Some(a)
  {
  }

  function DocumentName(d: DocumentType): string {
    match d
    case Moa => "moa"
    case Ia => "ia"
  }

  function ParseDocument(s: string): (r: Option<DocumentType>)
    ensures r.Some? ==> DocumentName(r.value) == s
  {
    if s == "moa" then Some(Moa) else if s == "ia" then Some(Ia) else None
  }

  lemma DocumentNameRoundTrip(d: DocumentType)
    ensures ParseDocument(DocumentName(d)) == Some(d)
  {
  }

  function StatusName(s: Status): string {
    match s
    case Pending => "pending"
    case InProcess => "in_process"
    case VerifiedAdhoc => "verified_adhoc"
    case VerifiedStaff => "verified_staff"
    case Rejected => "rejected"
    case Completed => "completed"
  }

  /** A registered student as the student picker lists them (`StudentInfo`). */
  datatype StudentInfo = StudentInfo(fullName: string, nim: string, email: string)

  /** One group of students: a study program, its students and the unit they go to. */
  datatype Snapshot<S> = Snapshot(studyProgram: string, students: seq<S>, unit: string)

  /** The eight partner-profile fields that the partner picker copies and the
      partner-mode switch clears (`PartnerAndFacultyProfile`). */
  datatype PartnerFields = PartnerFields(
    partnerName: string,
    partnerNumber: string,
    partnerAddress: string,
    partnerLogoKey: string,
    facultyRepresentativeName: string,
    partnerRepresentativeName: string,
    partnerRepresentativePosition: string,
    activityType: string)

  /** One entry of `studyProgramOptions`; `caption` is the option's `label`. */
  datatype ProgramOption = ProgramOption(value: string, caption: string)

  const StudyProgramOptions: seq<ProgramOption> := [
    ProgramOption("teknik_informatika", "Teknik Informatika"),
    ProgramOption("sistem_informasi", "Sistem Informasi"),
    ProgramOption("pendidikan_teknologi_informasi", "Pendidikan Teknologi Informasi")
  ]

  /** `options.find(option => option.value === value)?.label`: the label of the first
      option with that value. */
  function FindLabel(options: seq<ProgramOption>, value: string): (r: Option<string>)
    ensures r.None? <==> forall i :: 0 <= i < |options| ==> options[i].value != value
    ensures r.Some? ==> exists i :: 0 <= i < |options| && options[i].value == value && options[i].caption == r.value
                                   && forall j :: 0 <= j < i ==> options[j].value != value
  {
    if |options| == 0 then None
    else if options[0].value == value then Some(options[0].caption)
    else
      var r := FindLabel(options[1..], value);
      FirstMatchShift(options, value, r);
      r
  }

  /** Every offered study program has a non-empty label, so a page writing
      `find(...)?.label || fallback` falls back only when no option matches. */
  lemma OfferedCaptionsNonEmpty()
    ensures forall i :: 0 <= i < |StudyProgramOptions| ==> StudyProgramOptions[i].caption != ""
  {
  }

  /** A first match in the tail is a first match of the whole list when the
      head does not match. */
  lemma FirstMatchShift(options: seq<ProgramOption>, value: string, r: Option<string>)
    requires |options| > 0 && options[0].value != value
    requires r.Some? ==> exists i :: 0 <= i < |options| - 1 && options[1..][i].value == value
                                      && options[1..][i].caption == r.value
                                      && forall j :: 0 <= j < i ==> options[1..][j].value != value
    ensures r.Some? ==> exists i :: 0 <= i < |options| && options[i].value == value && options[i].caption == r.value
                                   && forall j :: 0 <= j < i ==> options[j].value != value
  {
    if r.Some? {
      var i :| 0 <= i < |options| - 1 && options[1..][i].value == value && options[1..][i].caption == r.value
               && forall j :: 0 <= j < i ==> options[1..][j].value != value;
      assert options[i + 1] == options[1..][i];
      forall j | 0 <= j < i + 1
        ensures options[j].value != value
      {
        if j > 0 {
          assert options[j] == options[1..][j - 1];
        }
      }
    }
  }
}

=== FILE: submit_page.dfy ===
/** The new-submission page beyond its schema: choosing an existing partner or
    typing a new one, the advisory duplicate-partner warning, the mapping
    between picked NIMs and student records, and what a submit sends. */
module SubmitPage {
  import opened Wrappers
  import opened SubmissionTypes
  import opened SubmissionSchema
  import SubmissionService
  import Trigram

  datatype PartnerMode = Existing | New

  /** The page's partner state: the mode, the partner picked from the list, the
      eight partner fields of the form, and the logo preview. */
  datatype PageState = PageState(
    mode: PartnerMode,
    selected: Option<PartnerFields>,
    fields: PartnerFields,
    logoPreview: Option<string>)

  const InitialPage := PageState(Existing, None, EmptyPartner, None)

  /** `isPartnerFieldDisabled`. */
  predicate IsPartnerFieldDisabled(st: PageState) {
    st.mode == Existing || st.selected.Some?
  }

  /** `partners.find(p => p.partnerName === partnerName)`. */
  function FindPartner(partners: seq<PartnerFields>, name: string): (r: Option<PartnerFields>)
    ensures r.None? <==> forall i :: 0 <= i < |partners| ==> partners[i].partnerName != name
    ensures r.Some? ==> exists i :: 0 <= i < |partners| && partners[i] == r.value
                                    && forall j :: 0 <= j < i ==> partners[j].partnerName != name
    ensures r.Some? ==> r.value.partnerName == name
  {
    if |partners| == 0 then None
    else if partners[0].partnerName == name then Some(partners[0])
    else
      var r := FindPartner(partners[1..], name);
      if r.Some? then
        var i :| 0 <= i < |partners[1..]| && partners[1..][i] == r.value
                 && forall j :: 0 <= j < i ==> partners[1..][j].partnerName != name;
        assert partners[i + 1] == r.value;
        r
      else r
  }

  /** `handlePartnerSelect`: a known name copies all eight fields of that
      partner and clears the preview; an unknown one only clears the choice. */
  function HandlePartnerSelect(st: PageState, partners: seq<PartnerFields>, name: string): (r: PageState)
    ensures FindPartner(partners, name).None? ==> r == st.(selected := None)
    ensures FindPartner(partners, name).Some? ==>
              && r.selected == FindPartner(partners, name)
              && r.fields == FindPartner(partners, name).value
              && r.fields.partnerName == name
              && r.logoPreview.None? && r.mode == st.mode
  {
    match FindPartner(partners, name)
    case None => st.(selected := None)
    case Some(p) => st.(selected := Some(p), fields := p, logoPreview := None)
  }

  /** `handlePartnerModeChange`: every partner field goes back to empty (the
      activity to internship), and the choice and preview are cleared. */
  function HandlePartnerModeChange(st: PageState, mode: PartnerMode): (r: PageState)
    ensures r.mode == mode && r.selected.None? && r.logoPreview.None?
    ensures r.fields.partnerName == "" && r.fields.partnerNumber == "" && r.fields.partnerAddress == ""
    ensures r.fields.partnerLogoKey == "" && r.fields.facultyRepresentativeName == ""
    ensures r.fields.partnerRepresentativeName == "" && r.fields.partnerRepresentativePosition == ""
    ensures r.fields.activityType == ActivityName(Internship)
  {
    PageState(mode, None, EmptyPartner, None)
  }

  /** Switching to a new partner unlocks the fields; switching back locks them. */
  lemma ModeChangeLocksFields(st: PageState)
    ensures !IsPartnerFieldDisabled(HandlePartnerModeChange(st, New))
    ensures IsPartnerFieldDisabled(HandlePartnerModeChange(st, Existing))
  {
  }

  /** The partner-name combobox: the typed or chosen value goes into the form;
      a non-empty one is looked up, an empty one clears the choice. */
  function ComboboxChange(st: PageState, partners: seq<PartnerFields>, value: string): (r: PageState)
    ensures value == "" ==> r.selected.None? && r.fields.partnerName == ""
    ensures r.fields.partnerName == value
  {
    var typed := st.(fields := st.fields.(partnerName := value));
    if value != "" then HandlePartnerSelect(typed, partners, value) else typed.(selected := None)
  }

  /** Choosing a listed partner from the combobox locks the fields on exactly
      that partner's data. */
  lemma ChoosingListedPartner(st: PageState, partners: seq<PartnerFields>, i: nat)
    requires i < |partners| && partners[i].partnerName != ""
    requires forall j :: 0 <= j < i ==> partners[j].partnerName != partners[i].partnerName
    ensures var r := ComboboxChange(st, partners, partners[i].partnerName);
            IsPartnerFieldDisabled(r) && r.fields == partners[i]
  {
    var r := FindPartner(partners, partners[i].partnerName);
    var k :| 0 <= k < |partners| && partners[k] == r.value
             && forall j :: 0 <= j < k ==> partners[j].partnerName != partners[i].partnerName;
    assert k == i;
  }

  /** The rule behind the warning: the same partner number and a similar name. */
  predicate LooksDuplicate(existing: PartnerFields, name: string, number: string) {
    Trigram.Similarity(existing.partnerName, name) > 0.6 && existing.partnerNumber == number
  }

  /** The partners the effect warns about, in list order: one warning for each
      similar partner with the same number. The `return` in the callback only
      leaves that callback, so later partners are still checked. */
  function SimilarPartners(partners: seq<PartnerFields>, name: string, number: string): (r: seq<PartnerFields>)
    ensures |r| <= |partners|
    ensures forall k :: 0 <= k < |r| ==> r[k] in partners && LooksDuplicate(r[k], name, number)
    ensures forall i :: 0 <= i < |partners| && LooksDuplicate(partners[i], name, number) ==> partners[i] in r
    ensures forall p :: multiset(r)[p] == if LooksDuplicate(p, name, number) then multiset(partners)[p] else 0
  {
    Keep(partners, p => LooksDuplicate(p, name, number))
  }

  /** The warnings for a list split in two are the warnings for each part, in
      order: the effect visits the partners one by one. */
  lemma SimilarPartnersOfConcat(xs: seq<PartnerFields>, ys: seq<PartnerFields>, name: string, number: string)
    ensures SimilarPartners(xs + ys, name, number) == SimilarPartners(xs, name, number) + SimilarPartners(ys, name, number)
  {
    KeepOfConcat(xs, ys, p => LooksDuplicate(p, name, number));
  }

  /** The elements that satisfy `keep`, in order, each as often as it occurs. */
  function Keep<T(!new)>(xs: seq<T>, keep: T -> bool): (r: seq<T>)
    ensures |r| <= |xs|
    ensures forall k :: 0 <= k < |r| ==> r[k] in xs && keep(r[k])
    ensures forall i :: 0 <= i < |xs| && keep(xs[i]) ==> xs[i] in r
    ensures forall x :: multiset(r)[x] == if keep(x) then multiset(xs)[x] else 0
  {
    if |xs| == 0 then []
    else
      var rest := Keep(xs[1..], keep);
      KeepHead(xs, rest, keep);
      if keep(xs[0]) then [xs[0]] + rest else rest
  }

  /** The contract of `Keep` for a non-empty list, from that of its tail. */
  lemma KeepHead<T(!new)>(xs: seq<T>, rest: seq<T>, keep: T -> bool)
    requires |xs| > 0
    requires |rest| <= |xs| - 1
    requires forall k :: 0 <= k < |rest| ==> rest[k] in xs[1..] && keep(rest[k])
    requires forall i :: 0 <= i < |xs| - 1 && keep(xs[1..][i]) ==> xs[1..][i] in rest
    requires forall y :: multiset(rest)[y] == if keep(y) then multiset(xs[1..])[y] else 0
    ensures var r := if keep(xs[0]) then [xs[0]] + rest else rest;
            && |r| <= |xs|
            && (forall k :: 0 <= k < |r| ==> r[k] in xs && keep(r[k]))
            && (forall i :: 0 <= i < |xs| && keep(xs[i]) ==> xs[i] in r)
            && (forall y :: multiset(r)[y] == if keep(y) then multiset(xs)[y] else 0)
  {
    assert xs == [xs[0]] + xs[1..];
    assert multiset(xs) == multiset{xs[0]} + multiset(xs[1..]);
    forall i | 1 <= i < |xs| && keep(xs[i])
      ensures xs[i] in rest
    {
      assert xs[i] == xs[1..][i - 1];
    }
  }

  /** Filtering distributes over concatenation, so the kept elements keep their
      relative order. */
  lemma {:induction false} KeepOfConcat<T(!new)>(xs: seq<T>, ys: seq<T>, keep: T -> bool)
    ensures Keep(xs + ys, keep) == Keep(xs, keep) + Keep(ys, keep)
    decreases |xs|
  {
    if |xs| > 0 {
      assert (xs + ys)[1..] == xs[1..] + ys;
      assert (xs + ys)[0] == xs[0];
      KeepOfConcat(xs[1..], ys, keep);
    } else {
      assert xs + ys == ys;
    }
  }

  /** The duplicate warnings: checked only for a new partner whose name and
      number are both filled in. */
  function DuplicateWarnings(mode: PartnerMode, partners: seq<PartnerFields>, name: string, number: string): (r: seq<PartnerFields>)
    ensures mode != New || name == "" || number == "" ==> r == []
    ensures mode == New && name != "" && number != "" ==> r == SimilarPartners(partners, name, number)
  {
    if mode != New || name == "" || number == "" then [] else SimilarPartners(partners, name, number)
  }

  /** Typing an existing partner's name again, under the same number, is
      always warned about. */
  lemma RetypedPartnerWarned(partners: seq<PartnerFields>, i: nat)
    requires i < |partners|
    requires Trigram.Normalize(partners[i].partnerName) != "" && partners[i].partnerNumber != ""
    ensures partners[i] in DuplicateWarnings(New, partners, partners[i].partnerName, partners[i].partnerNumber)
  {
    Trigram.SimilarityOfEqualNames(partners[i].partnerName, partners[i].partnerName);
  }

  /** The warning's threshold in integers: for non-empty normalised names, with
      `A` and `B` their trigram lists, a partner is similar exactly when
      `20 * |A ∩ B| > 6 * (|A| + |B|)`. */
  lemma WarningThreshold(existing: PartnerFields, name: string, number: string)
    requires Trigram.Normalize(existing.partnerName) != "" && Trigram.Normalize(name) != ""
    ensures var ta := Trigram.GetTrigrams(Trigram.Normalize(existing.partnerName));
            var tb := Trigram.GetTrigrams(Trigram.Normalize(name));
            LooksDuplicate(existing, name, number) <==>
              (10 * 2 * |multiset(ta) * multiset(tb)| > 6 * (|ta| + |tb|) && existing.partnerNumber == number)
  {
    var ta := Trigram.GetTrigrams(Trigram.Normalize(existing.partnerName));
    var tb := Trigram.GetTrigrams(Trigram.Normalize(name));
    Trigram.DiceThreshold(ta, tb);
  }

  /** `onSubmit`: the form reaches the service only once the schema accepts it,
      and what is sent is the stamped payload. The warnings are not consulted. */
  function OnSubmit(isEmail: string -> bool, f: CreateForm<Group>): (r: Option<CreateForm<SubmissionService.StampedSnapshot<StudentInfo>>>)
    ensures r.Some? <==> ValidCreateForm(isEmail, f)
    ensures r.Some? ==> r.value.moaIa.partner == f.moaIa.partner
                        && |r.value.moaIa.studentSnapshots| == |f.moaIa.studentSnapshots|
  {
    if ValidCreateForm(isEmail, f) then Some(SubmissionService.CreatePayload(f)) else None
  }

  /** `studentInfoToNims`. */
  function StudentInfoToNims(students: Option<seq<StudentInfo>>): (r: seq<string>)
    ensures students.None? ==> r == []
    ensures students.Some? ==> |r| == |students.value|
    ensures students.Some? ==> forall i :: 0 <= i < |r| ==> r[i] == students.value[i].nim
  {
    if students.None? then [] else Nims(students.value)
  }

  function Nims(students: seq<StudentInfo>): (r: seq<string>)
    ensures |r| == |students| && forall i :: 0 <= i < |r| ==> r[i] == students[i].nim
  {
    if |students| == 0 then [] else [students[0].nim] + Nims(students[1..])
  }

  /** `new Map(studentsList.map(s => [s.nim, s]))`: later entries replace
      earlier ones with the same NIM. */
  function ByNim(list: seq<StudentInfo>): (m: map<string, StudentInfo>)
    ensures forall n :: n in m <==> exists i :: 0 <= i < |list| && list[i].nim == n
    ensures forall n :: n in m ==> m[n].nim == n && m[n] in list
    ensures |list| > 0 ==> m[list[|list| - 1].nim] == list[|list| - 1]
    decreases |list|
  {
    if |list| == 0 then map[]
    else
      var init := list[..|list| - 1];
      var last := list[|list| - 1];
      var m := ByNim(init)[last.nim := last];
      assert forall i :: 0 <= i < |init| ==> init[i] == list[i];
      m
  }

  /** The record the map holds for a NIM is the last one with that NIM: each
      record no later record overrides is found under its own NIM. */
  lemma {:induction false} ByNimLastWins(list: seq<StudentInfo>, i: nat)
    requires i < |list|
    requires forall j :: i < j < |list| ==> list[j].nim != list[i].nim
    ensures list[i].nim in ByNim(list) && ByNim(list)[list[i].nim] == list[i]
    decreases |list|
  {
    if i < |list| - 1 {
      var init := list[..|list| - 1];
      assert init[i] == list[i];
      forall j | i < j < |init|
        ensures init[j].nim != init[i].nim
      {
        assert init[j] == list[j];
      }
      ByNimLastWins(init, i);
      assert list[|list| - 1].nim != list[i].nim;
    }
  }

  /** The NIMs the map knows, in the order given. */
  function KnownIn(nims: seq<string>, m: map<string, StudentInfo>): (r: seq<string>)
    ensures |r| <= |nims|
    ensures forall k :: 0 <= k < |r| ==> r[k] in nims && r[k] in m
    ensures forall i :: 0 <= i < |nims| && nims[i] in m ==> nims[i] in r
  {
    if |nims| == 0 then []
    else
      assert forall i :: 1 <= i < |nims| ==> nims[i] == nims[1..][i - 1];
      (if nims[0] in m then [nims[0]] else []) + KnownIn(nims[1..], m)
  }

  /** The NIMs of the list that the map knows, in the order given. */
  function KnownNims(nims: seq<string>, list: seq<StudentInfo>): (r: seq<string>)
    ensures |r| <= |nims|
    ensures forall k :: 0 <= k < |r| ==> r[k] in nims && r[k] in ByNim(list)
  {
    KnownIn(nims, ByNim(list))
  }

  /** The record of each known NIM, in the order given. */
  function LookUp(nims: seq<string>, m: map<string, StudentInfo>): (r: seq<StudentInfo>)
    ensures |r| == |KnownIn(nims, m)|
    ensures forall k :: 0 <= k < |r| ==> r[k] == m[KnownIn(nims, m)[k]]
  {
    if |nims| == 0 then []
    else
      var rest := LookUp(nims[1..], m);
      var known := KnownIn(nims[1..], m);
      if nims[0] in m then
        assert KnownIn(nims, m) == [nims[0]] + known;
        [m[nims[0]]] + rest
      else
        rest
  }

  /** `nimsToStudentInfo`: nothing without a list; otherwise the record of each
      known NIM, in the order given, unknown NIMs dropped. */
  function NimsToStudentInfo(nims: seq<string>, list: Option<seq<StudentInfo>>): (r: seq<StudentInfo>)
    ensures list.None? ==> r == []
    ensures |r| <= |nims|
    ensures list.Some? ==> |r| == |KnownNims(nims, list.value)|
    ensures list.Some? ==> forall k :: 0 <= k < |r| ==> r[k] in list.value && r[k].nim == KnownNims(nims, list.value)[k]
  {
    if list.None? then [] else LookUp(nims, ByNim(list.value))
  }

  /** Reading the records back to NIMs gives the known NIMs in their order. */
  lemma {:induction false} NimsRoundTrip(nims: seq<string>, list: seq<StudentInfo>)
    ensures StudentInfoToNims(Some(NimsToStudentInfo(nims, Some(list)))) == KnownNims(nims, list)
    decreases |nims|
  {
    if |nims| > 0 {
      NimsRoundTrip(nims[1..], list);
      var m := ByNim(list);
      var head := if nims[0] in m then [m[nims[0]]] else [];
      NimsOfConcat(head, LookUp(nims[1..], m));
    }
  }

  lemma NimsOfConcat(a: seq<StudentInfo>, b: seq<StudentInfo>)
    ensures Nims(a + b) == Nims(a) + Nims(b)
  {
  }

  /** Every NIM the list knows is kept, and nothing else is. */
  lemma KnownNimsKeepsKnown(nims: seq<string>, list: seq<StudentInfo>, i: nat, j: nat)
    requires i < |nims| && j < |list| && list[j].nim == nims[i]
    ensures nims[i] in KnownNims(nims, list)
    decreases |nims|
  {
    if i > 0 {
      KnownNimsKeepsKnown(nims[1..], list, i - 1, j);
    }
  }

  /** Picking students from a list without repeated NIMs and mapping their NIMs
      back gives exactly the students picked. */
  lemma {:induction false} PickedStudentsRoundTrip(picked: seq<StudentInfo>, list: seq<StudentInfo>)
    requires forall i, j :: 0 <= i < j < |list| ==> list[i].nim != list[j].nim
    requires forall k :: 0 <= k < |picked| ==> picked[k] in list
    ensures NimsToStudentInfo(StudentInfoToNims(Some(picked)), Some(list)) == picked
    decreases |picked|
  {
    if |picked| > 0 {
      var m := ByNim(list);
      var s := picked[0];
      assert s.nim in m && m[s.nim] == s by {
        var i :| 0 <= i < |list| && list[i] == s;
        UniqueNimsLookUp(list, i);
      }
      var ns := Nims(picked);
      assert ns == [s.nim] + Nims(picked[1..]);
      assert LookUp(ns, m) == [s] + LookUp(Nims(picked[1..]), m) by {
        assert ns[1..] == Nims(picked[1..]);
      }
      PickedStudentsRoundTrip(picked[1..], list);
      assert picked == [s] + picked[1..];
    }
  }

  /** With no repeated NIMs the map finds each student under their own NIM. */
  lemma {:induction false} UniqueNimsLookUp(list: seq<StudentInfo>, i: nat)
    requires forall a, b :: 0 <= a < b < |list| ==> list[a].nim != list[b].nim
    requires i < |list|
    ensures list[i].nim in ByNim(list) && ByNim(list)[list[i].nim] == list[i]
    decreases |list|
  {
    if i < |list| - 1 {
      var init := list[..|list| - 1];
      assert init[i] == list[i];
      UniqueNimsLookUp(init, i);
      assert list[|list| - 1].nim != list[i].nim;
    }
  }

  /** With a repeated NIM the later record is the one picked. */
  lemma RepeatedNimPicksLater(a: StudentInfo, b: StudentInfo)
    requires a.nim == b.nim && a != b
    ensures NimsToStudentInfo([a.nim], Some([a, b])) == [b]
  {
    assert [a, b][..1] == [a];
  }
}

=== FILE: table_types.dfy ===
/** The table state shared by every listing (`PaginationState`, `SortingState` of
    TanStack Table) and its conversion to the Spring Data query format. */
module TableTypes {
  import opened Wrappers
  import opened Text

  /** One entry of `SortingState`: the column id and its direction. */
  datatype SortItem = SortItem(id: string, desc: bool)

  /** `PaginationState`: a zero-based page index and a page size. */
  datatype Pagination = Pagination(pageIndex: int, pageSize: int)

  /** The `page`/`size` pair that `toSpringPagination` picks out of `QueryParams`. */
  datatype PageAndSize = PageAndSize(page: int, size: int)

  /** `QueryParams`: what a listing asks the server for. */
  datatype QueryParams = QueryParams(page: int, size: int, sort: Option<string>, search: Option<string>)

  /** `DataTableConfig`. */
  datatype TableConfig = TableConfig(
    enableSearch: bool,
    searchPlaceholder: string,
    defaultPageSize: int,
    pageSizeOptions: seq<int>)

  const DefaultTableConfig := TableConfig(false, "", 10, [10, 20, 50, 100])

  const Asc := "asc"
  const Desc := "desc"

  /** `toSpringSort`: `id,desc` or `id,asc` from the first sort entry, or nothing
      when the table is unsorted. */
  function ToSpringSort(sort: seq<SortItem>): (r: Option<string>)
    ensures r.None? <==> |sort| == 0
    ensures r.Some? ==> |r.value| > |sort[0].id| && r.value[..|sort[0].id|] == sort[0].id
    ensures r.Some? ==> r.value[|sort[0].id|] == ','
  {
    if |sort| == 0 then None
    else
      var item := sort[0];
      Some(item.id + [','] + (if item.desc then Desc else Asc))
  }

  /** The assumed server reading of a `sort` parameter, as a Spring controller
      splits it: the direction after the last comma, the property before it. The
      server is not part of this model. */
  function ParseSpringSort(s: string): (r: Option<SortItem>)
    ensures r.Some? ==> ',' in s
  {
    if ',' !in s then None
    else
      var k := LastIndexOf(s, ',');
      var dir := s[k + 1..];
      if dir == Asc then Some(SortItem(s[..k], false))
      else if dir == Desc then Some(SortItem(s[..k], true))
      else None
  }

  /** The parameter always parses back to the first sort entry, whatever its id
      contains (commas included), because the direction never holds a comma. */
  lemma SpringSortRoundTrip(sort: seq<SortItem>)
    requires |sort| > 0
    ensures ParseSpringSort(ToSpringSort(sort).value) == Some(sort[0])
  {
    var item := sort[0];
    var dir := if item.desc then Desc else Asc;
    var s := item.id + [','] + dir;
    assert s[|item.id|] == ',';
    assert s[|item.id| + 1..] == dir;
    assert LastIndexOf(s, ',') == |item.id|;
    assert s[..|item.id|] == item.id;
  }

  /** Only the first sort entry is read. */
  lemma SpringSortUsesFirstOnly(sort1: seq<SortItem>, sort2: seq<SortItem>)
    requires |sort1| > 0 && |sort2| > 0 && sort1[0] == sort2[0]
    ensures ToSpringSort(sort1) == ToSpringSort(sort2)
  {
  }

  /** `toSpringPagination`. */
  function ToSpringPagination(p: Pagination): (r: PageAndSize)
  {
    PageAndSize(p.pageIndex, p.pageSize)
  }

  /** The page and size sent to the server are the table's own, so going back
      gives the same pagination state. */
  lemma SpringPaginationRoundTrip(p: Pagination)
    ensures var q := ToSpringPagination(p); Pagination(q.page, q.size) == p
  {
  }

  /** The default page size is one the page-size selector offers. */
  lemma DefaultPageSizeOffered()
    ensures DefaultTableConfig.defaultPageSize in DefaultTableConfig.pageSizeOptions
    ensures !DefaultTableConfig.enableSearch
  {
  }
}

=== FILE: text.dfy ===
/** String primitives of the JavaScript runtime that the model relies on:
    character classes of regular expressions (`\s`, `\d`, `\b`, `.`),
    ASCII case mapping, `trim`, whitespace-run replacement, `split` and `join`. */
module Text {

  predicate IsUpper(c: char) { 'A' <= c <= 'Z' }

  predicate IsLower(c: char) { 'a' <= c <= 'z' }

  /** `\d` of a JavaScript regular expression (no `u` flag): ASCII digits only. */
  predicate IsDigit(c: char) { '0' <= c <= '9' }

  /** `\w`: the characters on one side of a `\b` word boundary. */
  predicate IsWordChar(c: char) { IsUpper(c) || IsLower(c) || IsDigit(c) || c == '_' }

  /** The line terminators of ECMAScript, which `.` does not match. */
  predicate IsLineTerminator(c: char) {
    c == '\n' || c == '\r' || c == '\U{2028}' || c == '\U{2029}'
  }

  /** `\s` and the characters `trim` removes: ECMAScript WhiteSpace and LineTerminator. */
  predicate IsSpace(c: char) {
    || c == ' ' || c == '\t' || c == '\U{B}' || c == '\U{C}'
    || c == '\U{A0}' || c == '\U{FEFF}' || c == '\U{1680}'
    || ('\U{2000}' <= c <= '\U{200A}') || c == '\U{202F}' || c == '\U{205F}' || c == '\U{3000}'
    || IsLineTerminator(c)
  }

  function ToLowerChar(c: char): char {
    if IsUpper(c) then (c as int + 32) as char else c
  }

  function ToUpperChar(c: char): char {
    if IsLower(c) then (c as int - 32) as char else c
  }

  /** `String.prototype.toLowerCase`, on the ASCII letters. */
  function ToLower(s: string): (r: string)
    ensures |r| == |s|
    ensures forall i :: 0 <= i < |s| ==> r[i] == ToLowerChar(s[i])
  {
    seq(|s|, i requires 0 <= i < |s| => ToLowerChar(s[i]))
  }

  predicate NoSpaces(s: string) {
    forall i :: 0 <= i < |s| ==> !IsSpace(s[i])
  }

  predicate AllSpaces(s: string) {
    forall i :: 0 <= i < |s| ==> IsSpace(s[i])
  }

  /** `String.prototype.trimStart`: the suffix left after the leading whitespace. */
  function TrimStart(s: string): (r: string)
    ensures |r| <= |s| && r == s[|s| - |r|..]
    ensures AllSpaces(s[..|s| - |r|])
    ensures |r| > 0 ==> !IsSpace(r[0])
  {
    if |s| > 0 && IsSpace(s[0]) then TrimStart(s[1..]) else s
  }

  /** `String.prototype.trimEnd`: the prefix left before the trailing whitespace. */
  function TrimEnd(s: string): (r: string)
    ensures |r| <= |s| && r == s[..|r|]
    ensures AllSpaces(s[|r|..])
    ensures |r| > 0 ==> !IsSpace(r[|r| - 1])
  {
    if |s| > 0 && IsSpace(s[|s| - 1]) then TrimEnd(s[..|s| - 1]) else s
  }

  /** `String.prototype.trim`. */
  function Trim(s: string): (r: string)
  {
    TrimEnd(TrimStart(s))
  }

  /** What `trim` keeps is a contiguous piece of its input, cut only at whitespace,
      and it neither starts nor ends with whitespace. */
  lemma TrimIsTrimmed(s: string)
    ensures exists i, j :: 0 <= i <= j <= |s| && Trim(s) == s[i..j]
                           && AllSpaces(s[..i]) && AllSpaces(s[j..])
    ensures |Trim(s)| > 0 ==> !IsSpace(Trim(s)[0]) && !IsSpace(Trim(s)[|Trim(s)| - 1])
  {
    var i, j := TrimBounds(s);
    TrimEnds(s);
  }

  /** Where `trim` cuts its input. */
  lemma TrimBounds(s: string) returns (i: nat, j: nat)
    ensures i <= j <= |s| && Trim(s) == s[i..j]
    ensures AllSpaces(s[..i]) && AllSpaces(s[j..])
  {
    var t := TrimStart(s);
    var e := TrimEnd(t);
    assert Trim(s) == e;
    i := |s| - |t|;
    j := i + |e|;
    assert t == s[i..] && AllSpaces(s[..i]);
    assert e == t[..|e|] && AllSpaces(t[|e|..]);
    SuffixSlices(s, i, |e|);
  }

  lemma SuffixSlices(s: string, i: nat, n: nat)
    requires i + n <= |s|
    ensures s[i..][..n] == s[i..i + n] && s[i..][n..] == s[i + n..]
  {
  }

  lemma TrimEnds(s: string)
    ensures |Trim(s)| > 0 ==> !IsSpace(Trim(s)[0]) && !IsSpace(Trim(s)[|Trim(s)| - 1])
  {
    var t := TrimStart(s);
    var e := TrimEnd(t);
    if |e| > 0 {
      assert e[0] == t[0];
    }
  }

  /** A string with no whitespace at either end is its own `trim`. */
  lemma TrimOfTrimmed(s: string)
    requires |s| > 0 ==> !IsSpace(s[0]) && !IsSpace(s[|s| - 1])
    ensures Trim(s) == s
  {
  }

  /** `trimEnd` keeps every position up to the last non-space character. */
  lemma {:induction false} TrimEndKeepsNonSpace(s: string, k: nat)
    requires k < |s| && !IsSpace(s[k])
    ensures |TrimEnd(s)| > k
    decreases |s|
  {
    if IsSpace(s[|s| - 1]) {
      assert k != |s| - 1;
      TrimEndKeepsNonSpace(s[..|s| - 1], k);
    }
  }

  /** `trim` leaves nothing exactly when the text is all whitespace. */
  lemma TrimEmptyIffAllSpaces(s: string)
    ensures Trim(s) == "" <==> AllSpaces(s)
  {
    var t := TrimStart(s);
    if |t| > 0 {
      assert s[|s| - |t|] == t[0];
      TrimEndKeepsNonSpace(t, 0);
    } else {
      assert s[..|s|] == s;
    }
  }

  /** `s.replace(/\s+/g, rep)`: every maximal run of whitespace becomes one `rep`. */
  function CollapseSpaces(s: string, rep: char): (r: string)
    ensures |r| <= |s|
    ensures |r| == 0 <==> |s| == 0
    ensures |s| > 0 && !IsSpace(s[0]) ==> r[0] == s[0]
    ensures forall i :: 0 <= i < |r| ==> r[i] == rep || (!IsSpace(r[i]) && r[i] in s)
    ensures forall i :: 0 <= i < |r| - 1 && IsSpace(r[i]) ==> !IsSpace(r[i + 1])
    decreases |s|
  {
    if |s| == 0 then ""
    else if IsSpace(s[0]) then
      var rest := TrimStart(s);
      [rep] + CollapseSpaces(rest, rep)
    else
      [s[0]] + CollapseSpaces(s[1..], rep)
  }

  /** A string without whitespace is left unchanged by the run replacement. */
  lemma {:induction false} CollapseWithoutSpaces(s: string, rep: char)
    requires NoSpaces(s)
    ensures CollapseSpaces(s, rep) == s
  {
    if |s| > 0 {
      CollapseWithoutSpaces(s[1..], rep);
    }
  }

  /** Leading whitespace in front of a non-space start is all that `trimStart` drops. */
  lemma {:induction false} TrimStartOfSpaced(w: string, b: string)
    requires AllSpaces(w) && (|b| == 0 || !IsSpace(b[0]))
    ensures TrimStart(w + b) == b
    decreases |w|
  {
    if |w| > 0 {
      assert (w + b)[1..] == w[1..] + b;
      TrimStartOfSpaced(w[1..], b);
    } else {
      assert w + b == b;
    }
  }

  /** `trimStart` never passes a non-space character. */
  lemma {:induction false} TrimStartBeforeNonSpace(a: string, c: char, b: string)
    requires !IsSpace(c)
    ensures TrimStart(a + [c] + b) == TrimStart(a) + [c] + b
    decreases |a|
  {
    if |a| > 0 && IsSpace(a[0]) {
      assert (a + [c] + b)[1..] == a[1..] + [c] + b;
      TrimStartBeforeNonSpace(a[1..], c, b);
    } else if |a| == 0 {
      assert a + [c] + b == [c] + b;
    }
  }

  lemma ConcatAround(p: string, x: string, c: char, y: string)
    ensures p + (x + [c] + y) == (p + x) + [c] + y
  {
  }

  /** A non-space character is copied where it stands, and the runs on either
      side of it are replaced independently. */
  lemma {:induction false} CollapseAtNonSpace(a: string, c: char, b: string, rep: char)
    requires !IsSpace(c)
    ensures CollapseSpaces(a + [c] + b, rep) == CollapseSpaces(a, rep) + [c] + CollapseSpaces(b, rep)
    decreases |a|
  {
    var s := a + [c] + b;
    if |a| == 0 {
      assert s == [c] + b && s[1..] == b;
    } else if IsSpace(a[0]) {
      var t := TrimStart(a);
      assert t == TrimStart(a[1..]);
      assert CollapseSpaces(a, rep) == [rep] + CollapseSpaces(t, rep);
      assert CollapseSpaces(s, rep) == [rep] + CollapseSpaces(TrimStart(s), rep) by {
        assert s[0] == a[0];
      }
      TrimStartBeforeNonSpace(a, c, b);
      CollapseAtNonSpace(t, c, b, rep);
      var x, y := CollapseSpaces(t, rep), CollapseSpaces(b, rep);
      assert CollapseSpaces(s, rep) == [rep] + (x + [c] + y);
      ConcatAround([rep], x, c, y);
    } else {
      assert CollapseSpaces(a, rep) == [a[0]] + CollapseSpaces(a[1..], rep);
      assert CollapseSpaces(s, rep) == [a[0]] + CollapseSpaces(a[1..] + [c] + b, rep) by {
        assert s[0] == a[0] && s[1..] == a[1..] + [c] + b;
      }
      CollapseAtNonSpace(a[1..], c, b, rep);
      var x, y := CollapseSpaces(a[1..], rep), CollapseSpaces(b, rep);
      assert CollapseSpaces(s, rep) == [a[0]] + (x + [c] + y);
      ConcatAround([a[0]], x, c, y);
    }
  }

  /** A whole run of whitespace, however long, becomes one replacement character. */
  lemma CollapseSpaceRun(w: string, b: string, rep: char)
    requires |w| > 0 && AllSpaces(w) && (|b| == 0 || !IsSpace(b[0]))
    ensures CollapseSpaces(w + b, rep) == [rep] + CollapseSpaces(b, rep)
  {
    assert (w + b)[0] == w[0];
    TrimStartOfSpaced(w, b);
  }

  /** The index of the first occurrence of `c` (`indexOf`). */
  function IndexOf(s: string, c: char): (k: nat)
    requires c in s
    ensures k < |s| && s[k] == c && c !in s[..k]
  {
    if s[0] == c then 0 else 1 + IndexOf(s[1..], c)
  }

  /** The index of the last occurrence of `c` (`lastIndexOf`). */
  function LastIndexOf(s: string, c: char): (k: nat)
    requires c in s
    ensures k < |s| && s[k] == c && c !in s[k + 1..]
  {
    if s[|s| - 1] == c then |s| - 1 else LastIndexOf(s[..|s| - 1], c)
  }

  /** `s.split(sep)` for a one-character separator: the pieces between separators. */
  function Split(s: string, sep: char): (parts: seq<string>)
    ensures |parts| >= 1
    ensures forall i :: 0 <= i < |parts| ==> sep !in parts[i]
    decreases |s|
  {
    if sep !in s then [s]
    else
      var k := IndexOf(s, sep);
      [s[..k]] + Split(s[k + 1..], sep)
  }

  /** `parts.join(sep)` for a one-character separator. */
  function Join(parts: seq<string>, sep: char): string
    decreases |parts|
  {
    if |parts| == 0 then ""
    else if |parts| == 1 then parts[0]
    else parts[0] + [sep] + Join(parts[1..], sep)
  }

  /** Splitting and joining with the same separator gives back the input. */
  lemma {:induction false} JoinSplit(s: string, sep: char)
    ensures Join(Split(s, sep), sep) == s
    decreases |s|
  {
    if sep in s {
      var k := IndexOf(s, sep);
      var rest := Split(s[k + 1..], sep);
      var parts := [s[..k]] + rest;
      assert Split(s, sep) == parts;
      assert parts[1..] == rest;
      assert Join(parts, sep) == s[..k] + [sep] + Join(rest, sep);
      JoinSplit(s[k + 1..], sep);
      assert s == s[..k] + [sep] + s[k + 1..];
    }
  }

  /** Joining pieces that contain no separator, then splitting, gives back the pieces. */
  lemma {:induction false} SplitJoin(parts: seq<string>, sep: char)
    requires |parts| >= 1
    requires forall i :: 0 <= i < |parts| ==> sep !in parts[i]
    ensures Split(Join(parts, sep), sep) == parts
    decreases |parts|
  {
    if |parts| > 1 {
      var rest := Join(parts[1..], sep);
      SplitJoin(parts[1..], sep);
      SplitAtFirst(parts[0], sep, rest);
      assert parts == [parts[0]] + parts[1..];
    }
  }

  /** Splitting at the first separator: the piece before it, then the rest split. */
  lemma SplitAtFirst(p: string, sep: char, rest: string)
    requires sep !in p
    ensures Split(p + [sep] + rest, sep) == [p] + Split(rest, sep)
  {
    var s := p + [sep] + rest;
    assert s[|p|] == sep;
    assert IndexOf(s, sep) == |p| by {
      assert s[..|p|] == p;
    }
    assert s[..|p|] == p;
    assert s[|p| + 1..] == rest;
  }

  /** A character absent from every piece, and distinct from the separator, is absent from the join. */
  lemma {:induction false} JoinAvoids(parts: seq<string>, sep: char, other: char)
    requires other != sep
    requires forall i :: 0 <= i < |parts| ==> other !in parts[i]
    ensures other !in Join(parts, sep)
    decreases |parts|
  {
    if |parts| > 1 {
      JoinAvoids(parts[1..], sep, other);
    }
  }
}

=== FILE: trigram.dfy ===
/** The partner-name duplicate heuristic: names are normalised, cut into padded
    three-character windows, and compared with the Dice coefficient over the
    multiset of windows. */
module Trigram {
  import opened Text

  // ---------------------------------------------------------------------------
  // normalize
  // ---------------------------------------------------------------------------

  /** `\b` at position `i`: a word character on exactly one side. */
  predicate BoundaryAt(s: string, i: nat)
    requires i <= |s|
  {
    (i > 0 && IsWordChar(s[i - 1])) != (i < |s| && IsWordChar(s[i]))
  }

  /** A standalone `pt` token starts at `i`: the letters `pt` with a word boundary
      before them, and after them either a word boundary or a dot and a boundary. */
  predicate PtTokenAt(s: string, i: nat)
    requires i <= |s|
  {
    && i + 2 <= |s| && s[i] == 'p' && s[i + 1] == 't' && BoundaryAt(s, i)
    && (BoundaryAt(s, i + 2) || (i + 3 <= |s| && s[i + 2] == '.' && BoundaryAt(s, i + 3)))
  }

  /** No standalone `pt` token starts anywhere in `s`. */
  predicate NoPtToken(s: string) {
    forall j :: 0 <= j < |s| ==> !PtTokenAt(s, j)
  }

  /** The length of the match of `/\bpt\.?\b/` that starts at `i`, or 0 when there is none.
      The optional dot is greedy: the three-character match is tried first. */
  function PtMatchAt(s: string, i: nat): (n: nat)
    requires i <= |s|
    ensures n == 0 || n == 2 || n == 3
    ensures i + n <= |s|
    ensures n > 0 ==> s[i] == 'p' && s[i + 1] == 't'
  {
    if BoundaryAt(s, i) && i + 2 <= |s| && s[i] == 'p' && s[i + 1] == 't' then
      if i + 3 <= |s| && s[i + 2] == '.' && BoundaryAt(s, i + 3) then 3
      else if BoundaryAt(s, i + 2) then 2
      else 0
    else 0
  }

  /** The left-to-right scan of a global `replace` from position `i`: a match is
      dropped and the scan resumes after it; otherwise one character is kept. */
  function StripPtFrom(s: string, i: nat): (r: string)
    requires i <= |s|
    ensures |r| <= |s| - i
    decreases |s| - i
  {
    if i == |s| then ""
    else
      var n := PtMatchAt(s, i);
      if n > 0 then StripPtFrom(s, i + n) else [s[i]] + StripPtFrom(s, i + 1)
  }

  /** `s.replace(/\bpt\.?\b/g, "")`. */
  function StripPt(s: string): string {
    StripPtFrom(s, 0)
  }

  /** The scan's match at a position is exactly a standalone token there, and
      it takes the dot whenever a word boundary follows the dot. */
  lemma PtMatchIsToken(s: string, i: nat)
    requires i <= |s|
    ensures PtMatchAt(s, i) > 0 <==> PtTokenAt(s, i)
    ensures PtMatchAt(s, i) == 3 <==> PtTokenAt(s, i) && i + 3 <= |s| && s[i + 2] == '.' && BoundaryAt(s, i + 3)
  {
  }

  /** Where no standalone token starts, the scan copies its input. */
  lemma {:induction false} StripPtNoToken(s: string, i: nat)
    requires i <= |s|
    requires forall j :: i <= j < |s| ==> !PtTokenAt(s, j)
    ensures StripPtFrom(s, i) == s[i..]
    decreases |s| - i
  {
    if i < |s| {
      PtMatchIsToken(s, i);
      StripPtNoToken(s, i + 1);
    }
  }

  /** A word character just before position `i`. */
  predicate WordBefore(s: string, i: nat)
    requires i <= |s|
  {
    i > 0 && IsWordChar(s[i - 1])
  }

  /** The scan from a position depends only on the text from there on and on
      whether a word character precedes it. */
  lemma {:induction false} StripPtLocal(s: string, i: nat, t: string, j: nat)
    requires i <= |s| && j <= |t| && s[i..] == t[j..]
    requires WordBefore(s, i) == WordBefore(t, j)
    ensures StripPtFrom(s, i) == StripPtFrom(t, j)
    decreases |s| - i
  {
    if i == |s| {
      assert |t| == j;
      StripPtAtEnd(s, i);
      StripPtAtEnd(t, j);
    } else {
      var n := PtMatchAt(s, i);
      assert PtMatchAt(t, j) == n by {
        LocalMatch(s, i, t, j);
      }
      var next := if n > 0 then n else 1;
      assert s[i + next..] == t[j + next..] by {
        assert s[i + next..] == s[i..][next..];
        assert t[j + next..] == t[j..][next..];
      }
      assert WordBefore(s, i + next) == WordBefore(t, j + next) by {
        assert s[i + next - 1] == s[i..][next - 1];
        assert t[j + next - 1] == t[j..][next - 1];
      }
      StripPtLocal(s, i + next, t, j + next);
      assert s[i] == t[j] by {
        assert s[i] == s[i..][0];
        assert t[j] == t[j..][0];
      }
      var n1 := StripPtStep(s, i);
      var n2 := StripPtStep(t, j);
    }
  }

  lemma LocalMatch(s: string, i: nat, t: string, j: nat)
    requires i <= |s| && j <= |t| && s[i..] == t[j..]
    requires WordBefore(s, i) == WordBefore(t, j)
    ensures PtMatchAt(s, i) == PtMatchAt(t, j)
  {
    if i + 3 <= |s| {
      assert s[i + 2] == s[i..][2] && t[j + 2] == t[j..][2];
    }
    if i + 2 <= |s| {
      assert s[i] == s[i..][0] && t[j] == t[j..][0];
      assert s[i + 1] == s[i..][1] && t[j + 1] == t[j..][1];
    }
    LocalBoundary(s, i, t, j, 0);
    if i + 2 <= |s| {
      LocalBoundary(s, i, t, j, 2);
    }
    if i + 3 <= |s| {
      LocalBoundary(s, i, t, j, 3);
    }
  }

  lemma LocalBoundary(s: string, i: nat, t: string, j: nat, d: nat)
    requires i + d <= |s| && j <= |t| && s[i..] == t[j..]
    requires WordBefore(s, i) == WordBefore(t, j)
    ensures BoundaryAt(s, i + d) == BoundaryAt(t, j + d)
  {
    if d > 0 {
      assert s[i + d - 1] == s[i..][d - 1];
      assert t[j + d - 1] == t[j..][d - 1];
    }
    if i + d < |s| {
      assert s[i + d] == s[i..][d];
      assert t[j + d] == t[j..][d];
    }
  }

  lemma StripPtAtEnd(s: string, i: nat)
    requires i == |s|
    ensures StripPtFrom(s, i) == ""
  {
  }

  /** One step of the scan, with the length of the match found there. */
  lemma StripPtStep(s: string, i: nat) returns (n: nat)
    requires i < |s|
    ensures n == PtMatchAt(s, i) && i + n <= |s|
    ensures n > 0 ==> StripPtFrom(s, i) == StripPtFrom(s, i + n)
    ensures n == 0 ==> StripPtFrom(s, i) == [s[i]] + StripPtFrom(s, i + 1)
  {
    n := PtMatchAt(s, i);
  }

  /** Before a non-word character other than a dot, a token of the text before
      it ends exactly as it would at the end of that text. */
  lemma ClippedMatch(s: string, a: string, c: char, j: nat)
    requires |a| < |s| && s[..|a|] == a && s[|a|] == c
    requires !IsWordChar(c) && c != '.' && j <= |a|
    ensures PtMatchAt(s, j) == PtMatchAt(a, j)
  {
    forall d | 0 <= d < |a|
      ensures s[d] == a[d]
    {
      assert s[d] == s[..|a|][d];
    }
    if j + 2 <= |a| {
      ClippedBoundary(s, a, c, j);
      ClippedBoundary(s, a, c, j + 2);
      if j + 3 <= |a| {
        ClippedBoundary(s, a, c, j + 3);
      }
    }
  }

  lemma ClippedBoundary(s: string, a: string, c: char, m: nat)
    requires |a| < |s| && s[..|a|] == a && s[|a|] == c
    requires !IsWordChar(c) && m <= |a|
    ensures BoundaryAt(s, m) == BoundaryAt(a, m)
  {
    if m > 0 {
      assert s[m - 1] == s[..|a|][m - 1];
    }
    if m < |a| {
      assert s[m] == s[..|a|][m];
    }
  }

  /** A whitespace-like character splits the removal in two: what is removed on
      either side of it is what would be removed from each side alone. */
  lemma StripPtSplit(a: string, c: char, b: string)
    requires !IsWordChar(c) && c != '.'
    ensures StripPt(a + [c] + b) == StripPt(a) + [c] + StripPt(b)
  {
    var s := a + [c] + b;
    assert s[..|a|] == a && s[|a|] == c;
    StripPtSplitFrom(s, a, c, 0);
    assert s[|a| + 1..] == b[0..];
    StripPtLocal(s, |a| + 1, b, 0);
  }

  lemma {:induction false} StripPtSplitFrom(s: string, a: string, c: char, i: nat)
    requires |a| < |s| && s[..|a|] == a && s[|a|] == c
    requires !IsWordChar(c) && c != '.' && i <= |a|
    ensures StripPtFrom(s, i) == StripPtFrom(a, i) + [c] + StripPtFrom(s, |a| + 1)
    decreases |a| - i
  {
    var n := StripPtStep(s, i);
    if i == |a| {
      StripPtAtEnd(a, i);
    } else {
      ClippedMatch(s, a, c, i);
      var n' := StripPtStep(a, i);
      StripPtSplitFrom(s, a, c, if n > 0 then i + n else i + 1);
      assert s[i] == a[i] by {
        assert s[i] == s[..|a|][i];
      }
    }
  }

  /** A standalone `pt` between spaces is removed wherever it stands, leaving the
      two spaces and the rest of the text as it would be alone. */
  lemma StripPtDropsToken(a: string, b: string)
    ensures StripPt(a + " pt " + b) == StripPt(a) + "  " + StripPt(b)
  {
    assert a + " pt " + b == a + [' '] + ("pt" + [' '] + b);
    StripPtSplit(a, ' ', "pt" + [' '] + b);
    StripPtSplit("pt", ' ', b);
    assert StripPt("pt") == "" by {
      assert PtMatchAt("pt", 0) == 2;
    }
  }

  /** "pt" inside a word, as in "optik" or "kapten", is no token: the letter
      before it leaves no word boundary. */
  lemma InWordPtIsNoToken(a: string, b: string)
    requires |a| > 0 && IsWordChar(a[|a| - 1])
    ensures !PtTokenAt(a + "pt" + b, |a|)
  {
    var s := a + "pt" + b;
    assert s[|a| - 1] == a[|a| - 1];
    assert s[|a|] == 'p';
  }

  /** The characters `/[^a-z0-9\s]/g` does not remove. */
  predicate KeptChar(c: char) { IsLower(c) || IsDigit(c) || IsSpace(c) }

  /** `s.replace(/[^a-z0-9\s]/g, "")`. */
  function StripPunctuation(s: string): (r: string)
    ensures |r| <= |s|
    ensures forall i :: 0 <= i < |r| ==> KeptChar(r[i])
    ensures forall c :: c in r <==> c in s && KeptChar(c)
  {
    if |s| == 0 then ""
    else if KeptChar(s[0]) then [s[0]] + StripPunctuation(s[1..])
    else StripPunctuation(s[1..])
  }

  /** `normalize` of trigram.ts: lower-case, drop a standalone `pt`/`pt.`, drop
      everything but `[a-z0-9\s]`, collapse whitespace runs to one space, trim. */
  function Normalize(str: string): string {
    Trim(CollapseSpaces(StripPunctuation(StripPt(ToLower(str))), ' '))
  }

  /** The shape of a normalised name. */
  predicate IsNormalized(s: string) {
    && (forall i :: 0 <= i < |s| ==> IsLower(s[i]) || IsDigit(s[i]) || s[i] == ' ')
    && (|s| > 0 ==> s[0] != ' ' && s[|s| - 1] != ' ')
    && (forall i :: 0 <= i < |s| - 1 ==> !(s[i] == ' ' && s[i + 1] == ' '))
  }

  /** Lower-case letters, digits and single spaces only. */
  predicate SingleSpaced(s: string) {
    && (forall i :: 0 <= i < |s| ==> IsLower(s[i]) || IsDigit(s[i]) || s[i] == ' ')
    && (forall i :: 0 <= i < |s| - 1 ==> !(s[i] == ' ' && s[i + 1] == ' '))
  }

  lemma CollapseIsSingleSpaced(t: string)
    requires forall k :: 0 <= k < |t| ==> KeptChar(t[k])
    ensures SingleSpaced(CollapseSpaces(t, ' '))
  {
    var c := CollapseSpaces(t, ' ');
    forall k | 0 <= k < |c|
      ensures IsLower(c[k]) || IsDigit(c[k]) || c[k] == ' '
    {
      if c[k] != ' ' {
        var j :| 0 <= j < |t| && t[j] == c[k];
        assert KeptChar(t[j]);
      }
    }
  }

  lemma SliceSingleSpaced(c: string, i: nat, j: nat)
    requires SingleSpaced(c) && i <= j <= |c|
    ensures SingleSpaced(c[i..j])
  {
    var r := c[i..j];
    assert forall k :: 0 <= k < |r| ==> r[k] == c[i + k];
  }

  lemma TrimOfSingleSpaced(c: string)
    requires SingleSpaced(c)
    ensures IsNormalized(Trim(c))
  {
    var i, j := TrimBounds(c);
    SliceSingleSpaced(c, i, j);
    TrimEnds(c);
    assert IsSpace(' ');
  }

  /** The output of `normalize` holds only `[a-z0-9 ]`, has no space at either
      end and never two spaces in a row. */
  lemma NormalizeIsNormalized(str: string)
    ensures IsNormalized(Normalize(str))
  {
    var t := StripPunctuation(StripPt(ToLower(str)));
    CollapseIsSingleSpaced(t);
    TrimOfSingleSpaced(CollapseSpaces(t, ' '));
  }

  /** A name already in normal form, with no standalone `pt` token in it, is its
      own normal form; "pt" inside a word does not matter. */
  lemma NormalizeFixesCleanName(name: string)
    requires IsNormalized(name) && NoPtToken(name)
    ensures Normalize(name) == name
  {
    assert ToLower(name) == name;
    assert StripPt(name) == name by {
      StripPtNoToken(name, 0);
      assert name[0..] == name;
    }
    assert StripPunctuation(name) == name by {
      StripPunctuationKeepsAll(name);
    }
    assert CollapseSpaces(name, ' ') == name by {
      NormalizedSpaces(name);
      CollapseSingleSpaced(name);
    }
    TrimOfTrimmed(name);
  }

  /** In a normalised name the only whitespace is the plain space. */
  lemma NormalizedSpaces(s: string)
    requires IsNormalized(s)
    ensures forall k :: 0 <= k < |s| ==> (IsSpace(s[k]) <==> s[k] == ' ')
  {
    forall k | 0 <= k < |s|
      ensures IsSpace(s[k]) <==> s[k] == ' '
    {
      if s[k] != ' ' {
        LetterNotSpace(s[k]);
      }
    }
  }

  lemma LetterNotSpace(c: char)
    requires IsLower(c) || IsDigit(c)
    ensures !IsSpace(c)
  {
  }

  /** A leading `PT. ` in front of any name is dropped: the name with and without
      it has the same normal form. */
  lemma NormalizeDropsCompanyPrefix(name: string)
    ensures Normalize("PT. " + name) == Normalize(name)
  {
    var lowered := ToLower(name);
    LowerOfPrefixed(name);
    StripPtOfPrefixed(lowered);
    var y := StripPunctuation(StripPt(lowered));
    PunctuationOfPrefixed(StripPt(lowered));
    CollapseTrimOfSpaced(y);
  }

  lemma LowerIdempotent(s: string)
    ensures ToLower(ToLower(s)) == ToLower(s)
  {
  }

  lemma LowerOfPrefixed(name: string)
    ensures ToLower("PT. " + name) == "pt. " + ToLower(name)
  {
  }

  /** The `pt` of the prefix goes; its dot and space stay, and the rest is
      stripped as it would be alone. */
  lemma StripPtOfPrefixed(lowered: string)
    ensures StripPt("pt. " + lowered) == ". " + StripPt(lowered)
  {
    assert "pt. " + lowered == "pt." + [' '] + lowered;
    StripPtSplit("pt.", ' ', lowered);
    assert StripPt("pt.") == "." by {
      var p := "pt.";
      assert BoundaryAt(p, 0) && BoundaryAt(p, 2) && !BoundaryAt(p, 3);
      assert PtMatchAt(p, 0) == 2;
      assert p[2] == '.';
      assert PtMatchAt(p, 2) == 0;
    }
  }

  lemma PunctuationOfPrefixed(t: string)
    ensures StripPunctuation(". " + t) == " " + StripPunctuation(t)
  {
    assert (". " + t)[1..] == " " + t;
    assert (" " + t)[1..] == t;
  }

  /** A leading space disappears in the whitespace-run replacement and the trim. */
  lemma CollapseTrimOfSpaced(y: string)
    ensures Trim(CollapseSpaces(" " + y, ' ')) == Trim(CollapseSpaces(y, ' '))
  {
    assert TrimStart(" " + y) == TrimStart(y) by {
      assert (" " + y)[1..] == y;
    }
    var z := CollapseSpaces(TrimStart(y), ' ');
    assert CollapseSpaces(" " + y, ' ') == " " + z;
    if |y| > 0 && IsSpace(y[0]) {
      assert CollapseSpaces(y, ' ') == " " + z;
    } else {
      assert TrimStart(y) == y;
    }
    assert TrimStart(" " + z) == TrimStart(z) by {
      assert (" " + z)[1..] == z;
    }
  }

  /** Whitespace-run replacement leaves text whose only whitespace is single spaces. */
  lemma {:induction false} CollapseSingleSpaced(s: string)
    requires forall k :: 0 <= k < |s| ==> IsSpace(s[k]) ==> s[k] == ' '
    requires forall k :: 0 <= k < |s| - 1 ==> !(IsSpace(s[k]) && IsSpace(s[k + 1]))
    ensures CollapseSpaces(s, ' ') == s
  {
    if |s| > 0 {
      CollapseSingleSpaced(s[1..]);
      if IsSpace(s[0]) {
        assert TrimStart(s) == s[1..];
      }
    }
  }

  /** Text made only of kept characters passes the punctuation filter unchanged. */
  lemma {:induction false} StripPunctuationKeepsAll(s: string)
    requires forall k :: 0 <= k < |s| ==> KeptChar(s[k])
    ensures StripPunctuation(s) == s
  {
    if |s| > 0 {
      StripPunctuationKeepsAll(s[1..]);
    }
  }

  // ---------------------------------------------------------------------------
  // getTrigrams
  // ---------------------------------------------------------------------------

  /** The three-character windows of `s`, left to right. */
  function Windows(s: string): (r: seq<string>)
    ensures |r| == if |s| < 3 then 0 else |s| - 2
    ensures forall i :: 0 <= i < |r| ==> r[i] == s[i..i + 3]
  {
    if |s| < 3 then [] else [s[..3]] + Windows(s[1..])
  }

  /** The name padded with two spaces on each side. */
  function Pad(str: string): string {
    "  " + str + "  "
  }

  /** `getTrigrams`: the windows of the padded string. */
  function GetTrigrams(str: string): (r: seq<string>)
    ensures |r| == |str| + 2
    ensures forall i :: 0 <= i < |r| ==> |r[i]| == 3 && r[i] == Pad(str)[i..i + 3]
  {
    Windows(Pad(str))
  }

  // ---------------------------------------------------------------------------
  // trigramSimilarity
  // ---------------------------------------------------------------------------

  /** The Dice coefficient of two window lists: twice the shared windows, each
      shared window counted min(countA, countB) times, over all windows. */
  function Dice(ta: seq<string>, tb: seq<string>): real
    requires |ta| + |tb| > 0
  {
    (2 * |multiset(ta) * multiset(tb)|) as real / (|ta| + |tb|) as real
  }

  /** `trigramSimilarity` as an exact ratio: 0 when a normalised name is empty,
      otherwise the Dice coefficient of the two names' windows. */
  function Similarity(a: string, b: string): real {
    var na := Normalize(a);
    var nb := Normalize(b);
    if |na| == 0 || |nb| == 0 then 0.0 else Dice(GetTrigrams(na), GetTrigrams(nb))
  }

  /** A multiset of `n` copies of `k`. */
  function Copies(k: string, n: nat): (m: multiset<string>)
    ensures |m| == n
    ensures forall x :: m[x] == if x == k then n else 0
  {
    if n == 0 then multiset{} else Copies(k, n - 1) + multiset{k}
  }

  lemma IntersectionBounded(A: multiset<string>, B: multiset<string>)
    ensures |A * B| <= |A| && |A * B| <= |B|
  {
    assert A == (A * B) + (A - B);
    assert B == (A * B) + (B - A);
  }

  lemma IntersectionAddKey(D: multiset<string>, B: multiset<string>, k: string, n: nat)
    requires D[k] == 0
    ensures (D + Copies(k, n)) * B == (D * B) + Copies(k, if n < B[k] then n else B[k])
  {
  }

  /** Adding the copies of a fresh key grows the intersection by the smaller count. */
  lemma SharedAfterKey(D: multiset<string>, B: multiset<string>, k: string, n: nat)
    requires D[k] == 0
    ensures |(D + Copies(k, n)) * B| == |D * B| + (if n < B[k] then n else B[k])
  {
    IntersectionAddKey(D, B, k, n);
  }

  lemma RatioInUnitRange(num: nat, den: nat)
    requires 0 < den && num <= den
    ensures 0.0 <= num as real / den as real <= 1.0
  {
  }

  lemma SelfRatio(x: nat)
    requires x > 0
    ensures x as real / x as real == 1.0
  {
  }

  /** The similarity is 0 whenever a normalised name is empty. */
  lemma SimilarityOfEmpty(a: string, b: string)
    requires |Normalize(a)| == 0 || |Normalize(b)| == 0
    ensures Similarity(a, b) == 0.0
  {
  }

  lemma DiceSymmetric(ta: seq<string>, tb: seq<string>)
    requires |ta| + |tb| > 0
    ensures Dice(ta, tb) == Dice(tb, ta)
  {
    assert multiset(ta) * multiset(tb) == multiset(tb) * multiset(ta);
  }

  /** The similarity does not depend on the order of its arguments. */
  lemma SimilaritySymmetric(a: string, b: string)
    ensures Similarity(a, b) == Similarity(b, a)
  {
    var na, nb := Normalize(a), Normalize(b);
    if |na| > 0 && |nb| > 0 {
      DiceSymmetric(GetTrigrams(na), GetTrigrams(nb));
    }
  }

  lemma DiceInUnitRange(ta: seq<string>, tb: seq<string>)
    requires |ta| + |tb| > 0
    ensures 0.0 <= Dice(ta, tb) <= 1.0
  {
    IntersectionBounded(multiset(ta), multiset(tb));
    RatioInUnitRange(2 * |multiset(ta) * multiset(tb)|, |ta| + |tb|);
  }

  /** The similarity is a ratio in [0, 1]: the shared windows are at most the
      windows of either name. */
  lemma SimilarityInUnitRange(a: string, b: string)
    ensures 0.0 <= Similarity(a, b) <= 1.0
  {
    var na, nb := Normalize(a), Normalize(b);
    if |na| > 0 && |nb| > 0 {
      DiceInUnitRange(GetTrigrams(na), GetTrigrams(nb));
    }
  }

  lemma DiceSelf(ta: seq<string>)
    requires |ta| > 0
    ensures Dice(ta, ta) == 1.0
  {
    assert multiset(ta) * multiset(ta) == multiset(ta);
    assert |multiset(ta)| == |ta|;
    SelfRatio(2 * |ta|);
  }

  /** Names with the same non-empty normal form score exactly 1. */
  lemma SimilarityOfEqualNames(a: string, b: string)
    requires Normalize(a) == Normalize(b) && |Normalize(a)| > 0
    ensures Similarity(a, b) == 1.0
  {
    DiceSelf(GetTrigrams(Normalize(a)));
  }

  /** A leading `PT. ` never changes a score, and a name with and without it is
      a perfect match. */
  lemma SimilarityIgnoresCompanyPrefix(a: string, b: string)
    ensures Similarity("PT. " + a, b) == Similarity(a, b)
    ensures |Normalize(a)| > 0 ==> Similarity("PT. " + a, a) == 1.0
  {
    NormalizeDropsCompanyPrefix(a);
    if |Normalize(a)| > 0 {
      SimilarityOfEqualNames("PT. " + a, a);
    }
  }

  /** The forms' `> 0.6` test on the ratio, stated over integers. */
  lemma DiceThreshold(ta: seq<string>, tb: seq<string>)
    requires |ta| + |tb| > 0
    ensures Dice(ta, tb) > 0.6 <==> 10 * 2 * |multiset(ta) * multiset(tb)| > 6 * (|ta| + |tb|)
  {
    RatioAbove(2 * |multiset(ta) * multiset(tb)|, |ta| + |tb|);
  }

  lemma RatioAbove(num: nat, den: nat)
    requires den > 0
    ensures num as real / den as real > 0.6 <==> 10 * num > 6 * den
  {
    var q := num as real / den as real;
    var d := den as real;
    assert q * d == num as real;
    if q > 0.6 {
      MulPositive(q - 0.6, d);
      assert num as real > 0.6 * d;
    }
    if 10 * num > 6 * den {
      if q <= 0.6 {
        MulPositive(0.6 - q, d);
        assert false;
      }
    }
  }

  lemma MulPositive(x: real, y: real)
    requires y > 0.0
    ensures x > 0.0 ==> x * y > 0.0
    ensures x >= 0.0 ==> x * y >= 0.0
  {
  }

  /** `trigramSimilarity` as written: two counting maps, then the loop over the
      entries of the first map. */
  method TrigramSimilarity(a: string, b: string) returns (r: real)
    ensures r == Similarity(a, b)
  {
    var normA := Normalize(a);
    var normB := Normalize(b);
    if |normA| == 0 || |normB| == 0 {
      return 0.0;
    }
    r := DiceOfWindows(GetTrigrams(normA), GetTrigrams(normB));
  }

  /** The body of `trigramSimilarity` after the emptiness test. */
  method DiceOfWindows(trigramsA: seq<string>, trigramsB: seq<string>) returns (r: real)
    requires |trigramsA| + |trigramsB| > 0
    ensures r == Dice(trigramsA, trigramsB)
  {
    var setA := CountWindows(trigramsA);
    var setB := CountWindows(trigramsB);
    var intersection := SharedWindows(setA, setB, multiset(trigramsA), multiset(trigramsB));
    var total := |trigramsA| + |trigramsB|;
    r := (2 * intersection) as real / total as real;
  }

  /** The loop over the entries of the first counting map, adding
      min(countA, countB) for every key the second map also has: the size of
      the multiset intersection. */
  method SharedWindows(setA: map<string, nat>, setB: map<string, nat>,
                       ghost A: multiset<string>, ghost B: multiset<string>)
    returns (intersection: nat)
    requires forall x :: x in setA <==> x in A
    requires forall x :: x in setA ==> setA[x] == A[x]
    requires forall x :: x in setB <==> x in B
    requires forall x :: x in setB ==> setB[x] == B[x]
    ensures intersection == |A * B|
  {
    intersection := 0;
    var keys := setA.Keys;
    ghost var done: multiset<string> := multiset{};
    while keys != {}
      invariant keys <= setA.Keys
      invariant forall x :: x in keys ==> done[x] == 0
      invariant forall x :: x !in keys ==> done[x] == A[x]
      invariant intersection == |done * B|
      decreases keys
    {
      var key :| key in keys;
      var countA := setA[key];
      var shared := if key in setB then (if countA < setB[key] then countA else setB[key]) else 0;
      assert shared == (if countA < B[key] then countA else B[key]);
      SharedAfterKey(done, B, key, countA);
      intersection := intersection + shared;
      done := done + Copies(key, countA);
      keys := keys - {key};
    }
    assert forall x :: done[x] == A[x];
    assert done == A;
  }

  /** The counting loop `set.set(t, (set.get(t) || 0) + 1)` over the windows. */
  method CountWindows(ts: seq<string>) returns (counts: map<string, nat>)
    ensures forall x :: x in counts <==> x in multiset(ts)
    ensures forall x :: x in counts ==> counts[x] == multiset(ts)[x]
  {
    counts := map[];
    for i := 0 to |ts|
      invariant forall x :: x in counts <==> x in multiset(ts[..i])
      invariant forall x :: x in counts ==> counts[x] == multiset(ts[..i])[x]
    {
      var t := ts[i];
      assert ts[..i + 1] == ts[..i] + [t];
      counts := counts[t := (if t in counts then counts[t] else 0) + 1];
    }
    assert ts[..|ts|] == ts;
  }
}

=== FILE: update_page.dfy ===
/** The edit-submission page beyond its schema: whether the stored partner is a
    known one (which locks its fields), the duplicate warning, loading the
    stored submission into the form, and what a submit sends. */
module UpdatePage {
  import opened Wrappers
  import opened SubmissionTypes
  import opened SubmissionSchema
  import SubmissionService
  import SubmitPage
  import Trigram

  /** The stored MoA/IA part of a submission, as the details endpoint gives it. */
  datatype MoaIaDetails = MoaIaDetails(partner: PartnerFields, studentSnapshots: seq<Group>)

  datatype SubmissionDetails = SubmissionDetails(notes: Option<string>, moaIa: Option<MoaIaDetails>)

  /** `isPartnerExisting`: the stored partner appears in the loaded list with the
      same name and the same number. */
  function IsPartnerExisting(details: Option<SubmissionDetails>, partners: Option<seq<PartnerFields>>): (r: bool)
    ensures r <==> details.Some? && details.value.moaIa.Some? && partners.Some?
                   && exists i :: 0 <= i < |partners.value|
                        && partners.value[i].partnerName == details.value.moaIa.value.partner.partnerName
                        && partners.value[i].partnerNumber == details.value.moaIa.value.partner.partnerNumber
  {
    details.Some? && details.value.moaIa.Some? && partners.Some?
    && SamePartnerIn(partners.value, details.value.moaIa.value.partner)
  }

  predicate SamePartnerIn(partners: seq<PartnerFields>, p: PartnerFields) {
    exists i :: 0 <= i < |partners| && partners[i].partnerName == p.partnerName
                && partners[i].partnerNumber == p.partnerNumber
  }

  /** The warnings of the edit page, or `None` when the debounced callback
      throws. The watched name and number are `undefined` until the loaded
      submission resets the form, and `trigramSimilarity` is computed before
      the lock is consulted: with an unset name `normalize` fails on the first
      partner, so nothing is shown. Otherwise there are no warnings while the
      partner fields are locked, and every similar partner with the same number
      when they are not. Unlike the create page, an empty name or number is not
      excluded up front. */
  function UpdateWarnings(disabled: bool, partners: seq<PartnerFields>, name: Option<string>, number: Option<string>)
    : (r: Option<seq<PartnerFields>>)
    ensures r.None? <==> name.None? && |partners| > 0
    ensures r.Some? && (disabled || name.None? || number.None?) ==> r.value == []
    ensures r.Some? && !disabled && name.Some? && number.Some? ==>
              r.value == SubmitPage.SimilarPartners(partners, name.value, number.value)
  {
    if name.None? then (if |partners| > 0 then None else Some([]))
    else if disabled || number.None? then Some([])
    else Some(SubmitPage.SimilarPartners(partners, name.value, number.value))
  }

  /** A name that normalises to nothing resembles no partner, so it draws no
      warning even without the create page's emptiness check. */
  lemma EmptyNameNotWarned(disabled: bool, partners: seq<PartnerFields>, name: string, number: Option<string>)
    requires Trigram.Normalize(name) == ""
    ensures UpdateWarnings(disabled, partners, Some(name), number) == Some([])
  {
    var r := UpdateWarnings(disabled, partners, Some(name), number).value;
    if |r| > 0 {
      Trigram.SimilarityOfEmpty(r[0].partnerName, name);
    }
  }

  /** A submission whose partner is in the list is never warned about while
      being edited, though its name matches its own list entry exactly; only an
      unset name still makes the callback throw. */
  lemma KnownPartnerNotWarned(details: Option<SubmissionDetails>, partners: seq<PartnerFields>,
                              name: Option<string>, number: Option<string>)
    requires IsPartnerExisting(details, Some(partners))
    ensures UpdateWarnings(IsPartnerExisting(details, Some(partners)), partners, name, number)
              == if name.None? then None else Some([])
  {
  }

  /** The `form.reset` once the submission has loaded: notes default to the
      empty string, the partner fields and groups are copied as stored. There is
      no reset before the MoA/IA part has arrived. */
  function ResetValues(details: Option<SubmissionDetails>): (r: Option<UpdateForm<Group>>)
    ensures r.None? <==> details.None? || details.value.moaIa.None?
    ensures r.Some? ==> r.value.notes == Some(details.value.notes.GetOr(""))
    ensures r.Some? ==> r.value.moaIa.partner == details.value.moaIa.value.partner
    ensures r.Some? ==> r.value.moaIa.studentSnapshots == details.value.moaIa.value.studentSnapshots
  {
    if details.None? || details.value.moaIa.None? then None
    else
      var m := details.value.moaIa.value;
      var groups := seq(|m.studentSnapshots|, i requires 0 <= i < |m.studentSnapshots| =>
                          Snapshot(m.studentSnapshots[i].studyProgram, m.studentSnapshots[i].students,
                                   m.studentSnapshots[i].unit));
      Some(UpdateForm(Some(details.value.notes.GetOr("")), UpdateMoaIa(m.partner, groups)))
  }

  /** `onSubmit`: the validated form's notes and MoA/IA part, nothing more; the
      schema must accept the form first. */
  function OnSubmit(isEmail: string -> bool, f: UpdateForm<Group>): (r: Option<UpdateForm<Group>>)
    ensures r.Some? <==> ValidUpdateForm(isEmail, f)
    ensures r.Some? ==> r.value.notes == f.notes && r.value.moaIa == f.moaIa
  {
    if ValidUpdateForm(isEmail, f) then Some(UpdateForm(f.notes, f.moaIa)) else None
  }

  /** The submit button. */
  predicate SubmitDisabled(isPending: bool, formValid: bool) {
    isPending || !formValid
  }

  /** Saving a loaded submission without edits sends back what was stored: the
      same partner and groups, each group stamped with its student count, and
      the notes as stored (missing ones as empty). */
  lemma UneditedSaveRoundTrip(isEmail: string -> bool, details: SubmissionDetails)
    requires details.moaIa.Some?
    requires ValidUpdateForm(isEmail, ResetValues(Some(details)).value)
    ensures var sent := OnSubmit(isEmail, ResetValues(Some(details)).value);
            && sent.Some?
            && var payload := SubmissionService.UpdatePayload(sent.value);
            && payload.moaIa.partner == details.moaIa.value.partner
            && payload.notes == Some(details.notes.GetOr(""))
            && |payload.moaIa.studentSnapshots| == |details.moaIa.value.studentSnapshots|
            && forall i :: 0 <= i < |payload.moaIa.studentSnapshots| ==>
                 SubmissionService.Unstamp(payload.moaIa.studentSnapshots[i]) == details.moaIa.value.studentSnapshots[i]
                 && payload.moaIa.studentSnapshots[i].total == |details.moaIa.value.studentSnapshots[i].students|
  {
  }
}

=== FILE: update_user.dfy ===
/** The profile page: a student's NIM and study program, shown read-only and
    edited through a small validated form. */
module UpdateUserPage {
  import opened Wrappers
  import opened Text
  import opened AuthStore
  import opened SubmissionTypes
  import Access

  /** `StudentUpdateFormValues`. */
  datatype StudentForm = StudentForm(nim: string, studyProgram: string)

  const EmptyStudentForm := StudentForm("", "")

  const NimTooShort := "NIM minimal 11 karakter"
  const NimNotNumeric := "NIM hanya boleh berisi angka"
  const ProgramMissing := "Program studi harus diisi"

  const MinNimLength := 11

  predicate AllDigits(s: string) {
    forall i :: 0 <= i < |s| ==> IsDigit(s[i])
  }

  /** `/^\d+$/`: one or more digits and nothing else. */
  predicate Numeric(s: string) {
    |s| > 0 && AllDigits(s)
  }

  /** The messages `updateStudentSchema` reports, in field order; zod checks
      every rule of a string, so a short non-numeric NIM gets both messages. */
  function StudentFormErrors(f: StudentForm): (errs: seq<string>)
    ensures NimTooShort in errs <==> |f.nim| < MinNimLength
    ensures NimNotNumeric in errs <==> !Numeric(f.nim)
    ensures ProgramMissing in errs <==> f.studyProgram == ""
    ensures |errs| <= 3
  {
    (if |f.nim| < MinNimLength then [NimTooShort] else [])
    + (if !Numeric(f.nim) then [NimNotNumeric] else [])
    + (if f.studyProgram == "" then [ProgramMissing] else [])
  }

  predicate ValidStudentForm(f: StudentForm) {
    |f.nim| >= MinNimLength && AllDigits(f.nim) && f.studyProgram != ""
  }

  /** The form submits exactly when the schema reports nothing. */
  lemma StudentFormErrorsExact(f: StudentForm)
    ensures StudentFormErrors(f) == [] <==> ValidStudentForm(f)
  {
    if !ValidStudentForm(f) {
      if |f.nim| < MinNimLength {
        assert NimTooShort in StudentFormErrors(f);
      } else if !AllDigits(f.nim) {
        assert NimNotNumeric in StudentFormErrors(f);
      } else {
        assert ProgramMissing in StudentFormErrors(f);
      }
    }
  }

  /** The page's edit state and the form's values. */
  datatype EditState = EditState(isEditing: bool, form: StudentForm)

  /** `toggleEditMode`: entering edit mode reloads the form from the signed-in
      user (missing values as empty); leaving it keeps whatever was typed. */
  function ToggleEditMode(st: EditState, user: Option<User>): (r: EditState)
    ensures r.isEditing == !st.isEditing
    ensures st.isEditing ==> r.form == st.form
    ensures !st.isEditing && user.Some? && user.value.nim.Some? ==> r.form.nim == user.value.nim.value
    ensures !st.isEditing && (user.None? || user.value.nim.None?) ==> r.form.nim == ""
    ensures !st.isEditing && user.Some? && user.value.studyProgram.Some? ==> r.form.studyProgram == user.value.studyProgram.value
    ensures !st.isEditing && (user.None? || user.value.studyProgram.None?) ==> r.form.studyProgram == ""
  {
    if st.isEditing then st.(isEditing := false)
    else
      var program := if user.Some? && user.value.studyProgram.Some? then user.value.studyProgram.value else "";
      var nim := if user.Some? && user.value.nim.Some? then user.value.nim.value else "";
      EditState(true, StudentForm(nim, program))
  }

  /** Opening the editor twice from view mode shows the same stored values, and
      whatever was typed, cancelling and reopening discards it. */
  lemma ReopeningDiscardsEdits(st: EditState, typed: StudentForm, user: Option<User>)
    requires !st.isEditing
    ensures var shown := ToggleEditMode(st, user);
            var reopened := ToggleEditMode(ToggleEditMode(shown.(form := typed), user), user);
            reopened == shown
  {
  }

  /** The badge: students, staff, and everyone else as administrators. */
  function RoleBadge(user: Option<User>): (r: string)
    ensures user.Some? && user.value.role == Student <==> r == "Mahasiswa"
    ensures user.Some? && user.value.role == Staff <==> r == "Staf"
    ensures r in {"Mahasiswa", "Staf", "Admin"}
  {
    if user.Some? && user.value.role == Student then "Mahasiswa"
    else if user.Some? && user.value.role == Staff then "Staf"
    else "Admin"
  }

  /** The read-only study program: the option's label, or a dash when the
      stored value is not one of the options. */
  function ProgramLabel(user: Option<User>): (r: string)
    ensures r == "-" <==> user.None? || user.value.studyProgram.None?
                          || forall i :: 0 <= i < |StudyProgramOptions| ==> StudyProgramOptions[i].value != user.value.studyProgram.value
    ensures r != "-" ==> user.Some? && user.value.studyProgram.Some?
                         && exists i :: 0 <= i < |StudyProgramOptions|
                                        && StudyProgramOptions[i].value == user.value.studyProgram.value
                                        && StudyProgramOptions[i].caption == r
                                        && forall j :: 0 <= j < i ==> StudyProgramOptions[j].value != user.value.studyProgram.value
  {
    if user.None? || user.value.studyProgram.None? then "-"
    else match FindLabel(StudyProgramOptions, user.value.studyProgram.value)
      case None => "-"
      case Some(c) =>
        OfferedCaptionsNonEmpty();
        if c == "" then "-" else c
  }

  /** The request `onSubmit` sends: nothing without a user; otherwise the user's
      id and the form's values. */
  datatype UpdateStudentRequest = UpdateStudentRequest(userId: string, nim: string, studyProgram: string)

  function OnSubmit(user: Option<User>, data: StudentForm): (r: Option<UpdateStudentRequest>)
    ensures r.None? <==> user.None?
    ensures r.Some? ==> r.value.userId == user.value.id && r.value.nim == data.nim
                        && r.value.studyProgram == data.studyProgram
  {
    if user.None? then None else Some(UpdateStudentRequest(user.value.id, data.nim, data.studyProgram))
  }

  /** `useUpdateStudent`'s success handler: the NIM and study program the
      server answered with go into the session store. */
  function OnUpdateSuccess(st: AuthState, answered: Option<StudentForm>): (r: AuthState)
    ensures answered.None? ==> r == st
    ensures answered.Some? && st.user.Some? ==>
              r.user.Some? && r.user.value.nim == Some(answered.value.nim)
              && r.user.value.studyProgram == Some(answered.value.studyProgram)
              && r.user.value.role == st.user.value.role
  {
    if answered.None? then st
    else UpdateFields(st, NoChange.(nim := Some(answered.value.nim),
                                    studyProgram := Some(answered.value.studyProgram)))
  }

  /** A student who saves a valid profile, echoed back by the server, may then
      create submissions. */
  lemma SavedProfileAllowsSubmission(st: AuthState, f: StudentForm)
    requires st.user.Some? && st.user.value.role == Student
    requires ValidStudentForm(f)
    ensures Access.CanCreateSubmission(OnUpdateSuccess(st, Some(f)).user).allowed
  {
  }
}

=== FILE: wrappers.dfy ===
/** Failure-compatible helper datatypes shared by every module of the model. */
module Wrappers {

  /** The model of a TypeScript value that may be `null` or `undefined`. */
  datatype Option<+T> = None | Some(value: T) {

    /** The value, or `default` when absent (the `?? default` operator). */
    function GetOr(default: T): T {
      match this
      case Some(v) => v
      case None => default
    }
  }
}
